=== FILE: README.md ===
# Fantasy football backend: platform adapters and league endpoints in Dafny

This project models the core of a fantasy-football backend. The backend lets a
user connect ESPN and Sleeper leagues and serves normalized league, team,
matchup, player, waiver-budget and trade data. The model covers:

- the two HTTP clients' retry and back-off loops (`EspnFetch`, `SleeperFetch`);
- the ESPN adapter (`EspnRecords`, `EspnStats`, `EspnService`):
  - team display names, league info, rosters and free agents;
  - matchups with live scores and projected team scores;
  - waiver budgets and trade validation;
- the Sleeper adapter (`SleeperService`):
  - league membership, roster lookup and owner names;
  - the position map and the stats endpoint paths;
- credential storage (`Credentials`): encryption round trip, cookies for a
  user or a league, and the register and profile-update endpoints;
- the database as sequences of rows with upserts by natural key (`Tables`,
  `Store`), and the league endpoints built on them:
  - ESPN connect, sync, matchups, waiver budgets, list, get and disconnect
    (`Leagues`, `Store`);
  - Sleeper connect (`SleeperLeagues`);
- the player search and free-agent endpoints (`Players`);
- trade analysis and creation (`Trades`);
- the weekly recap prompt and endpoint (`WeeklyRecap`);
- the rate-limiting and security-header middlewares (`Middleware`).

Upstream responses, the cipher, the clock and the text-generation service are
all parameters:

- Each HTTP attempt is an abstract outcome, and an upstream call is a function
  from the request (`Call`) to a typed view of the decoded JSON or an error.
- A table is a `seq` of rows whose autoincrement id is its index plus one.
- `scalar_one_or_none()` is "the first matching row".

An endpoint returns either the response or the HTTP status it raises.

`Wrappers`, `Seqs` and `Text` hold generic helpers: `Option`/`Result`,
filter/map/find/sort on sequences, and integer printing and parsing,
`strip()`, `lower()` and substring search on strings.

Behaviour of the code worth knowing:

- **ESPN retries.** The ESPN client retries only on 429, waiting 2^attempt
  seconds, and on request errors, waiting one second. A 5xx status is not
  retried: `raise_for_status()` raises an `httpx.HTTPStatusError` at once.
  That error is not an `ESPNError`, so every handler answers it with 500 (or,
  for connect and sync, re-raises it as 500).
- **Rate-limit errors.** A 429 on the last ESPN attempt falls out of the loop
  as `ESPNConnectionError("Max retries exceeded")`, not as a separate
  rate-limit error.
- **Sleeper 404.** The Sleeper client fails at once on 404.
- **Sleeper 429.** The Sleeper client retries 429 without sleeping. On the
  last attempt it raises a plain `SleeperError` ("Rate limit exceeded").
- **Trade validation.** It does not reject identical proposing and receiving
  teams (`EspnService.SelfTradeValidates`).
- **Trade creation.** It does not check that the give and receive lists are
  non-empty or disjoint.
- **Sleeper groups.** A matchup group of any size other than two produces no
  line: the prompt builder writes a line only for a group of exactly two.
- **Available players.** The average points of an available player divide the
  season total by 17, as written.

## Model

| member | source | states |
|---|---|---|
| EspnFetch.Run | backend/app/services/espn_service.py:63-127 | from attempt `a`, the loop makes between `a+1` and `max_retries` requests and never sleeps more often than it requests |
| EspnFetch.MakeRequest | backend/app/services/espn_service.py:47-127 | at most `max_retries` requests are made (at least one when the bound is positive), and every back-off sleep follows a request |
| EspnFetch.RunFirstDecisive | backend/app/services/espn_service.py:63-125 | the loop answers with the verdict of the first attempt that ends it (200, 401, a non-2xx other than 429, or a request error on the last try), after exactly that many requests and the back-offs of the attempts before it |
| EspnFetch.RunExhausted | backend/app/services/espn_service.py:63-127 | when no attempt ends the loop, it raises "max retries exceeded" after `max_retries` requests |
| EspnFetch.MakeRequestCharacterized | backend/app/services/espn_service.py:47-127 | every run is one of the two cases: decided by its first decisive attempt, or exhausted |
| EspnFetch.UnauthorizedIsImmediate | backend/app/services/espn_service.py:108-110 | a 401 is never retried: one request, no sleep, authentication error |
| EspnFetch.OkIsNeverRetried | backend/app/services/espn_service.py:73-102 | a 200 after only retryable attempts ends the loop with its body's verdict |
| EspnFetch.ThreeRateLimits | backend/app/services/espn_service.py:111-115 | three 429s sleep 1, 2 and 4 seconds, then the loop gives up with "max retries exceeded" |
| SleeperFetch.Run | backend/app/services/sleeper_service.py:78-117 | from attempt `a`, the loop makes between `a+1` and `max_retries` requests |
| SleeperFetch.MakeRequest | backend/app/services/sleeper_service.py:56-119 | at most `max_retries` requests are made, at least one when the bound is positive |
| SleeperFetch.RunEndsAt | backend/app/services/sleeper_service.py:78-117 | the loop returns the verdict of the first attempt that is not a 429, timeout or request error, or else of the last attempt |
| SleeperFetch.MaxRetriesUnreachable | backend/app/services/sleeper_service.py:96-119 | with a positive bound the final "max retries exceeded" raise can never happen, because the last attempt always raises |
| SleeperFetch.ErrorStatusIsImmediate | backend/app/services/sleeper_service.py:92-105 | a first response other than 200 or 429 fails at once: 404 as not found, any other status as an API error carrying it |
| SleeperFetch.ThreeRateLimits | backend/app/services/sleeper_service.py:96-101 | three 429s raise the rate-limit error after three requests |
| EspnRecords.ProTeamAbbrUnknown | backend/app/services/espn_service.py:635-645 | the abbreviation is "FA" exactly for ids outside the team table (31 among them); 33 is "BAL" |
| EspnRecords.SlotNamesAgreeWithPositions | backend/app/services/espn_service.py:35-45 | every lineup slot has the same name in the position table; bench is 20 and IR is 21; unknown ids name "UNKNOWN" |
| EspnStats.BucketIsLast | backend/app/services/espn_service.py:610-623 | the actual and projected buckets each hold the LAST entry of their source in the week |
| EspnStats.ExtractPlayerStatsLastWins | backend/app/services/espn_service.py:610-623 | the extracted stats are the last actual and last projected entries of the week, and "actual" is present iff such an entry exists |
| EspnStats.ProjectedPointsOf | backend/app/services/espn_service.py:625-633 | the projected points are the applied total of the FIRST projected entry of the week, or 0 when there is none |
| EspnStats.SeasonPoints | backend/app/services/espn_service.py:321-324 | season points are the sum of the applied totals of all actual-source entries, whatever their week |
| EspnStats.AveragePoints | backend/app/services/espn_service.py:326-328 | positive season points average to a seventeenth of themselves; otherwise the average is 0 |
| EspnStats.DetermineScoringType | backend/app/services/espn_service.py:580-592 | the first reception item worth 1.0 or 0.5 points decides PPR or half-PPR; without one the league is standard |
| EspnStats.OtherReceptionValuesSkipped | backend/app/services/espn_service.py:584-590 | a reception item worth anything else does not decide: the scan goes on to the rest |
| EspnService.CookiesToDict | backend/app/services/espn_service.py:17-23 | the cookie dict has exactly the truthy cookies, under "espn_s2" and "SWID" |
| EspnService.ChooseName | backend/app/services/espn_service.py:199-211 | the display name is never empty or padded; the custom name wins, then "location nickname", then the location alone, then the nickname alone, then "Team <abbrev>", and with every field empty it is "Team <id>" |
| EspnService.DisplayName | backend/app/services/espn_service.py:186-211 | a team's display name is non-empty and has no surrounding whitespace |
| EspnService.DisplayNameIgnoresPadding | backend/app/services/espn_service.py:186-189 | padding around the name fields does not change the display name |
| EspnService.DisplayNameOfStrippedFields | backend/app/services/espn_service.py:186-211 | for already-stripped fields, the display name is the priority choice among them |
| EspnService.ChooseNameExamples | backend/app/services/espn_service.py:199-211 | "Green Bay Packers", "Team GB", "Team 9", "Team Unknown" and "Green Bay" come from the documented field combinations |
| EspnService.GetTeams | backend/app/services/espn_service.py:151-232 | one summary per team, in order, with the team's id, its display name and its stripped location, nickname and abbreviation; wins, losses, ties, points for and points against are the record's values, or 0 and 0.0 when missing |
| EspnService.GetLeagueInfo | backend/app/services/espn_service.py:129-149 | size is the number of teams; the name defaults to "Unknown League" and the week to 1; the scoring type comes from the scoring items |
| EspnService.LeagueInfoSizeIsTeamCount | backend/app/services/espn_service.py:139 | the league size equals the number of team summaries |
| EspnService.GetTeamRoster | backend/app/services/espn_service.py:234-283 | a roster is found iff some team has the id, and it is the first such team's, entry for entry: each player carries its entry's player id, name, position id and name, pro team, lineup slot id and name, and its stats for the requested week; otherwise the error names the team; the week is the given truthy week, else the league's current one |
| EspnService.OnLoadedRoster | backend/app/services/espn_service.py:234-283 | a player id is on a loaded roster exactly when an entry of the first team with the id holds that player |
| EspnService.GetAvailablePlayers | backend/app/services/espn_service.py:285-360 | the request's failure is passed on unchanged and success stays success |
| EspnService.AvailablePlayersCorrect | backend/app/services/espn_service.py:301-354 | the result is sorted by projected points, descending, and is a permutation of the descriptions of exactly the unrostered players of the asked position; players with equal projections stay in fetch order; averages are season points over 17 |
| EspnService.ChosenAreAvailable | backend/app/services/espn_service.py:305-311 | every chosen player is on no team and, with a position filter, has that position |
| EspnService.SortedAverages | backend/app/services/espn_service.py:326-354 | sorting keeps each player's average equal to a seventeenth of positive season points, or 0 |
| EspnService.SideScore | backend/app/services/espn_service.py:397-407 | a side's score is its live total, else its points for the week's period, else its final total (0 when absent) |
| EspnService.SideScoreExample | backend/app/services/espn_service.py:397-407 | a side with only {"3": 42.0} scores 42.0 in week 3; in another week it falls back to its total |
| EspnService.StarterTotal | backend/app/services/espn_service.py:458-470 | the team projection sums the projected points of starters only: bench (20) and IR (21) entries count for nothing |
| EspnService.ProjectedTeamScore | backend/app/services/espn_service.py:431-474 | the projection is absent for a falsy team id, a failed roster fetch or no team with the id; for the FIRST team with the id it is present exactly when the starters' projected sum is positive, and is then that sum |
| EspnService.NonStartersIgnored | backend/app/services/espn_service.py:460-462 | inserting a bench or IR entry anywhere leaves the starters' total unchanged |
| EspnService.EntryWithProjects | backend/app/services/espn_service.py:625-633 | an entry with one projected stat for the week projects exactly that value |
| EspnService.ProjectionExample | backend/app/services/espn_service.py:458-470 | starters projected 10.0, 5.5 and 0.0 plus bench players projected 99.0 and 50.0 total 15.5 |
| EspnService.GetMatchups | backend/app/services/espn_service.py:362-429 | one matchup per schedule entry of the asked period, in order, each carrying its entry's id, period and home and away team ids, the scores of both sides for the entry's period (else the asked week, else 1), the two sides' projections, the playoff flag and the winner ("UNDECIDED" when absent) |
| EspnService.GetWaiverBudgets | backend/app/services/espn_service.py:503-533 | one budget per team, in order: total is the league budget (100 by default), spent is the team's counter (0 by default), and current = total - spent |
| EspnService.ValidateTrade | backend/app/services/espn_service.py:535-578 | valid iff both rosters load and every given id is on the proposing roster and every received id on the receiving roster; otherwise the error is the first failed fetch, or names the first missing player, checking the give side first |
| EspnService.SelfTradeValidates | backend/app/services/espn_service.py:535-578 | a team trading its own players with itself validates: identical teams are not rejected |
| Credentials.EncryptData | backend/app/utils/encryption.py:23-30 | the empty string encrypts to ""; under a well-formed cipher only it does |
| Credentials.DecryptData | backend/app/utils/encryption.py:33-44 | a falsy ciphertext decrypts to none; any other goes through the cipher, which yields none on failure |
| Credentials.EncryptDecryptRoundTrip | backend/app/utils/encryption.py:23-44 | decrypting an encryption gives back a non-empty string exactly, and none for the empty string |
| Credentials.CookiesForUser | backend/app/utils/encryption.py:65-81 | no cookies without stored columns; otherwise exactly the columns that decrypt to something truthy, under "espn_s2" and "SWID", or none when neither does |
| Credentials.LeagueCookies | backend/app/api/leagues.py:259-265 | a league's cookies exist iff one of its columns decrypts to something truthy, and then carry both decryptions |
| Credentials.LeagueCookiesAgreeWithUserCookies | backend/app/api/players.py:43-48 | the league-cookie route and the user-cookie route send the same cookie dict |
| Credentials.Register | backend/app/api/auth.py:26-36 | registration stores the encryption of exactly the truthy credentials |
| Credentials.UpdateColumn | backend/app/api/auth.py:93-103 | an absent field leaves the column, an empty one clears it, a non-empty one stores its encryption |
| Credentials.UpdateProfile | backend/app/api/auth.py:92-103 | both columns follow that rule independently |
| Credentials.RegisteredCookies | backend/app/api/auth.py:26-36 | after registering, the user's cookies are exactly the credentials that were given |
| Credentials.UpdatedCookies | backend/app/api/auth.py:92-105 | after an update, a cleared credential is gone from the cookies and a given one is sent as given |
| Store.OwnedLeague | backend/app/api/leagues.py:209-215 | a league is found iff the id names a row owned by the user, and it is that row |
| Store.GetLeague | backend/app/api/leagues.py:202-231 | the owned league row, or 404 exactly when there is none |
| Store.UserLeagues | backend/app/api/leagues.py:181-193 | every listed league is owned by the user and active |
| Store.UserLeaguesExactly | backend/app/api/leagues.py:186-192 | the list holds exactly the user's active leagues, in table order |
| Store.Disconnect | backend/app/api/leagues.py:356-387 | 404 exactly when the league is not owned; otherwise only that league changes, and it becomes inactive |
| Store.DisconnectUnlists | backend/app/api/leagues.py:376-377 | after a disconnect the league leaves its owner's list, nothing else enters or leaves anyone's list, and the league can still be fetched by id |
| Leagues.ConnectCookies | backend/app/api/leagues.py:42-56 | cookies given in the request take precedence over the user's stored ones |
| Leagues.ConnectCookiesPrecedence | backend/app/api/leagues.py:42-56 | the dict sent is the request's cookies when any is truthy, else the user's stored cookies (or none) |
| Leagues.StoredCookies | backend/app/api/leagues.py:259-265 | sync builds cookies whenever either column is stored |
| Leagues.StoredCookiesAgree | backend/app/api/leagues.py:259-265 | sync's cookies send the same dict as the other endpoints' and as the user-cookie helper's |
| Leagues.EspnTeamSyncLawful | backend/app/api/leagues.py:117-155 | the team upsert keeps keys, creates under the item's key, and is idempotent |
| Leagues.TeamsSynced | backend/app/api/leagues.py:117-155 | after the team loop every fetched team has a row of the league holding its last fetched values, and rows of other leagues or of unfetched teams are unchanged |
| Leagues.Encrypted | backend/app/api/leagues.py:104-111 | a credential column is written iff the request field is truthy |
| Leagues.LeagueIndex | backend/app/api/leagues.py:70-74 | the existing league is the first with the ESPN id, or there is none |
| Leagues.EspnFailure | backend/app/api/leagues.py:166-177 | an ESPN error gives an unsuccessful response with the database unchanged; any other error is a 500 |
| Leagues.ConnectWith | backend/app/api/leagues.py:70-157 | connect updates the league with the ESPN id or appends one, owned by the user, active and carrying the fetched info; no other league and no budget changes |
| Leagues.ConnectWithSyncsTeams | backend/app/api/leagues.py:117-157 | the teams connect leaves are the fetched teams synced into the connected league, which `Leagues.TeamsSynced` describes |
| Leagues.ConnectStoresCredentials | backend/app/api/leagues.py:104-111 | a truthy request credential is stored encrypted; a falsy one leaves the stored column as it was |
| Leagues.Connect | backend/app/api/leagues.py:34-177 | a successful connect leaves the league owned by the user and in their list; an ESPN failure leaves the database unchanged; anything else is a 500 |
| Leagues.ConnectIdempotent | backend/app/api/leagues.py:34-177 | connecting the same league twice with the same data, even with a fresh encryption, keeps the league's id, its teams and every other row; the league's stored credentials decrypt to the same values; without credentials in the request the database is exactly as one connect left it |
| Leagues.SyncWith | backend/app/api/leagues.py:273-280 | sync rewrites only the league's info and sync time; identity, owner, credentials and activity are kept |
| Leagues.SyncLeague | backend/app/api/leagues.py:234-352 | 404 for a league that is not owned; a successful sync stamps the time and keeps the league reachable; an ESPN failure leaves the database unchanged |
| Leagues.SyncAfterConnectKeepsTeams | backend/app/api/leagues.py:288-327 | syncing the teams just connected changes no team row |
| Leagues.TeamFor | backend/app/api/leagues.py:443-459 | a team is found iff the ESPN team id is truthy and a row of the league has it |
| Leagues.GetLeagueMatchups | backend/app/api/leagues.py:399-500 | each matchup belongs to the league, carries the asked week when it is truthy, and names exactly the stored team it links; errors are 400, 404 and 500 |
| Leagues.MatchupTeamsResolved | backend/app/api/leagues.py:443-480 | a side links a team iff its ESPN id is truthy and stored for the league, and the linked row has that ESPN id |
| Leagues.Resolve | backend/app/api/leagues.py:541-552 | budgets of teams not stored are skipped; every kept one is linked to a team of the league with its ESPN id |
| Leagues.ResolveKeepsKnown | backend/app/api/leagues.py:541-552 | the kept budgets are exactly those of stored teams, in order |
| Leagues.BudgetSyncLawful | backend/app/api/leagues.py:554-579 | the budget upsert (keyed by team, league and season) is lawful |
| Leagues.GetWaiverBudgetsHandler | backend/app/api/leagues.py:504-616 | each summary names a stored team of the league with current = total - spent; leagues and teams are untouched; errors are 400, 404 and 500 |
| Leagues.WaiverBudgetsStored | backend/app/api/leagues.py:554-579 | after the loop each team's budget row for the season holds its last fetched budget, and rows of other leagues or seasons are unchanged |
| Leagues.BudgetsFramed | backend/app/api/leagues.py:554-579 | budget rows of other leagues or seasons are unchanged |
| Leagues.BudgetReflected | backend/app/api/leagues.py:554-579 | each fetched budget is reflected in a stored row |
| SleeperService.ValidateLeagueAccess | backend/app/services/sleeper_service.py:362-377 | a user is a member iff the user list contains their id; a Sleeper error means "not a member", a decoding error propagates |
| SleeperService.MembershipIgnoresOthers | backend/app/services/sleeper_service.py:362-377 | membership depends only on the entries carrying the user's id |
| SleeperService.GetTeamRoster | backend/app/services/sleeper_service.py:340-360 | the first roster with the id, or not-found when no roster has it |
| SleeperService.RosterLookupStopsAtFirst | backend/app/services/sleeper_service.py:340-360 | rosters after the first match do not matter |
| SleeperService.TeamName | backend/app/api/sleeper_leagues.py:141-146 | a roster is named by the first user owning it (default name when that user has none), else "Team <roster_id>" |
| SleeperService.DefaultTeamNamesDistinct | backend/app/api/sleeper_leagues.py:146 | distinct roster ids never get the same default name |
| SleeperService.MapPosition | backend/app/services/sleeper_service.py:379-389 | a known code maps to the app's name, which maps to itself; an unknown code is kept |
| SleeperService.MapPositionIdempotent | backend/app/services/sleeper_service.py:43-54 | mapping twice equals mapping once; BN, DEF and SUPER_FLEX map to BENCH, D/ST and SFLEX |
| SleeperService.SeasonPathSegments | backend/app/services/sleeper_service.py:309-312 | the stats path splits into kind, "nfl", "regular", the season and, for a truthy week only, the week, and the numbers parse back |
| SleeperService.StatsAndProjectionsAgree | backend/app/services/sleeper_service.py:331-334 | stats and projections paths differ only in their first segment |
| SleeperLeagues.GateStatus | backend/app/api/sleeper_leagues.py:50-65 | the user and league lookups answer 404 exactly for "not found" and 500 exactly for a decoding error |
| SleeperLeagues.FetchStatus | backend/app/api/sleeper_leagues.py:203-216 | later Sleeper errors answer 503, decoding errors 500 |
| SleeperLeagues.SleeperScoring | backend/app/api/sleeper_leagues.py:87-94 | one point per reception is PPR, half a point is half-PPR, anything else (or none) standard |
| SleeperLeagues.SleeperScoringAgreesWithEspn | backend/app/api/sleeper_leagues.py:87-94 | Sleeper's rule gives the same type as the ESPN adapter's for the same reception value |
| SleeperLeagues.ParseFields | backend/app/api/sleeper_leagues.py:107-111 | the stored fields exist iff name, size and a parseable season are present; the week defaults to 1 |
| SleeperLeagues.LeagueSyncLawful | backend/app/api/sleeper_leagues.py:96-134 | the league upsert keyed by Sleeper id is lawful |
| SleeperLeagues.LeagueIndex | backend/app/api/sleeper_leagues.py:96-102 | the existing league is the one with the Sleeper id, or there is none |
| SleeperLeagues.TeamSyncLawful | backend/app/api/sleeper_leagues.py:140-182 | the team upsert keyed by roster id is lawful |
| SleeperLeagues.TeamsSynced | backend/app/api/sleeper_leagues.py:140-182 | after the loop every roster has a team row with its last name and record; owner ids and other leagues' rows are unchanged |
| SleeperLeagues.OwnersKept | backend/app/api/sleeper_leagues.py:161-168 | updating a team never rewrites its owner id |
| SleeperLeagues.ConnectWith | backend/app/api/sleeper_leagues.py:96-182 | connect updates or appends the league with the Sleeper id, owned by the user, active, Sleeper-platform, with the fetched fields; its teams are the roster items synced into that league (so `SleeperLeagues.TeamsSynced` and `SleeperLeagues.OwnersKept` describe them); other leagues and budgets are unchanged |
| SleeperLeagues.ConnectSleeperLeague | backend/app/api/sleeper_leagues.py:46-216 | success needs a member user and loaded rosters, and reports one synced team per roster; gate failures leave the database unchanged |
| SleeperLeagues.NonMemberRefused | backend/app/api/sleeper_leagues.py:67-77 | a user absent from the league's users is refused with 403 and nothing is written |
| SleeperLeagues.ConnectIdempotent | backend/app/api/sleeper_leagues.py:96-182 | connecting the same Sleeper league twice leaves the database as one connect did |
| Players.ErrorStatus | backend/app/api/players.py:83-94 | an ESPN error answers 503, anything else 500 |
| Players.FilterByTerm | backend/app/api/players.py:68-74 | without a truthy term the list is unchanged |
| Players.FilterByTermExactly | backend/app/api/players.py:68-74 | with a term, a player is kept iff the lower-cased term occurs in the lower-cased full name, and the kept ones stay in order |
| Players.SearchPlayers | backend/app/api/players.py:18-94 | 404 exactly for a league that is not owned; a success holds the filtered free agents and their count; errors are 404, 500 and 503 |
| Players.AvailableOnlyIgnored | backend/app/api/players.py:50-66 | "available only" does not change the answer |
| Players.GetAvailable | backend/app/api/players.py:97-158 | 404 exactly for a league that is not owned; a success echoes week and position with the players and their count |
| Players.AvailableIsSearchWithoutTerm | backend/app/api/players.py:97-158 | the free-agent endpoint answers as a search without a term |
| Trades.SideTotalCons | backend/app/api/trades.py:91-100 | a side's total adds the projection of each roster entry in the trade, one entry at a time |
| Trades.SideTotalDependsOnlyOnRoster | backend/app/api/trades.py:92-95 | the total depends only on which roster entries are in the trade |
| Trades.SideTotalAdditive | backend/app/api/trades.py:92-95 | the totals of two disjoint id lists add up |
| Trades.NothingTraded | backend/app/api/trades.py:86-95 | trading nothing totals 0 |
| Trades.Fairness | backend/app/api/trades.py:115-123 | fairness lies in [0, 100]; it is 50 with nothing on either side, 0 when only the receive side has value, and 100 exactly when both sides are equal |
| Trades.FairnessByGap | backend/app/api/trades.py:120-123 | fairness falls as the ratio moves away from 1 in either direction and floors at 0 |
| Trades.ValueBand | backend/app/api/trades.py:126-136 | the message band is set by the thresholds -5, -2, 2 and 5 on the value difference |
| Trades.ValueMessageMonotone | backend/app/api/trades.py:126-136 | a larger difference never gets a worse message |
| Trades.Recommendations | backend/app/api/trades.py:125-139 | the value message comes first, and "look for alternatives" is added exactly when fairness is below 60 |
| Trades.Details | backend/app/api/trades.py:88-111 | the details cover exactly the traded ids found on the roster |
| Trades.AnalyzeTrade | backend/app/api/trades.py:21-178 | 404 exactly for a league that is not owned; valid iff the trade validates; an invalid trade has no scores; when a roster reload fails the summary says detail is unavailable; otherwise the fairness score, value difference, summary, recommendations and details are those of the reloaded sides' totals |
| Trades.EmptyTradeAnalysis | backend/app/api/trades.py:113-139 | an empty trade scores 50 with no difference and recommends looking for alternatives |
| Trades.CreateTrade | backend/app/api/trades.py:182-230 | 404 exactly for a league that is not owned; a created trade is pending, expires in seven days and records both lists as given |
| WeeklyRecap.Decide | backend/app/api/weekly_recap.py:137-141 | winner and loser are the two sides with their scores, the margin is the difference, and a tie goes to side 2 |
| WeeklyRecap.GroupByMatchupPartitions | backend/app/api/weekly_recap.py:114-119 | grouping partitions the rows by matchup id: each group holds exactly its id's rows in order, and groups come in first-seen order |
| WeeklyRecap.RowInOneGroup | backend/app/api/weekly_recap.py:114-119 | every row lies in exactly the group of its id |
| WeeklyRecap.GroupingExample | backend/app/api/weekly_recap.py:114-119 | rows with ids 1,2,1,2,null fall into groups 1, 2 and null |
| WeeklyRecap.RosterOwners | backend/app/api/weekly_recap.py:122-127 | the owner map has exactly the roster ids of the rosters |
| WeeklyRecap.RosterOwnersLastWins | backend/app/api/weekly_recap.py:122-127 | a repeated roster id takes the name of its LAST roster |
| WeeklyRecap.PairLines | backend/app/api/weekly_recap.py:129-143 | one line per group of exactly two rows, in group order, and none for any other group size |
| WeeklyRecap.PairLinesExample | backend/app/api/weekly_recap.py:129-143 | groups of sizes 2, 2, 1 and 2 give three lines; unknown owners and missing points read "Unknown" and 0 |
| WeeklyRecap.EspnBranchLines | backend/app/api/weekly_recap.py:87-106 | the ESPN loop writes one line per matchup that has an away side, in order |
| WeeklyRecap.EspnLinesAsWrittenAreEmpty | backend/app/api/weekly_recap.py:83-106 | as written, the ESPN branch produces no line for any week |
| WeeklyRecap.EspnLinesCorrect | backend/app/api/weekly_recap.py:83-106 | read from the matchups' own keys, there is one line per game with an away team, home against away |
| WeeklyRecap.EspnRecapFindingExample | backend/app/api/weekly_recap.py:83-106 | a decided 110-95.5 game gives no line as written and the right line once corrected |
| WeeklyRecap.GetWeeklyRecap | backend/app/api/weekly_recap.py:171-276 | 404 exactly without a league; a platform error is 503; without an LLM key the fixed message is returned with no timestamp; otherwise the recap is the completion of the week's prompt, which for an ESPN league has no game line |
| WeeklyRecap.GetWeeklyRecapCorrected | backend/app/api/weekly_recap.py:171-276 | with the ESPN branch corrected the endpoint answers as written for a missing league, a Sleeper league, a failed fetch or no LLM key; an ESPN league's recap is the completion of a prompt holding the week's game lines |
| WeeklyRecap.EspnRecapUsesLeagueCookies | backend/app/api/weekly_recap.py:199-208 | an ESPN league's week is fetched with the league's own stored cookies |
| Middleware.DropIdle | backend/app/core/middleware.py:113-118 | a client is kept iff one of its times is after the cutoff, with its list untouched |
| Middleware.Dispatch | backend/app/core/middleware.py:106-145 | a request is admitted iff fewer than the limit of the client's times fall in the last minute; the client keeps exactly those times, plus now when admitted |
| Middleware.CleanedTimes | backend/app/core/middleware.py:113-127 | the two cleaning steps together leave the client exactly its in-window times |
| Middleware.DispatchCleans | backend/app/core/middleware.py:113-127 | afterwards the client's times are all in the window, and other clients are unchanged or, when entirely stale, removed |
| Middleware.DispatchKeepsBounded | backend/app/core/middleware.py:129-143 | no client ever holds more times than the limit |
| Middleware.BurstKeepsAdmitted | backend/app/core/middleware.py:120-143 | within one window, the client's list ends with every request admitted so far |
| Middleware.BurstAdmitsAtMostLimit | backend/app/core/middleware.py:99-145 | of requests falling within one window, at most the limit are admitted |
| Middleware.SecurityHeaders | backend/app/core/middleware.py:81-96 | the four fixed headers are set, HSTS is set exactly outside debug mode, and other headers are kept |
| Middleware.SecurityHeadersIdempotent | backend/app/core/middleware.py:87-94 | adding the headers twice is the same as once |

## Left out

- **External I/O.** HTTP transport, timeouts and `asyncio.sleep` are not
  modelled. Each attempt is an outcome and each sleep a recorded number.
- **Database sessions.** Commits, refreshes and rollbacks are not modelled: a
  handler's database is a value before and after.
- **Cipher internals.** The Fernet cipher and its PBKDF2 key derivation are
  abstracted to a pair of functions with a round-trip law (`WellFormed`).
- **Text generation.** The LLM client and the prompt's prose are left out. A
  prompt is the league name, the week and the matchup lines, and the
  completion is a parameter.
- **Roster and scoring settings.** The JSON stored with a league, and the
  fields only logged or passed through, are not modelled: logos, owners,
  eligible slots, news, ownership, injury status and last-week points.
- **Recent waiver transactions.** The transactions in a budget summary are
  read-only and left out.
- **Timestamps.** `created_at`, `updated_at` and the HTTP date handling are
  left out. Sync time and trade creation time are integer parameters.
- **Number formatting.** The `{:.1f}` and `{:+.1f}` formatting of prompt lines
  and summaries is left out. Lines carry the numbers, and the analysis summary
  is a record of what it reports.
- **Upstream JSON shapes.**
  - Missing keys and explicit nulls both become `None` in the typed views.
  - The ESPN team loop's skipping of non-dict elements is not expressible, so
    every element is a team.
  - A team id that is present but null prints "Team None" in Python. The model
    prints "Team Unknown".
- **Python `int()`.** Python's `int()` on the Sleeper season string is modelled
  by `ParseInt` over an optional minus sign and ASCII digits. A plus sign,
  surrounding whitespace, underscores and non-ASCII digits are not accepted.
- **String methods.** `lower()` folds ASCII letters only. `strip()` uses
  Python's full whitespace set.
- **Header names.** Header names are compared case-sensitively.
- **Multiple matches.** `scalar_one_or_none()` raising on multiple matches is
  not modelled: the first match is used. The upsert lemmas assume unique
  natural keys, which the upserts themselves preserve
  (`Tables.UpsertAllUnique`).
- **Request validation.** Pydantic validation of requests (trade list sizes,
  field types) is outside the model.
- **`str(espn_league_id)`.** A null ESPN league id becomes the string "None"
  in a request. The model passes the `Option` through.
- **Unrouted ESPN methods.** `_get_projected_points_for_roster_player`, the
  roster and scoring settings extractors, and the ESPN methods no modelled
  endpoint calls are left out.
- **Other endpoints.** Suggestions, teams, login, health and the Sleeper
  user-leagues listing are outside the modelled core.
- **Logging middleware.** The logging middleware and the exception handlers
  only log and re-raise.
- **Process-wide state.** The rate limiter's unused `request_counts` dict and
  the concurrency between requests sharing the limiter are left out: requests
  are applied one at a time.
- **Projection fetches.** The source makes one roster request per side in
  `_calculate_team_projected_score`. Both requests are identical, and an
  upstream call is a function of its request, so both sides' projections
  share one roster-fetch outcome (`rosters` in `EspnService.GetMatchups`).
- **Floating point.** Points, projections, budgets and averages are Python
  floats in the source and exact reals in the model. IEEE rounding is not
  modelled, so exact equalities such as the additivity of side totals or
  "100 exactly when both sides are equal" hold over the reals only.
- **Randomized encryption.** Fernet puts a fresh IV and timestamp into every
  token. The model's cipher is a deterministic function. Where repeated
  encryption matters (`Leagues.ConnectIdempotent`), each encryption is a
  separate function that only has to decrypt under the same key.
- EspnRecords.ProTeamAbbrUnknown: states which ids are unknown and two sample
  values, but not that the table is injective.
- EspnService.GetAvailablePlayers: its own contract speaks only of failures.
  The content of a success is stated by `EspnService.AvailablePlayersCorrect`.

## Findings

| source | as written | input that shows it | evidently intended | confidence | as-written member | corrected member |
|---|---|---|---|---|---|---|
| backend/app/api/weekly_recap.py:83-106 | the ESPN branch reads `home`, `away`, `team_id` and `total_points`. The matchups from `get_matchups` carry `home_team_id`, `away_team_id`, `home_score` and `away_score` instead, so every matchup looks like a bye | a week with one game, team 1 "Alpha" 110.0 against team 2 "Beta" 95.5 | one line per game with an away team: "Alpha (110.0) DESTROYED Beta (95.5) by 14.5 points" | not executed | WeeklyRecap.EspnLinesAsWrittenAreEmpty | WeeklyRecap.EspnLinesCorrect |

=== FILE: credentials.dfy ===
/** Credential plumbing (`utils/encryption.py` and the credential rules of
    `api/auth.py`): the empty-input guards around the cipher, the cookie
    dict built from stored credentials, and how registration and profile
    updates store or clear them. The cipher itself stays abstract. */
module Credentials {
  import opened Wrappers
  import opened Domain
  import opened EspnService

  /** Fernet under the application key, wrapped in URL-safe base64, as two
      functions; `decrypt` is `None` wherever decoding or decryption would
      raise. */
  datatype Cipher = Cipher(encrypt: string -> string, decrypt: string -> Option<string>)

  /** The law the cipher obeys: a non-empty plaintext encrypts to a
      non-empty token that decrypts back to it. */
  ghost predicate WellFormed(c: Cipher) {
    forall s :: s != "" ==> c.encrypt(s) != "" && c.decrypt(c.encrypt(s)) == Some(s)
  }

  /** `encrypt_data(data)`: the empty string stays empty. */
  function EncryptData(c: Cipher, data: string): (r: string)
    ensures data == "" ==> r == ""
    ensures WellFormed(c) ==> (r == "" <==> data == "")
  {
    if data == "" then "" else c.encrypt(data)
  }

  /** `decrypt_data(encrypted)` on a nullable column: nothing for an absent
      or empty token, and nothing (never an exception) when decryption
      fails. */
  function DecryptData(c: Cipher, encrypted: Option<string>): (r: Option<string>)
    ensures !Given(encrypted) ==> r.None?
    ensures Given(encrypted) ==> r == c.decrypt(encrypted.value)
  {
    if !Given(encrypted) then None else c.decrypt(encrypted.value)
  }

  /** What is stored comes back: a non-empty credential decrypts to itself,
      and an empty one reads back as absent. */
  lemma EncryptDecryptRoundTrip(c: Cipher, s: string)
    requires WellFormed(c)
    ensures s != "" ==> DecryptData(c, Some(EncryptData(c, s))) == Some(s)
    ensures s == "" ==> DecryptData(c, Some(EncryptData(c, s))) == None
  {
  }

  /** The two encrypted credential columns of a user or a league. */
  datatype Stored = Stored(s2: Option<string>, swid: Option<string>)

  const NoCredentials := Stored(None, None)

  /** `get_espn_cookies_for_user(user)`: the decrypted credentials that are
      non-empty, under the cookie names ESPN expects; `None` rather than an
      empty dict. */
  function CookiesForUser(c: Cipher, user: Stored): (r: Option<map<string, string>>)
    ensures !Given(user.s2) && !Given(user.swid) ==> r.None?
    ensures r.Some? ==> r.value != map[] && r.value.Keys <= {"espn_s2", "SWID"}
    ensures r.Some? ==> ("espn_s2" in r.value <==> Given(DecryptData(c, user.s2)))
    ensures r.Some? ==> ("SWID" in r.value <==> Given(DecryptData(c, user.swid)))
    ensures r.Some? && "espn_s2" in r.value ==> Some(r.value["espn_s2"]) == DecryptData(c, user.s2)
    ensures r.Some? && "SWID" in r.value ==> Some(r.value["SWID"]) == DecryptData(c, user.swid)
    ensures r.None? <==> !Given(DecryptData(c, user.s2)) && !Given(DecryptData(c, user.swid))
  {
    if !Given(user.s2) && !Given(user.swid) then None
    else
      var s2 := DecryptData(c, user.s2);
      var swid := DecryptData(c, user.swid);
      var withS2: map<string, string> := if Given(s2) then map["espn_s2" := s2.value] else map[];
      var cookies := if Given(swid) then withS2["SWID" := swid.value] else withS2;
      assert Given(s2) ==> "espn_s2" in cookies;
      assert Given(swid) ==> "SWID" in cookies;
      if cookies == map[] then None else Some(cookies)
  }

  /** The handlers that read a league's own credentials (trade analysis,
      the weekly recap, player search and available players): decrypt what
      is stored and build cookies only when one of the two is non-empty. */
  function LeagueCookies(c: Cipher, league: Stored): (r: Option<Cookies>)
    ensures r.Some? ==> r.value == Cookies(DecryptData(c, league.s2), DecryptData(c, league.swid))
    ensures r.Some? <==> Given(DecryptData(c, league.s2)) || Given(DecryptData(c, league.swid))
  {
    if Given(league.s2) || Given(league.swid) then
      var s2 := DecryptData(c, league.s2);
      var swid := DecryptData(c, league.swid);
      if Given(s2) || Given(swid) then Some(Cookies(s2, swid)) else None
    else None
  }

  /** Both ways of reading stored credentials send ESPN the same cookies. */
  lemma LeagueCookiesAgreeWithUserCookies(c: Cipher, stored: Stored)
    ensures CookiesForUser(c, stored)
         == (match LeagueCookies(c, stored)
             case None => None
             case Some(k) => Some(CookiesToDict(k)))
  {
    var d := CookiesForUser(c, stored);
    match LeagueCookies(c, stored)
    case None =>
    case Some(k) =>
      assert d.value.Keys == CookiesToDict(k).Keys;
  }

  // ---------------------------------------------------------------------------
  // Registration and profile updates
  // ---------------------------------------------------------------------------

  /** `register`: a credential is stored, encrypted, only when it was given
      non-empty. */
  function Register(c: Cipher, s2: Option<string>, swid: Option<string>): (r: Stored)
    ensures Given(s2) <==> r.s2.Some?
    ensures Given(swid) <==> r.swid.Some?
    ensures r.s2.Some? ==> r.s2.value == EncryptData(c, s2.value)
    ensures r.swid.Some? ==> r.swid.value == EncryptData(c, swid.value)
  {
    Stored(if Given(s2) then Some(EncryptData(c, s2.value)) else None,
           if Given(swid) then Some(EncryptData(c, swid.value)) else None)
  }

  /** The tri-state update of one column: `None` keeps it, "" clears it, any
      other value replaces it with its encryption. */
  function UpdateColumn(c: Cipher, stored: Option<string>, update: Option<string>): (r: Option<string>)
    ensures update.None? ==> r == stored
    ensures update == Some("") ==> r.None?
    ensures Given(update) ==> r == Some(EncryptData(c, update.value))
  {
    match update
    case None => stored
    case Some(v) => if v == "" then None else Some(EncryptData(c, v))
  }

  /** `update_profile`'s credential rules: each column follows its own
      update only. */
  function UpdateProfile(c: Cipher, user: Stored, s2: Option<string>, swid: Option<string>): (r: Stored)
    ensures r.s2 == UpdateColumn(c, user.s2, s2)
    ensures r.swid == UpdateColumn(c, user.swid, swid)
    ensures s2.None? ==> r.s2 == user.s2
    ensures swid.None? ==> r.swid == user.swid
  {
    Stored(UpdateColumn(c, user.s2, s2), UpdateColumn(c, user.swid, swid))
  }

  /** After registering or updating, the cookies the user's credentials
      produce are exactly the non-empty values supplied (for an update, the
      stored value where none was supplied). */
  lemma RegisteredCookies(c: Cipher, s2: Option<string>, swid: Option<string>)
    requires WellFormed(c)
    ensures var d := CookiesForUser(c, Register(c, s2, swid));
      (d.None? <==> !Given(s2) && !Given(swid))
      && (d.Some? ==> ("espn_s2" in d.value <==> Given(s2)) && ("SWID" in d.value <==> Given(swid)))
      && (d.Some? && Given(s2) ==> d.value["espn_s2"] == s2.value)
      && (d.Some? && Given(swid) ==> d.value["SWID"] == swid.value)
  {
    var r := Register(c, s2, swid);
    if Given(s2) { EncryptDecryptRoundTrip(c, s2.value); }
    if Given(swid) { EncryptDecryptRoundTrip(c, swid.value); }
  }

  /** Clearing a credential on the profile removes its cookie; setting one
      makes its cookie that value. */
  lemma UpdatedCookies(c: Cipher, user: Stored, s2: Option<string>, swid: Option<string>)
    requires WellFormed(c)
    ensures var d := CookiesForUser(c, UpdateProfile(c, user, s2, swid));
      (s2 == Some("") ==> d.None? || "espn_s2" !in d.value)
      && (Given(s2) ==> d.Some? && "espn_s2" in d.value && d.value["espn_s2"] == s2.value)
      && (swid == Some("") ==> d.None? || "SWID" !in d.value)
      && (Given(swid) ==> d.Some? && "SWID" in d.value && d.value["SWID"] == swid.value)
  {
    if Given(s2) { EncryptDecryptRoundTrip(c, s2.value); }
    if Given(swid) { EncryptDecryptRoundTrip(c, swid.value); }
  }
}

=== FILE: domain.dfy ===
/** Vocabulary shared by both platform adapters and the API layer. */
module Domain {
  import opened Wrappers

  datatype Platform = Espn | Sleeper

  /** The `scoring_type` column: "standard", "ppr" or "half_ppr". */
  datatype ScoringType = Standard | Ppr | HalfPpr {
    function Name(): string {
      match this
      case Standard => "standard"
      case Ppr => "ppr"
      case HalfPpr => "half_ppr"
    }
  }

  /** Python's truthiness of an optional integer (`if week:`, `if
      m.get("home_team_id"):`): absent and 0 are false. */
  predicate Truthy(n: Option<int>) {
    n.Some? && n.value != 0
  }

  /** Python's `week or default`. */
  function WeekOr(week: Option<int>, default: int): (w: int)
    ensures Truthy(week) ==> w == week.value
    ensures !Truthy(week) ==> w == default
  {
    if Truthy(week) then week.value else default
  }

  /** Python's truthiness of an optional string: absent and "" are false. */
  predicate Given(s: Option<string>) {
    s.Some? && s.value != ""
  }
}

=== FILE: espn_fetch.dfy ===
/** The retry and back-off policy of the ESPN client's `_make_request`.
    Each HTTP attempt is abstracted to its outcome; the loop is a function from
    the sequence of outcomes to the returned object or raised error, together
    with the sleeps it asked for and the number of requests it made. */
module EspnFetch {
  import opened Wrappers

  /** What the text of a 200 response turned out to be. `NotAnObject` is valid
      JSON of another type (a list, a number); the error the client raises for
      it is caught by its own catch-all and re-raised as a processing failure. */
  datatype Body<T> = EmptyText | NotJson | NotAnObject | JsonObject(value: T)

  /** One attempt: a response with its status code and body, or an `httpx`
      request error (connection refused, timeout, ...). */
  datatype Attempt<T> = Response(status: int, body: Body<T>) | RequestError

  /** Why an `ESPNConnectionError` was raised. */
  datatype ConnectionCause =
    | EmptyResponse      // 200 with empty text
    | InvalidJson        // 200 whose text does not decode
    | ProcessingFailed   // 200 whose JSON is not an object
    | RequestFailed      // request error on the last attempt
    | MaxRetriesExceeded // loop ran out of attempts

  datatype EspnError =
    | AuthenticationError            // `ESPNAuthenticationError`, on 401
    | ConnectionError(cause: ConnectionCause)
    | HttpStatusError(status: int)   // `raise_for_status()` on a non-2xx status

  /** The result of the loop, the sleeps (in seconds, in order) and the
      number of requests issued. */
  datatype Fetch<T> = Fetch(result: Result<T, EspnError>, sleeps: seq<nat>, requests: nat)

  /** `2 ** attempt`, the back-off in seconds after a 429; at least a
      second, and more than the attempt number. */
  function Pow2(n: nat): (r: nat)
    ensures r >= 1 && r > n
  {
    if n == 0 then 1 else 2 * Pow2(n - 1)
  }

  /** The handling of a 200 body. */
  function BodyResult<T>(b: Body<T>): Result<T, EspnError> {
    match b
    case EmptyText => Failure(ConnectionError(EmptyResponse))
    case NotJson => Failure(ConnectionError(InvalidJson))
    case NotAnObject => Failure(ConnectionError(ProcessingFailed))
    case JsonObject(v) => Success(v)
  }

  /** The loop from attempt number `attempt` on. `outcomes[i]` is what the
      `i`-th request yields; there is one outcome per possible attempt. */
  function Run<T>(outcomes: seq<Attempt<T>>, maxRetries: int, attempt: nat): (f: Fetch<T>)
    requires |outcomes| >= maxRetries
    ensures attempt < maxRetries ==> attempt < f.requests <= maxRetries
    ensures attempt >= maxRetries ==> f.requests == attempt
    ensures |f.sleeps| <= f.requests - attempt
    decreases maxRetries - attempt
  {
    if attempt >= maxRetries then Fetch(Failure(ConnectionError(MaxRetriesExceeded)), [], attempt)
    else match outcomes[attempt]
      case RequestError =>
        if attempt == maxRetries - 1 then Fetch(Failure(ConnectionError(RequestFailed)), [], attempt + 1)
        else
          var rest := Run(outcomes, maxRetries, attempt + 1);
          Fetch(rest.result, [1] + rest.sleeps, rest.requests)
      case Response(status, body) =>
        if status == 200 then Fetch(BodyResult(body), [], attempt + 1)
        else if status == 401 then Fetch(Failure(AuthenticationError), [], attempt + 1)
        else if status == 429 then
          var rest := Run(outcomes, maxRetries, attempt + 1);
          Fetch(rest.result, [Pow2(attempt)] + rest.sleeps, rest.requests)
        else if 200 <= status < 300 then
          // `raise_for_status()` accepts any 2xx, so the loop simply goes round
          Run(outcomes, maxRetries, attempt + 1)
        else Fetch(Failure(HttpStatusError(status)), [], attempt + 1)
  }

  /** `_make_request(endpoint, cookies, params, max_retries)`. At most
      `max_retries` requests are made, and every sleep follows a request. */
  function MakeRequest<T>(outcomes: seq<Attempt<T>>, maxRetries: int): (f: Fetch<T>)
    requires |outcomes| >= maxRetries
    ensures maxRetries <= 0 ==> f.requests == 0
    ensures maxRetries > 0 ==> 1 <= f.requests <= maxRetries
    ensures |f.sleeps| <= f.requests
  {
    Run(outcomes, maxRetries, 0)
  }

  // ---------------------------------------------------------------------------
  // Reference description of the loop
  // ---------------------------------------------------------------------------

  /** An attempt that ends the loop: a 200, a 401, a non-2xx status other than
      429, or a request error on the last attempt. */
  predicate Decisive<T>(a: Attempt<T>, attempt: int, maxRetries: int) {
    match a
    case RequestError => attempt == maxRetries - 1
    case Response(status, _) => status == 200 || (status != 429 && !(200 <= status < 300))
  }

  /** What a decisive attempt returns or raises. */
  function Verdict<T>(a: Attempt<T>): Result<T, EspnError> {
    match a
    case RequestError => Failure(ConnectionError(RequestFailed))
    case Response(status, body) =>
      if status == 200 then BodyResult(body)
      else if status == 401 then Failure(AuthenticationError)
      else Failure(HttpStatusError(status))
  }

  /** The sleep an attempt that does not end the loop asks for: 2^attempt
      seconds after a 429, one second after a request error, none after any
      other 2xx. */
  function Backoff<T>(a: Attempt<T>, attempt: nat): seq<nat> {
    match a
    case RequestError => [1]
    case Response(status, _) => if status == 429 then [Pow2(attempt)] else []
  }

  /** The sleeps of attempts `lo` to `hi - 1`, in order. */
  function Backoffs<T>(outcomes: seq<Attempt<T>>, lo: nat, hi: nat): seq<nat>
    requires hi <= |outcomes|
    decreases hi - lo
  {
    if lo >= hi then [] else Backoff(outcomes[lo], lo) + Backoffs(outcomes, lo + 1, hi)
  }

  /** No attempt in `[lo, hi)` ends the loop. */
  predicate NoneDecisive<T>(outcomes: seq<Attempt<T>>, lo: nat, hi: nat, maxRetries: int)
    requires hi <= |outcomes|
  {
    forall i :: lo <= i < hi ==> !Decisive(outcomes[i], i, maxRetries)
  }

  /** The loop returns the verdict of the first decisive attempt `j`, after
      `j + 1` requests and the back-offs of the attempts before it. */
  lemma {:induction false} RunFirstDecisive<T>(outcomes: seq<Attempt<T>>, maxRetries: int, attempt: nat, j: nat)
    requires |outcomes| >= maxRetries
    requires attempt <= j < maxRetries
    requires Decisive(outcomes[j], j, maxRetries)
    requires NoneDecisive(outcomes, attempt, j, maxRetries)
    ensures Run(outcomes, maxRetries, attempt)
         == Fetch(Verdict(outcomes[j]), Backoffs(outcomes, attempt, j), j + 1)
    decreases j as int - attempt as int
  {
    if attempt < j {
      assert !Decisive(outcomes[attempt], attempt, maxRetries);
      RunFirstDecisive(outcomes, maxRetries, attempt + 1, j);
    }
  }

  /** When no attempt is decisive the loop makes every request, sleeps every
      back-off and raises "Max retries exceeded". */
  lemma {:induction false} RunExhausted<T>(outcomes: seq<Attempt<T>>, maxRetries: int, attempt: nat)
    requires |outcomes| >= maxRetries
    requires attempt <= maxRetries
    requires NoneDecisive(outcomes, attempt, maxRetries, maxRetries)
    ensures Run(outcomes, maxRetries, attempt)
         == Fetch(Failure(ConnectionError(MaxRetriesExceeded)), Backoffs(outcomes, attempt, maxRetries), maxRetries)
    decreases maxRetries - attempt
  {
    if attempt < maxRetries {
      assert !Decisive(outcomes[attempt], attempt, maxRetries);
      RunExhausted(outcomes, maxRetries, attempt + 1);
    }
  }

  /** The whole policy in one statement: either some attempt is the first
      decisive one and its verdict is returned, or none is and the loop
      exhausts its attempts. */
  lemma MakeRequestCharacterized<T>(outcomes: seq<Attempt<T>>, maxRetries: int)
    requires |outcomes| >= maxRetries
    ensures var f := MakeRequest(outcomes, maxRetries);
      (exists j :: 0 <= j < maxRetries && Decisive(outcomes[j], j, maxRetries)
        && NoneDecisive(outcomes, 0, j, maxRetries)
        && f == Fetch(Verdict(outcomes[j]), Backoffs(outcomes, 0, j), j + 1))
      || (NoneDecisive(outcomes, 0, if maxRetries < 0 then 0 else maxRetries, maxRetries)
        && f.result == Failure(ConnectionError(MaxRetriesExceeded))
        && f.requests == (if maxRetries < 0 then 0 else maxRetries))
  {
    if maxRetries <= 0 {
    } else {
      var j := 0;
      while j < maxRetries && !Decisive(outcomes[j], j, maxRetries)
        invariant 0 <= j <= maxRetries
        invariant NoneDecisive(outcomes, 0, j, maxRetries)
        decreases maxRetries - j
      {
        j := j + 1;
      }
      if j < maxRetries {
        RunFirstDecisive(outcomes, maxRetries, 0, j);
      } else {
        RunExhausted(outcomes, maxRetries, 0);
      }
    }
  }

  /** A 401 on the first attempt raises the authentication error at once. */
  lemma UnauthorizedIsImmediate<T>(outcomes: seq<Attempt<T>>, maxRetries: int, body: Body<T>)
    requires |outcomes| >= maxRetries >= 1
    requires outcomes[0] == Response(401, body)
    ensures MakeRequest(outcomes, maxRetries) == Fetch(Failure(AuthenticationError), [], 1)
  {
  }

  /** Every 200 ends the loop: an empty, undecodable or non-object body is a
      connection error that is not retried. */
  lemma OkIsNeverRetried<T>(outcomes: seq<Attempt<T>>, maxRetries: int, j: nat)
    requires |outcomes| >= maxRetries
    requires j < maxRetries
    requires outcomes[j].Response? && outcomes[j].status == 200
    requires NoneDecisive(outcomes, 0, j, maxRetries)
    ensures MakeRequest(outcomes, maxRetries).requests == j + 1
    ensures MakeRequest(outcomes, maxRetries).result == BodyResult(outcomes[j].body)
  {
    RunFirstDecisive(outcomes, maxRetries, 0, j);
  }

  /** Three 429s in a row: sleeps of 1, 2 and 4 seconds, then "Max retries
      exceeded" after three requests. */
  lemma ThreeRateLimits<T>(b: Body<T>)
    ensures var f := MakeRequest([Response(429, b), Response(429, b), Response(429, b)], 3);
      f.result == Failure(ConnectionError(MaxRetriesExceeded)) && f.sleeps == [1, 2, 4] && f.requests == 3
  {
    var o := [Response(429, b), Response(429, b), Response(429, b)];
    RunExhausted(o, 3, 0);
    assert Backoffs(o, 0, 3) == [1] + ([2] + ([4] + []));
  }
}

=== FILE: espn_records.dfy ===
/** The shape of the ESPN JSON the adapter reads, as tagged records with
    optional fields (an absent key is `None`; an absent list is empty), and the
    adapter's fixed lookup tables. */
module EspnRecords {
  import opened Wrappers

  /** A stat map such as `{"0": 12.5, "53": 4.0}`. */
  type StatMap = map<string, real>

  /** One element of a player's `stats` list. */
  datatype StatEntry = StatEntry(
    scoringPeriodId: Option<int>,
    statSourceId: Option<int>,   // 0 = actual, 1 = projected
    appliedTotal: Option<real>,
    stats: Option<StatMap>)

  /** `playerPoolEntry.player` (or `players[i].player`). */
  datatype Player = Player(
    id: Option<int>,
    fullName: Option<string>,
    defaultPositionId: Option<int>,
    proTeamId: Option<int>,
    injuryStatus: Option<string>,
    stats: seq<StatEntry>)

  /** A roster entry of the `mRoster` view. */
  datatype RosterEntry = RosterEntry(lineupSlotId: Option<int>, player: Player)

  /** A team of the `mTeam` / `mRoster` views. */
  datatype Team = Team(
    id: Option<int>,
    name: Option<string>,
    location: Option<string>,
    nickname: Option<string>,
    abbrev: Option<string>,
    logo: Option<string>,
    wins: Option<int>,
    losses: Option<int>,
    ties: Option<int>,
    pointsFor: Option<real>,
    pointsAgainst: Option<real>,
    roster: seq<RosterEntry>,
    acquisitionBudgetSpent: Option<real>)

  /** An element of `players` in the `players_wl` view. */
  datatype PoolEntry = PoolEntry(onTeamId: Option<int>, player: Player)

  /** `home` or `away` of a schedule item. */
  datatype Side = Side(
    teamId: Option<int>,
    totalPointsLive: Option<real>,
    pointsByScoringPeriod: Option<map<string, real>>,
    totalPoints: Option<real>)

  /** The side of a schedule item that has no `home` / `away` key. */
  const NoSide := Side(None, None, None, None)

  /** An element of `schedule`. */
  datatype ScheduleItem = ScheduleItem(
    id: Option<int>,
    matchupPeriodId: Option<int>,
    home: Side,
    away: Side,
    playoffTierType: Option<string>,
    winner: Option<string>)

  /** An element of `settings.scoringSettings.scoringItems`. */
  datatype ScoringItem = ScoringItem(statId: Option<int>, points: Option<real>)

  /** The fields of a league object that the adapter reads, whichever view
      (`mTeam`, `mRoster`, `players_wl`, `mMatchup`) supplied them; an absent
      list is empty. */
  datatype LeagueView = LeagueView(
    name: Option<string>,              // settings.name
    teams: seq<Team>,
    scoringPeriodId: Option<int>,
    acquisitionBudget: Option<real>,   // settings.acquisitionSettings.budget
    players: seq<PoolEntry>,
    schedule: seq<ScheduleItem>,
    scoringItems: seq<ScoringItem>)

  // ---------------------------------------------------------------------------
  // Lookup tables
  // ---------------------------------------------------------------------------

  /** `position_map`: ESPN default position id to position name. */
  const PositionMap: map<int, string> := map[
    0 := "QB", 1 := "TQB", 2 := "RB", 3 := "RB/WR", 4 := "WR",
    5 := "WR/TE", 6 := "TE", 16 := "D/ST", 17 := "K", 20 := "BENCH",
    21 := "IR", 23 := "FLEX"]

  /** `lineup_slots`: lineup slot id to slot name. */
  const LineupSlots: map<int, string> := map[
    0 := "QB", 2 := "RB", 4 := "WR", 6 := "TE", 16 := "D/ST",
    17 := "K", 20 := "BENCH", 21 := "IR", 23 := "FLEX"]

  /** Lineup slots that do not score: bench and injured reserve. */
  const BenchSlot := 20
  const InjuredReserveSlot := 21

  /** `_get_pro_team_abbr`'s table of NFL team abbreviations. */
  const ProTeams: map<int, string> := map[
    1 := "ATL", 2 := "BUF", 3 := "CHI", 4 := "CIN", 5 := "CLE", 6 := "DAL", 7 := "DEN",
    8 := "DET", 9 := "GB", 10 := "TEN", 11 := "IND", 12 := "KC", 13 := "LV", 14 := "LAR",
    15 := "MIA", 16 := "MIN", 17 := "NE", 18 := "NO", 19 := "NYG", 20 := "NYJ",
    21 := "PHI", 22 := "ARI", 23 := "PIT", 24 := "LAC", 25 := "SF", 26 := "SEA",
    27 := "TB", 28 := "WAS", 29 := "CAR", 30 := "JAX", 33 := "BAL", 34 := "HOU"]

  /** `dict.get(key)` on an optional key. */
  function Lookup(m: map<int, string>, key: Option<int>): (r: Option<string>)
    ensures r.Some? <==> key.Some? && key.value in m
    ensures r.Some? ==> r.value == m[key.value]
  {
    if key.Some? && key.value in m then Some(m[key.value]) else None
  }

  /** `position_map.get(defaultPositionId, "UNKNOWN")`. */
  function PositionName(positionId: Option<int>): string {
    Lookup(PositionMap, positionId).GetOr("UNKNOWN")
  }

  /** `lineup_slots.get(lineupSlotId, "UNKNOWN")`. */
  function SlotName(slotId: Option<int>): string {
    Lookup(LineupSlots, slotId).GetOr("UNKNOWN")
  }

  /** `_get_pro_team_abbr(pro_team_id)`: the abbreviation, "FA" when unknown. */
  function ProTeamAbbr(proTeamId: Option<int>): string {
    Lookup(ProTeams, proTeamId).GetOr("FA")
  }

  /** "FA" means exactly "id absent or not in the table"; the ids 31 and 32
      are not in the table. */
  lemma ProTeamAbbrUnknown(a: Option<int>)
    ensures ProTeamAbbr(a) == "FA" <==> !(a.Some? && a.value in ProTeams)
    ensures ProTeamAbbr(Some(31)) == "FA" && ProTeamAbbr(Some(33)) == "BAL"
  {
  }

  /** The slot table agrees with the position table wherever both are
      defined, and bench and injured reserve are named as such. */
  lemma SlotNamesAgreeWithPositions(id: int)
    ensures id in LineupSlots ==> id in PositionMap && LineupSlots[id] == PositionMap[id]
    ensures SlotName(Some(BenchSlot)) == "BENCH" && SlotName(Some(InjuredReserveSlot)) == "IR"
    ensures SlotName(None) == "UNKNOWN" && PositionName(Some(7)) == "UNKNOWN"
  {
  }
}

=== FILE: espn_service.dfy ===
/** The ESPN adapter (`ESPNService`) over an already fetched league object:
    team names and records, rosters, available players, matchups with live and
    projected scores, waiver budgets, trade validation and the cookie dict.
    Every operation that fetches takes the outcome of `_make_request` and
    re-raises its error unchanged. */
module EspnService {
  import opened Wrappers
  import opened Domain
  import opened Text
  import opened Seqs
  import opened EspnFetch
  import opened EspnRecords
  import opened EspnStats

  /** What the adapter can raise besides a request error. */
  datatype ServiceError =
    | Request(error: EspnError)
    | TeamNotFound(teamId: int)            // `ESPNDataError`
    | NotOnProposingRoster(playerId: int)  // `ESPNValidationError`
    | NotOnReceivingRoster(playerId: int)  // `ESPNValidationError`

  // ---------------------------------------------------------------------------
  // Cookies
  // ---------------------------------------------------------------------------

  /** `ESPNCookies(espn_s2, swid)`. */
  datatype Cookies = Cookies(espnS2: Option<string>, swid: Option<string>)

  /** `ESPNCookies.to_dict()`: one cookie per credential that is set and
      non-empty, under the names ESPN expects. */
  function CookiesToDict(c: Cookies): (d: map<string, string>)
    ensures d.Keys <= {"espn_s2", "SWID"}
    ensures "espn_s2" in d <==> Given(c.espnS2)
    ensures "SWID" in d <==> Given(c.swid)
    ensures "espn_s2" in d ==> d["espn_s2"] == c.espnS2.value
    ensures "SWID" in d ==> d["SWID"] == c.swid.value
  {
    var withS2: map<string, string> := if Given(c.espnS2) then map["espn_s2" := c.espnS2.value] else map[];
    if Given(c.swid) then withS2["SWID" := c.swid.value] else withS2
  }

  // ---------------------------------------------------------------------------
  // Teams
  // ---------------------------------------------------------------------------

  /** `team_data.get(field, "").strip()`. */
  function Field(f: Option<string>): string {
    Strip(f.GetOr(""))
  }

  /** The priority chain of `get_teams` over the stripped fields: the custom
      name, else "location nickname", else the location, else the nickname,
      else "Team <abbrev>", else "Team <id>" ("Team Unknown" without an id).
      Given stripped fields, the name is never empty and never starts or ends
      with whitespace. */
  function ChooseName(name: string, location: string, nickname: string, abbrev: string, id: Option<int>): (r: string)
    requires IsStripped(name) && IsStripped(location) && IsStripped(nickname) && IsStripped(abbrev)
    ensures r != [] && IsStripped(r)
    ensures name != [] ==> r == name
    ensures name == [] && location != [] && nickname != [] ==> r == location + " " + nickname
    ensures name == [] && location != [] && nickname == [] ==> r == location
    ensures name == [] && location == [] && nickname != [] ==> r == nickname
    ensures name == [] && location == [] && nickname == [] && abbrev != [] ==> r == "Team " + abbrev
    ensures name == [] && location == [] && nickname == [] && abbrev == []
      ==> r == "Team " + (if id.Some? then IntToString(id.value) else "Unknown")
  {
    if name != "" then name
    else if location != "" && nickname != "" then
      var r := location + " " + nickname;
      assert r[0] == location[0] && r[|r| - 1] == nickname[|nickname| - 1];
      r
    else if location != "" then location
    else if nickname != "" then nickname
    else if abbrev != "" then
      var r := "Team " + abbrev;
      assert r[|r| - 1] == abbrev[|abbrev| - 1];
      r
    else
      var idText := if id.Some? then IntToString(id.value) else "Unknown";
      var r := "Team " + idText;
      assert r[|r| - 1] == idText[|idText| - 1];
      r
  }

  /** The display name of a team of `get_teams`. */
  function DisplayName(t: Team): (r: string)
    ensures r != [] && IsStripped(r)
  {
    ChooseName(Field(t.name), Field(t.location), Field(t.nickname), Field(t.abbrev), t.id)
  }

  lemma FieldOfField(f: Option<string>)
    ensures Field(Some(Field(f))) == Field(f)
  {
    StripIdempotent(f.GetOr(""));
  }

  /** Whitespace around the name fields never matters: a team whose fields
      are already stripped gets the same name. */
  lemma DisplayNameIgnoresPadding(t: Team)
    ensures DisplayName(t) == DisplayName(t.(
      name := Some(Field(t.name)), location := Some(Field(t.location)),
      nickname := Some(Field(t.nickname)), abbrev := Some(Field(t.abbrev))))
  {
    FieldOfField(t.name);
    FieldOfField(t.location);
    FieldOfField(t.nickname);
    FieldOfField(t.abbrev);
  }

  function NamedTeam(id: Option<int>, name: string, location: string, nickname: string, abbrev: string): Team {
    Team(id, Some(name), Some(location), Some(nickname), Some(abbrev), None, None, None, None, None, None, [], None)
  }

  /** A team whose name fields carry no surrounding whitespace is named by
      the priority chain applied to the fields as they are. */
  lemma DisplayNameOfStrippedFields(id: Option<int>, name: string, location: string, nickname: string, abbrev: string)
    requires IsStripped(name) && IsStripped(location) && IsStripped(nickname) && IsStripped(abbrev)
    ensures DisplayName(NamedTeam(id, name, location, nickname, abbrev)) == ChooseName(name, location, nickname, abbrev, id)
  {
    StripStripped(name);
    StripStripped(location);
    StripStripped(nickname);
    StripStripped(abbrev);
  }

  /** The documented cases: "Green Bay" and "Packers" with no custom name
      give "Green Bay Packers"; only an abbreviation gives "Team GB"; only an
      id gives "Team 9"; nothing at all gives "Team Unknown". */
  lemma ChooseNameExamples()
    ensures ChooseName("", "Green Bay", "Packers", "", None) == "Green Bay Packers"
    ensures ChooseName("", "", "", "GB", Some(9)) == "Team GB"
    ensures ChooseName("", "", "", "", Some(9)) == "Team 9"
    ensures ChooseName("", "", "", "", None) == "Team Unknown"
    ensures ChooseName("", "Green Bay", "", "GB", Some(9)) == "Green Bay"
  {
    assert IntToString(9) == "9";
  }

  /** One element of `get_teams`. */
  datatype TeamSummary = TeamSummary(
    id: Option<int>, name: string, location: string, nickname: string, abbreviation: string,
    logoUrl: string, wins: int, losses: int, ties: int, pointsFor: real, pointsAgainst: real)

  function Summarize(t: Team): TeamSummary {
    TeamSummary(t.id, DisplayName(t), Field(t.location), Field(t.nickname), Field(t.abbrev),
      t.logo.GetOr(""), t.wins.GetOr(0), t.losses.GetOr(0), t.ties.GetOr(0),
      t.pointsFor.GetOr(0.0), t.pointsAgainst.GetOr(0.0))
  }

  /** `get_teams`: one summary per team, in order, named by the display-name
      chain, with the stripped name fields; a missing record counts as 0
      wins, losses, ties and points. */
  function GetTeams(fetched: Result<LeagueView, EspnError>): (r: Result<seq<TeamSummary>, EspnError>)
    ensures fetched.Failure? ==> r == Failure(fetched.error)
    ensures fetched.Success? ==> r.Success? && |r.value| == |fetched.value.teams|
    ensures fetched.Success? ==> forall i :: 0 <= i < |r.value| ==>
      var (t, d) := (fetched.value.teams[i], r.value[i]);
      d.id == t.id && d.name == DisplayName(t) && d.name != []
      && d.location == Field(t.location) && d.nickname == Field(t.nickname) && d.abbreviation == Field(t.abbrev)
      && (t.wins.None? ==> d.wins == 0) && (t.wins.Some? ==> d.wins == t.wins.value)
      && (t.losses.None? ==> d.losses == 0) && (t.losses.Some? ==> d.losses == t.losses.value)
      && (t.ties.None? ==> d.ties == 0) && (t.ties.Some? ==> d.ties == t.ties.value)
      && (t.pointsFor.None? ==> d.pointsFor == 0.0) && (t.pointsFor.Some? ==> d.pointsFor == t.pointsFor.value)
      && (t.pointsAgainst.None? ==> d.pointsAgainst == 0.0)
      && (t.pointsAgainst.Some? ==> d.pointsAgainst == t.pointsAgainst.value)
  {
    match fetched
    case Failure(e) => Failure(e)
    case Success(view) => Success(Map(view.teams, Summarize))
  }

  /** The part of `get_league_info` the handlers store. */
  datatype LeagueInfo = LeagueInfo(name: string, size: nat, currentWeek: int, scoringType: ScoringType)

  /** `get_league_info`: the league's name ("Unknown League" when not set),
      its number of teams, the current scoring period (1 when not set) and
      the scoring type the scoring settings imply. */
  function GetLeagueInfo(fetched: Result<LeagueView, EspnError>): (r: Result<LeagueInfo, EspnError>)
    ensures fetched.Failure? ==> r == Failure(fetched.error)
    ensures fetched.Success? ==> (r.Success?
      && r.value.size == |fetched.value.teams|
      && (fetched.value.name.Some? ==> r.value.name == fetched.value.name.value)
      && (fetched.value.name.None? ==> r.value.name == "Unknown League")
      && (fetched.value.scoringPeriodId.None? ==> r.value.currentWeek == 1)
      && (fetched.value.scoringPeriodId.Some? ==> r.value.currentWeek == fetched.value.scoringPeriodId.value)
      && r.value.scoringType == DetermineScoringType(fetched.value.scoringItems))
  {
    match fetched
    case Failure(e) => Failure(e)
    case Success(view) =>
      Success(LeagueInfo(view.name.GetOr("Unknown League"), |view.teams|,
        view.scoringPeriodId.GetOr(1), DetermineScoringType(view.scoringItems)))
  }

  /** Read from the same league object, the info's size is the number of
      team summaries. */
  lemma LeagueInfoSizeIsTeamCount(view: LeagueView)
    ensures GetLeagueInfo(Success(view)).value.size == |GetTeams(Success(view)).value|
  {
  }

  // ---------------------------------------------------------------------------
  // Rosters
  // ---------------------------------------------------------------------------

  /** One element of `get_team_roster(...)["roster"]`. */
  datatype RosterPlayer = RosterPlayer(
    playerId: Option<int>, fullName: string, positionId: Option<int>, positionName: string,
    lineupSlotId: Option<int>, lineupSlotName: string, proTeamId: Option<int>, stats: PlayerStats)

  datatype TeamRoster = TeamRoster(teamId: int, roster: seq<RosterPlayer>, week: int)

  function HasId(teamId: int): Team -> bool {
    (t: Team) => t.id == Some(teamId)
  }

  function RosterPlayerOf(week: Option<int>): RosterEntry -> RosterPlayer {
    (e: RosterEntry) => RosterPlayer(e.player.id, e.player.fullName.GetOr(""), e.player.defaultPositionId,
      PositionName(e.player.defaultPositionId), e.lineupSlotId, SlotName(e.lineupSlotId),
      e.player.proTeamId, ExtractPlayerStats(e.player, week))
  }

  /** A roster player describes its entry: the player's id, name (default
      ""), position id and name, pro team, the entry's lineup slot id and
      name, and the player's stats for the requested week. */
  predicate Describes(week: Option<int>, p: RosterPlayer, e: RosterEntry) {
    p.playerId == e.player.id && p.fullName == e.player.fullName.GetOr("")
    && p.positionId == e.player.defaultPositionId && p.positionName == PositionName(e.player.defaultPositionId)
    && p.lineupSlotId == e.lineupSlotId && p.lineupSlotName == SlotName(e.lineupSlotId)
    && p.proTeamId == e.player.proTeamId && p.stats == ExtractPlayerStats(e.player, week)
  }

  /** `get_team_roster(league_id, team_id, week)`: the roster of the FIRST team
      with that id, one player per entry in order; `ESPNDataError` when no
      team has the id. The week is the requested one, else the league's
      current scoring period, else 1. */
  function GetTeamRoster(fetched: Result<LeagueView, EspnError>, teamId: int, week: Option<int>): (r: Result<TeamRoster, ServiceError>)
    ensures fetched.Failure? ==> r == Failure(Request(fetched.error))
    ensures fetched.Success? ==>
      (r.Success? <==> exists i :: 0 <= i < |fetched.value.teams| && fetched.value.teams[i].id == Some(teamId))
    ensures fetched.Success? && r.Failure? ==> r.error == TeamNotFound(teamId)
    ensures r.Success? ==> exists i :: (FirstWithId(fetched.value.teams, i, Some(teamId))
      && |r.value.roster| == |fetched.value.teams[i].roster|
      && (forall k :: 0 <= k < |r.value.roster| ==>
            Describes(week, r.value.roster[k], fetched.value.teams[i].roster[k])))
    ensures r.Success? ==> (r.value.teamId == teamId
      && r.value.week == (if Truthy(week) then week.value else fetched.value.scoringPeriodId.GetOr(1)))
  {
    match fetched
    case Failure(e) => Failure(Request(e))
    case Success(view) =>
      match FindFirst(view.teams, HasId(teamId))
      case None => Failure(TeamNotFound(teamId))
      case Some(i) =>
        var players := Map(view.teams[i].roster, RosterPlayerOf(week));
        assert FirstWithId(view.teams, i, Some(teamId));
        assert forall k :: 0 <= k < |players| ==> Describes(week, players[k], view.teams[i].roster[k]);
        Success(TeamRoster(teamId, players, if Truthy(week) then week.value else view.scoringPeriodId.GetOr(1)))
  }

  /** What trade validation asks of a loaded roster: a player id is on it
      exactly when an entry of the first team with the id holds that player. */
  lemma OnLoadedRoster(view: LeagueView, teamId: int, week: Option<int>, playerId: int)
    ensures GetTeamRoster(Success(view), teamId, week).Success? ==> forall i :: FirstWithId(view.teams, i, Some(teamId)) ==>
      (OnRoster(GetTeamRoster(Success(view), teamId, week).value, playerId)
       <==> exists k :: 0 <= k < |view.teams[i].roster| && view.teams[i].roster[k].player.id == Some(playerId))
  {
    if GetTeamRoster(Success(view), teamId, week).Failure? { return; }
    var r := GetTeamRoster(Success(view), teamId, week).value;
    var i0 :| FirstWithId(view.teams, i0, Some(teamId)) && |r.roster| == |view.teams[i0].roster|
      && forall k :: 0 <= k < |r.roster| ==> Describes(week, r.roster[k], view.teams[i0].roster[k]);
    FirstWithIdUnique(view.teams, i0, Some(teamId));
  }

  // ---------------------------------------------------------------------------
  // Available players
  // ---------------------------------------------------------------------------

  /** One element of `get_available_players`. */
  datatype AvailablePlayer = AvailablePlayer(
    id: Option<int>, fullName: string, positionName: string, proTeamAbbr: string,
    isActive: bool, injuryStatus: string, stats: PlayerStats,
    seasonPoints: real, lastWeekPoints: real, averagePoints: real, projectedPoints: real)

  /** The filter: the requested position, if any, is the player's mapped
      position, and the player is on no team (`onTeamId` absent). */
  function Available(position: Option<string>): PoolEntry -> bool {
    (e: PoolEntry) => (!Given(position) || Lookup(PositionMap, e.player.defaultPositionId) == position)
      && e.onTeamId.None?
  }

  function Describe(week: Option<int>): PoolEntry -> AvailablePlayer {
    (e: PoolEntry) =>
      var p := e.player;
      var season := SeasonPoints(p);
      AvailablePlayer(p.id, p.fullName.GetOr(""), PositionName(p.defaultPositionId),
        ProTeamAbbr(p.proTeamId), p.injuryStatus.GetOr("ACTIVE") == "ACTIVE",
        p.injuryStatus.GetOr("ACTIVE"), ExtractPlayerStats(p, week),
        season, 0.0, AveragePoints(season), ProjectedPoints(p, week))
  }

  function Projected(p: AvailablePlayer): real {
    p.projectedPoints
  }

  /** `get_available_players(league_id, week, position)`. */
  function GetAvailablePlayers(fetched: Result<LeagueView, EspnError>, week: Option<int>, position: Option<string>): (r: Result<seq<AvailablePlayer>, EspnError>)
    ensures fetched.Failure? <==> r.Failure?
    ensures fetched.Failure? ==> r.error == fetched.error
  {
    match fetched
    case Failure(e) => Failure(e)
    case Success(view) =>
      Success(SortDesc(Map(Filter(view.players, Available(position)), Describe(week)), Projected))
  }

  /** The list holds exactly the described available players (as a
      multiset), ordered by projected points, highest first, with players of
      equal projection in the order ESPN listed them; every listed player is
      free and, when a position was requested, plays it; and a player's
      average is its season total over 17 when that is positive, else 0. */
  lemma AvailablePlayersCorrect(view: LeagueView, week: Option<int>, position: Option<string>)
    ensures var r := GetAvailablePlayers(Success(view), week, position).value;
      var chosen := Filter(view.players, Available(position));
      SortedDesc(r, Projected)
      && multiset(r) == multiset(Map(chosen, Describe(week)))
      && (forall k :: WithKey(r, Projected, k) == WithKey(Map(chosen, Describe(week)), Projected, k))
      && (forall i :: 0 <= i < |chosen| ==> (chosen[i].onTeamId.None?
            && (Given(position) ==> PositionName(chosen[i].player.defaultPositionId) == position.value)))
      && (forall i :: 0 <= i < |r| ==> ((r[i].seasonPoints > 0.0 ==> r[i].averagePoints * 17.0 == r[i].seasonPoints)
            && (r[i].seasonPoints <= 0.0 ==> r[i].averagePoints == 0.0)))
  {
    var chosen := Filter(view.players, Available(position));
    var described := Map(chosen, Describe(week));
    SortDescCorrect(described, Projected);
    ChosenAreAvailable(view.players, position);
    SortedAverages(chosen, week);
  }

  lemma ChosenAreAvailable(players: seq<PoolEntry>, position: Option<string>)
    ensures var chosen := Filter(players, Available(position));
      forall i :: 0 <= i < |chosen| ==> (chosen[i].onTeamId.None?
        && (Given(position) ==> PositionName(chosen[i].player.defaultPositionId) == position.value))
  {
    var chosen := Filter(players, Available(position));
    forall i | 0 <= i < |chosen|
      ensures chosen[i].onTeamId.None?
      ensures Given(position) ==> PositionName(chosen[i].player.defaultPositionId) == position.value
    {
      assert Available(position)(chosen[i]);
    }
  }

  lemma SortedAverages(chosen: seq<PoolEntry>, week: Option<int>)
    ensures var r := SortDesc(Map(chosen, Describe(week)), Projected);
      forall i :: 0 <= i < |r| ==> ((r[i].seasonPoints > 0.0 ==> r[i].averagePoints * 17.0 == r[i].seasonPoints)
        && (r[i].seasonPoints <= 0.0 ==> r[i].averagePoints == 0.0))
  {
    var described := Map(chosen, Describe(week));
    DescribedAverages(chosen, week);
    SortDescCorrect(described, Projected);
    var r := SortDesc(described, Projected);
    forall i | 0 <= i < |r|
      ensures AverageOk(r[i])
    {
      assert r[i] in multiset(described);
      var k :| 0 <= k < |described| && described[k] == r[i];
    }
  }

  /** A description's average agrees with its season points. */
  predicate AverageOk(p: AvailablePlayer) {
    (p.seasonPoints > 0.0 ==> p.averagePoints * 17.0 == p.seasonPoints)
    && (p.seasonPoints <= 0.0 ==> p.averagePoints == 0.0)
  }

  lemma DescribedAverages(chosen: seq<PoolEntry>, week: Option<int>)
    ensures forall k :: 0 <= k < |Map(chosen, Describe(week))| ==> AverageOk(Map(chosen, Describe(week))[k])
  {
    var described := Map(chosen, Describe(week));
    forall k | 0 <= k < |described|
      ensures AverageOk(described[k])
    {
      assert described[k] == Describe(week)(chosen[k]);
    }
  }

  // ---------------------------------------------------------------------------
  // Matchups
  // ---------------------------------------------------------------------------

  /** `get_team_score(team_data, week)`: the live total when present; else the
      week's entry of the per-period map, looked up under `str(week)`; else
      the final total, 0 when absent. A period map without the week falls
      through to the final total. */
  function SideScore(side: Side, week: int): (r: real)
    ensures side.totalPointsLive.Some? ==> r == side.totalPointsLive.value
    ensures side.totalPointsLive.None? && side.pointsByScoringPeriod.Some?
      && IntToString(week) in side.pointsByScoringPeriod.value
      ==> r == side.pointsByScoringPeriod.value[IntToString(week)]
    ensures side.totalPointsLive.None?
      && (side.pointsByScoringPeriod.None? || IntToString(week) !in side.pointsByScoringPeriod.value)
      ==> r == side.totalPoints.GetOr(0.0)
  {
    if side.totalPointsLive.Some? then side.totalPointsLive.value
    else if side.pointsByScoringPeriod.Some? && IntToString(week) in side.pointsByScoringPeriod.value then
      side.pointsByScoringPeriod.value[IntToString(week)]
    else side.totalPoints.GetOr(0.0)
  }

  /** A side with only `pointsByScoringPeriod: {"3": 42.0}` scores 42.0 in
      week 3, and another week's entry is never picked up. */
  lemma SideScoreExample(week: int)
    ensures SideScore(Side(None, None, Some(map["3" := 42.0]), None), 3) == 42.0
    ensures week != 3 ==> SideScore(Side(None, None, Some(map["3" := 42.0]), Some(7.5)), week) == 7.5
  {
    assert IntToString(3) == "3";
    if week != 3 {
      IntToStringInjective(week, 3);
    }
  }

  /** A roster entry that counts towards the projection: its lineup slot
      (0 when absent) is neither bench nor injured reserve. */
  function Starter(e: RosterEntry): bool {
    var slot := e.lineupSlotId.GetOr(0);
    slot != BenchSlot && slot != InjuredReserveSlot
  }

  function EntryProjection(week: int): RosterEntry -> real {
    (e: RosterEntry) => ProjectedPoints(e.player, Some(week))
  }

  /** The loop of `_calculate_team_projected_score`: the projected points of
      the starters, summed. */
  function StarterTotal(entries: seq<RosterEntry>, week: int): (r: real)
    ensures r == SumOf(Filter(entries, Starter), EntryProjection(week))
    decreases |entries|
  {
    if entries == [] then 0.0
    else
      var rest := StarterTotal(entries[1..], week);
      if Starter(entries[0]) then
        assert Filter(entries, Starter) == [entries[0]] + Filter(entries[1..], Starter);
        ProjectedPoints(entries[0].player, Some(week)) + rest
      else
        assert Filter(entries, Starter) == Filter(entries[1..], Starter);
        rest
  }

  /** `i` is the first team with the id. */
  predicate FirstWithId(teams: seq<Team>, i: int, id: Option<int>) {
    0 <= i < |teams| && teams[i].id == id && forall j :: 0 <= j < i ==> teams[j].id != id
  }

  /** `_calculate_team_projected_score(team_data, league_id, week)`: nothing
      for a side without a (truthy) team id, when the roster fetch fails, or
      when no team has the id; otherwise the starters' projected total if it
      is positive, and nothing if it is not. */
  function ProjectedTeamScore(side: Side, rosters: Result<LeagueView, EspnError>, week: int): (r: Option<real>)
    ensures r.None? || r.value > 0.0
    ensures side.teamId.None? || side.teamId == Some(0) || rosters.Failure? ==> r.None?
    ensures r.Some? ==> rosters.Success? && exists i :: (FirstWithId(rosters.value.teams, i, side.teamId)
      && r.value == SumOf(Filter(rosters.value.teams[i].roster, Starter), EntryProjection(week)))
    ensures Truthy(side.teamId) && rosters.Success? ==> forall i :: FirstWithId(rosters.value.teams, i, side.teamId) ==>
      (r.Some? <==> SumOf(Filter(rosters.value.teams[i].roster, Starter), EntryProjection(week)) > 0.0)
  {
    if side.teamId.None? || side.teamId.value == 0 then None
    else match rosters
      case Failure(_) => None
      case Success(view) =>
        match FindFirst(view.teams, HasId(side.teamId.value))
        case None =>
          assert forall i :: !FirstWithId(view.teams, i, side.teamId);
          None
        case Some(i) =>
          var total := StarterTotal(view.teams[i].roster, week);
          FirstWithIdUnique(view.teams, i, side.teamId);
          if total > 0.0 then Some(total) else None
  }

  /** Only one team is the first with an id. */
  lemma FirstWithIdUnique(teams: seq<Team>, i: int, id: Option<int>)
    requires FirstWithId(teams, i, id)
    ensures forall j :: FirstWithId(teams, j, id) ==> j == i
  {
  }

  /** Bench and injured-reserve entries never change a projection, wherever
      they sit on the roster. */
  lemma {:induction false} NonStartersIgnored(a: seq<RosterEntry>, e: RosterEntry, b: seq<RosterEntry>, week: int)
    requires !Starter(e)
    ensures StarterTotal(a + [e] + b, week) == StarterTotal(a + b, week)
  {
    FilterAppend(a + [e], b, Starter);
    FilterAppend(a, [e], Starter);
    FilterAppend(a, b, Starter);
    assert Filter([e], Starter) == [];
    assert Filter(a + [e], Starter) == Filter(a, Starter);
  }

  function ProjectedEntryIn(week: int, points: real): StatEntry {
    StatEntry(Some(week), Some(1), Some(points), None)
  }

  function EntryWith(slot: int, week: int, points: real): RosterEntry {
    RosterEntry(Some(slot), Player(None, None, None, None, None, [ProjectedEntryIn(week, points)]))
  }

  lemma EntryWithProjects(slot: int, week: int, points: real)
    requires week != 0
    ensures ProjectedPoints(EntryWith(slot, week, points).player, Some(week)) == points
  {
    var entries := [ProjectedEntryIn(week, points)];
    assert entries[1..] == [];
  }

  /** Three starters projected 10.0, 5.5 and 0.0 and two bench players
      projected 99.0 and 50.0 make 15.5, not 164.5. */
  lemma ProjectionExample(week: int)
    requires week != 0
    ensures StarterTotal([EntryWith(0, week, 10.0), EntryWith(2, week, 5.5), EntryWith(4, week, 0.0),
                          EntryWith(20, week, 99.0), EntryWith(20, week, 50.0)], week) == 15.5
  {
    var e1, e2, e3 := EntryWith(0, week, 10.0), EntryWith(2, week, 5.5), EntryWith(4, week, 0.0);
    var e4, e5 := EntryWith(20, week, 99.0), EntryWith(20, week, 50.0);
    EntryWithProjects(0, week, 10.0);
    EntryWithProjects(2, week, 5.5);
    EntryWithProjects(4, week, 0.0);
    assert [e5][1..] == [];
    assert StarterTotal([e5], week) == 0.0;
    assert [e4, e5][1..] == [e5];
    assert StarterTotal([e4, e5], week) == 0.0;
    assert [e3, e4, e5][1..] == [e4, e5];
    assert StarterTotal([e3, e4, e5], week) == 0.0;
    assert [e2, e3, e4, e5][1..] == [e3, e4, e5];
    assert StarterTotal([e2, e3, e4, e5], week) == 5.5;
    assert [e1, e2, e3, e4, e5][1..] == [e2, e3, e4, e5];
  }

  /** One element of `get_matchups`. */
  datatype Matchup = Matchup(
    matchupId: Option<int>, week: Option<int>,
    homeTeamId: Option<int>, awayTeamId: Option<int>,
    homeScore: real, awayScore: real,
    homeProjectedScore: Option<real>, awayProjectedScore: Option<real>,
    isPlayoff: bool, winner: string)

  /** The schedule filter: every item when no week is given, else the items
      of that matchup period. */
  function InPeriod(week: Option<int>): ScheduleItem -> bool {
    (m: ScheduleItem) => !Truthy(week) || m.matchupPeriodId == week
  }

  function MatchupOf(week: Option<int>, rosters: Result<LeagueView, EspnError>): ScheduleItem -> Matchup {
    (m: ScheduleItem) =>
      var current := m.matchupPeriodId.GetOr(WeekOr(week, 1));
      Matchup(m.id, m.matchupPeriodId, m.home.teamId, m.away.teamId,
        SideScore(m.home, current), SideScore(m.away, current),
        ProjectedTeamScore(m.home, rosters, WeekOr(week, 1)),
        ProjectedTeamScore(m.away, rosters, WeekOr(week, 1)),
        m.playoffTierType.Some? && m.playoffTierType.value != "NONE",
        m.winner.GetOr("UNDECIDED"))
  }

  /** `get_matchups(league_id, week)`: one matchup per schedule item of the
      week, in schedule order. `rosters` is the outcome of the roster fetch
      the projections make. */
  function GetMatchups(fetched: Result<LeagueView, EspnError>, week: Option<int>, rosters: Result<LeagueView, EspnError>): (r: Result<seq<Matchup>, EspnError>)
    ensures fetched.Failure? ==> r == Failure(fetched.error)
    ensures fetched.Success? ==> (r.Success?
      && |r.value| == |Filter(fetched.value.schedule, InPeriod(week))|)
    ensures r.Success? && Truthy(week) ==> forall i :: 0 <= i < |r.value| ==> r.value[i].week == week
    ensures fetched.Success? ==> forall i :: 0 <= i < |r.value| ==>
      var (m, d) := (Filter(fetched.value.schedule, InPeriod(week))[i], r.value[i]);
      var current := m.matchupPeriodId.GetOr(WeekOr(week, 1));
      d.matchupId == m.id && d.week == m.matchupPeriodId
      && d.homeTeamId == m.home.teamId && d.awayTeamId == m.away.teamId
      && d.homeScore == SideScore(m.home, current) && d.awayScore == SideScore(m.away, current)
      && d.homeProjectedScore == ProjectedTeamScore(m.home, rosters, WeekOr(week, 1))
      && d.awayProjectedScore == ProjectedTeamScore(m.away, rosters, WeekOr(week, 1))
      && d.isPlayoff == (m.playoffTierType.Some? && m.playoffTierType.value != "NONE")
      && d.winner == m.winner.GetOr("UNDECIDED")
    ensures r.Success? ==> forall i :: 0 <= i < |r.value| ==>
      ((r.value[i].homeProjectedScore.None? || r.value[i].homeProjectedScore.value > 0.0)
      && (r.value[i].awayProjectedScore.None? || r.value[i].awayProjectedScore.value > 0.0))
  {
    match fetched
    case Failure(e) => Failure(e)
    case Success(view) =>
      var items := Filter(view.schedule, InPeriod(week));
      var r := Map(items, MatchupOf(week, rosters));
      assert forall i :: 0 <= i < |r| ==> r[i] == MatchupOf(week, rosters)(items[i]) && InPeriod(week)(items[i]);
      Success(r)
  }

  // ---------------------------------------------------------------------------
  // Waiver budgets
  // ---------------------------------------------------------------------------

  datatype Budget = Budget(teamId: Option<int>, teamName: string, totalBudget: real, spentBudget: real, currentBudget: real)

  function BudgetOf(total: real): Team -> Budget {
    (t: Team) => Budget(t.id, t.name.GetOr(""), total, t.acquisitionBudgetSpent.GetOr(0.0),
      total - t.acquisitionBudgetSpent.GetOr(0.0))
  }

  /** `get_waiver_budgets`: one budget per team, in order; the league's
      budget (100 when not set) is every team's total, the spent amount
      defaults to 0, and what remains is the total less what was spent. */
  function GetWaiverBudgets(fetched: Result<LeagueView, EspnError>): (r: Result<seq<Budget>, EspnError>)
    ensures fetched.Failure? ==> r == Failure(fetched.error)
    ensures fetched.Success? ==> r.Success? && |r.value| == |fetched.value.teams|
    ensures r.Success? ==> forall i :: 0 <= i < |r.value| ==>
      r.value[i].teamId == fetched.value.teams[i].id
      && r.value[i].currentBudget == r.value[i].totalBudget - r.value[i].spentBudget
      && r.value[i].totalBudget == fetched.value.acquisitionBudget.GetOr(100.0)
      && r.value[i].spentBudget == fetched.value.teams[i].acquisitionBudgetSpent.GetOr(0.0)
  {
    match fetched
    case Failure(e) => Failure(e)
    case Success(view) => Success(Map(view.teams, BudgetOf(view.acquisitionBudget.GetOr(100.0))))
  }

  // ---------------------------------------------------------------------------
  // Trade validation
  // ---------------------------------------------------------------------------

  /** `player_id in [p["player_id"] for p in roster["roster"]]`. */
  predicate OnRoster(r: TeamRoster, playerId: int) {
    exists k :: 0 <= k < |r.roster| && r.roster[k].playerId == Some(playerId)
  }

  function Missing(r: TeamRoster): int -> bool {
    (id: int) => !OnRoster(r, id)
  }

  datatype TradeValidation =
    | Valid(proposingTeamId: int, receivingTeamId: int, givePlayers: seq<int>, receivePlayers: seq<int>)
    | Invalid(error: ServiceError)

  /** `validate_trade`: the two roster lookups (proposing first), then every
      give id against the proposing roster, then every receive id against the
      receiving roster. Whatever fails first is reported, never raised. */
  function ValidateTrade(proposingTeamId: int, receivingTeamId: int,
                         proposing: Result<TeamRoster, ServiceError>, receiving: Result<TeamRoster, ServiceError>,
                         give: seq<int>, receive: seq<int>): (r: TradeValidation)
    ensures r.Valid? <==> (proposing.Success? && receiving.Success?
      && (forall i :: 0 <= i < |give| ==> OnRoster(proposing.value, give[i]))
      && (forall i :: 0 <= i < |receive| ==> OnRoster(receiving.value, receive[i])))
    ensures r.Valid? ==> r == Valid(proposingTeamId, receivingTeamId, give, receive)
    ensures proposing.Failure? ==> r == Invalid(proposing.error)
    ensures proposing.Success? && receiving.Failure? ==> r == Invalid(receiving.error)
    ensures proposing.Success? && receiving.Success? && r.Invalid? ==>
      (r.error.NotOnProposingRoster? || r.error.NotOnReceivingRoster?)
    ensures proposing.Success? && receiving.Success? && r.Invalid? && r.error.NotOnProposingRoster? ==>
      exists i :: (0 <= i < |give| && give[i] == r.error.playerId && !OnRoster(proposing.value, give[i])
        && forall j :: 0 <= j < i ==> OnRoster(proposing.value, give[j]))
    ensures proposing.Success? && receiving.Success? && r.Invalid? && r.error.NotOnReceivingRoster? ==>
      ((forall i :: 0 <= i < |give| ==> OnRoster(proposing.value, give[i]))
      && exists i :: (0 <= i < |receive| && receive[i] == r.error.playerId && !OnRoster(receiving.value, receive[i])
        && forall j :: 0 <= j < i ==> OnRoster(receiving.value, receive[j])))
  {
    if proposing.Failure? then Invalid(proposing.error)
    else if receiving.Failure? then Invalid(receiving.error)
    else match FindFirst(give, Missing(proposing.value))
      case Some(i) => Invalid(NotOnProposingRoster(give[i]))
      case None =>
        match FindFirst(receive, Missing(receiving.value))
        case Some(i) => Invalid(NotOnReceivingRoster(receive[i]))
        case None => Valid(proposingTeamId, receivingTeamId, give, receive)
  }

  /** Nothing stops a team from trading with itself: the same roster on both
      sides with the same ids given and received validates. */
  lemma SelfTradeValidates(teamId: int, roster: TeamRoster, ids: seq<int>)
    requires forall i :: 0 <= i < |ids| ==> OnRoster(roster, ids[i])
    ensures ValidateTrade(teamId, teamId, Success(roster), Success(roster), ids, ids).Valid?
  {
  }
}

=== FILE: espn_stats.dfy ===
/** How the ESPN adapter reads a player's `stats` list and a league's scoring
    items: stat bucketing, projected points, season totals and scoring-type
    detection. */
module EspnStats {
  import opened Wrappers
  import opened Domain
  import opened Seqs
  import opened EspnRecords

  /** The entry belongs to the requested week (every entry does when no week
      is given). */
  predicate InWeek(e: StatEntry, week: Option<int>) {
    !Truthy(week) || e.scoringPeriodId == week
  }

  /** `stat_entry.get("statSourceId", 0)`. */
  function SourceOf(e: StatEntry): int {
    e.statSourceId.GetOr(0)
  }

  /** `stat_entry.get("stats", {})`. */
  function StatsOf(e: StatEntry): StatMap {
    e.stats.GetOr(map[])
  }

  /** `stat_entry.get("appliedTotal", 0.0)`. */
  function AppliedOf(e: StatEntry): real {
    e.appliedTotal.GetOr(0.0)
  }

  /** The `{actual, projected}` buckets of `_extract_player_stats`; a missing
      bucket is `None`. */
  datatype PlayerStats = PlayerStats(actual: Option<StatMap>, projected: Option<StatMap>)

  /** The loop of `_extract_player_stats` from `acc` on: every entry of the
      week overwrites the bucket of its source. */
  function Bucket(entries: seq<StatEntry>, week: Option<int>, acc: PlayerStats): PlayerStats
    decreases |entries|
  {
    if entries == [] then acc
    else
      var e := entries[0];
      var next :=
        if !InWeek(e, week) then acc
        else if SourceOf(e) == 0 then acc.(actual := Some(StatsOf(e)))
        else if SourceOf(e) == 1 then acc.(projected := Some(StatsOf(e)))
        else acc;
      Bucket(entries[1..], week, next)
  }

  function ExtractPlayerStats(player: Player, week: Option<int>): PlayerStats {
    Bucket(player.stats, week, PlayerStats(None, None))
  }

  /** The test "entry of the week from source `source`". */
  function FromSource(week: Option<int>, source: int): StatEntry -> bool {
    e => InWeek(e, week) && SourceOf(e) == source
  }

  /** The bucket a source ends up with: the stats of the LAST entry of the
      week from that source, or `fallback` when there is none. */
  function LastBucket(entries: seq<StatEntry>, week: Option<int>, source: int, fallback: Option<StatMap>): Option<StatMap> {
    match FindLast(entries, FromSource(week, source))
    case Some(i) => Some(StatsOf(entries[i]))
    case None => fallback
  }

  lemma {:induction false} BucketIsLast(entries: seq<StatEntry>, week: Option<int>, acc: PlayerStats)
    ensures Bucket(entries, week, acc).actual == LastBucket(entries, week, 0, acc.actual)
    ensures Bucket(entries, week, acc).projected == LastBucket(entries, week, 1, acc.projected)
    decreases |entries|
  {
    if entries != [] {
      var e := entries[0];
      var next :=
        if !InWeek(e, week) then acc
        else if SourceOf(e) == 0 then acc.(actual := Some(StatsOf(e)))
        else if SourceOf(e) == 1 then acc.(projected := Some(StatsOf(e)))
        else acc;
      BucketIsLast(entries[1..], week, next);
      LastShift(entries, week, 0, acc.actual, next.actual);
      LastShift(entries, week, 1, acc.projected, next.projected);
    }
  }

  /** Dropping the head of the list: the last match of the tail, shifted by
      one, is the last match of the whole list. */
  lemma LastShift(entries: seq<StatEntry>, week: Option<int>, source: int, before: Option<StatMap>, after: Option<StatMap>)
    requires entries != []
    requires after == (if FromSource(week, source)(entries[0]) then Some(StatsOf(entries[0])) else before)
    ensures LastBucket(entries[1..], week, source, after) == LastBucket(entries, week, source, before)
  {
    var p := FromSource(week, source);
    var tail := entries[1..];
    match FindLast(tail, p)
    case Some(j) =>
      assert tail[j] == entries[j + 1];
      assert p(entries[j + 1]);
      forall i | j + 1 < i < |entries|
        ensures !p(entries[i])
      {
        assert tail[i - 1] == entries[i];
      }
    case None =>
      forall i | 1 <= i < |entries|
        ensures !p(entries[i])
      {
        assert tail[i - 1] == entries[i];
      }
  }

  /** `_extract_player_stats`: each bucket holds the stats map of the last
      entry of the week with that source (a missing source counts as actual),
      and is absent when there is no such entry. */
  lemma ExtractPlayerStatsLastWins(player: Player, week: Option<int>)
    ensures var r := ExtractPlayerStats(player, week);
      r.actual == LastBucket(player.stats, week, 0, None)
      && r.projected == LastBucket(player.stats, week, 1, None)
      && (r.actual.Some? <==> exists i :: 0 <= i < |player.stats| && InWeek(player.stats[i], week) && SourceOf(player.stats[i]) == 0)
  {
    BucketIsLast(player.stats, week, PlayerStats(None, None));
    var p := FromSource(week, 0);
    if FindLast(player.stats, p).None? {
      forall i | 0 <= i < |player.stats|
        ensures !(InWeek(player.stats[i], week) && SourceOf(player.stats[i]) == 0)
      {
        assert !p(player.stats[i]);
      }
    }
  }

  /** The test of `_get_projected_points`: an entry of the week whose
      `statSourceId` is present and equal to 1. */
  function ProjectedEntry(week: Option<int>): StatEntry -> bool {
    e => InWeek(e, week) && e.statSourceId == Some(1)
  }

  /** `_get_projected_points(player, week)`: the `appliedTotal` (default 0.0)
      of the FIRST projected entry of the week, or 0.0 when there is none. */
  function ProjectedPointsOf(entries: seq<StatEntry>, week: Option<int>): (r: real)
    ensures match FindFirst(entries, ProjectedEntry(week))
      case Some(i) => r == AppliedOf(entries[i])
      case None => r == 0.0
    decreases |entries|
  {
    if entries == [] then 0.0
    else if InWeek(entries[0], week) && entries[0].statSourceId == Some(1) then AppliedOf(entries[0])
    else ProjectedPointsOf(entries[1..], week)
  }

  function ProjectedPoints(player: Player, week: Option<int>): real {
    ProjectedPointsOf(player.stats, week)
  }

  /** The test of the season-total loop: `statSourceId` present and 0. */
  function ActualEntry(e: StatEntry): bool {
    e.statSourceId == Some(0)
  }

  /** The season total of `get_available_players`: the sum of `appliedTotal`
      over every actual entry, whatever its week. */
  function SeasonPoints(player: Player): (r: real)
    ensures r == SumOf(Filter(player.stats, ActualEntry), AppliedOf)
  {
    SeasonPointsOf(player.stats)
  }

  function SeasonPointsOf(entries: seq<StatEntry>): (r: real)
    ensures r == SumOf(Filter(entries, ActualEntry), AppliedOf)
    decreases |entries|
  {
    if entries == [] then 0.0
    else
      var rest := SeasonPointsOf(entries[1..]);
      if entries[0].statSourceId == Some(0) then
        assert Filter(entries, ActualEntry) == [entries[0]] + Filter(entries[1..], ActualEntry);
        AppliedOf(entries[0]) + rest
      else
        assert Filter(entries, ActualEntry) == Filter(entries[1..], ActualEntry);
        rest
  }

  /** `average_points`: the season total over a fixed 17 weeks when it is
      positive, 0 otherwise. */
  function AveragePoints(seasonPoints: real): (r: real)
    ensures seasonPoints > 0.0 ==> r > 0.0 && r * 17.0 == seasonPoints
    ensures seasonPoints <= 0.0 ==> r == 0.0
  {
    if seasonPoints > 0.0 then seasonPoints / 17.0 else 0.0
  }

  // ---------------------------------------------------------------------------
  // Scoring type
  // ---------------------------------------------------------------------------

  /** `item.get("points", 0)`. */
  function PointsOf(item: ScoringItem): real {
    item.points.GetOr(0.0)
  }

  /** A reception item (stat 53) worth 1.0 or 0.5 settles the scoring type. */
  function SettlesScoring(item: ScoringItem): bool {
    item.statId == Some(53) && (PointsOf(item) == 1.0 || PointsOf(item) == 0.5)
  }

  /** `_determine_scoring_type`: the type named by the first reception item
      worth 1.0 ("ppr") or 0.5 ("half_ppr"); reception items with any other
      value are passed over; "standard" when no item settles it. */
  function DetermineScoringType(items: seq<ScoringItem>): (r: ScoringType)
    ensures match FindFirst(items, SettlesScoring)
      case Some(i) => r == (if PointsOf(items[i]) == 1.0 then Ppr else HalfPpr)
      case None => r == Standard
    decreases |items|
  {
    if items == [] then Standard
    else if items[0].statId == Some(53) && PointsOf(items[0]) == 1.0 then Ppr
    else if items[0].statId == Some(53) && PointsOf(items[0]) == 0.5 then HalfPpr
    else DetermineScoringType(items[1..])
  }

  /** A reception item with a value other than 1.0 and 0.5 does not stop the
      scan, and a missing value counts as 0. */
  lemma {:induction false} OtherReceptionValuesSkipped(item: ScoringItem, rest: seq<ScoringItem>)
    requires item.statId == Some(53) && PointsOf(item) != 1.0 && PointsOf(item) != 0.5
    ensures DetermineScoringType([item] + rest) == DetermineScoringType(rest)
  {
    assert ([item] + rest)[1..] == rest;
  }
}

=== FILE: leagues.dfy ===
/** The ESPN league handlers of `api/leagues.py`: connecting a league,
    re-syncing it, and the two live views (matchups and waiver budgets) that
    join ESPN data with the stored teams. Every ESPN request is a call of the
    `espn` parameter, so what a handler sends is part of its meaning. */
module Leagues {
  import opened Wrappers
  import opened Domain
  import opened Seqs
  import opened EspnFetch
  import EspnRecords
  import opened EspnService
  import opened Credentials
  import opened Tables
  import opened Store

  // ---------------------------------------------------------------------------
  // Requests to ESPN
  // ---------------------------------------------------------------------------

  /** The league views the handlers ask ESPN for. */
  datatype View = InfoView | TeamsView | MatchupsView | RostersView | BudgetsView | PlayersView

  /** One request: the view, the league id put in the URL, the scoring
      period, and the cookies sent. */
  datatype Call = Call(view: View, leagueId: Option<int>, week: Option<int>, cookies: map<string, string>)

  /** `cookies.to_dict() if cookies else {}`. */
  function SentDict(cookies: Option<Cookies>): map<string, string> {
    match cookies
    case None => map[]
    case Some(k) => CookiesToDict(k)
  }

  function Entry(d: map<string, string>, name: string): Option<string> {
    if name in d then Some(d[name]) else None
  }

  datatype ConnectRequest = ConnectRequest(leagueId: int, espnS2: Option<string>, espnSwid: Option<string>)

  /** The user making the request, with their stored credentials. */
  datatype Account = Account(id: int, credentials: Stored)

  /** `connect_league`'s cookies: the request's credentials when either is
      non-empty, otherwise the user's stored ones. */
  function ConnectCookies(c: Cipher, user: Stored, req: ConnectRequest): (r: Option<Cookies>)
    ensures Given(req.espnS2) || Given(req.espnSwid) ==> r == Some(Cookies(req.espnS2, req.espnSwid))
  {
    if Given(req.espnS2) || Given(req.espnSwid) then Some(Cookies(req.espnS2, req.espnSwid))
    else if Given(user.s2) || Given(user.swid) then
      match CookiesForUser(c, user)
      case None => None
      case Some(d) => Some(Cookies(Entry(d, "espn_s2"), Entry(d, "SWID")))
    else None
  }

  /** The request's credentials take precedence; without them ESPN receives
      exactly the cookies the user's stored credentials decrypt to. */
  lemma ConnectCookiesPrecedence(c: Cipher, user: Stored, req: ConnectRequest)
    ensures SentDict(ConnectCookies(c, user, req))
         == if Given(req.espnS2) || Given(req.espnSwid) then CookiesToDict(Cookies(req.espnS2, req.espnSwid))
            else CookiesForUser(c, user).GetOr(map[])
  {
    if !(Given(req.espnS2) || Given(req.espnSwid)) {
      match CookiesForUser(c, user)
      case None =>
      case Some(d) =>
        var k := Cookies(Entry(d, "espn_s2"), Entry(d, "SWID"));
        assert CookiesToDict(k).Keys == d.Keys;
    }
  }

  /** The cookies of `sync_league`, `get_league_matchups` and
      `get_league_waiver_budgets`: built whenever either stored credential is
      non-empty, whatever it decrypts to. */
  function StoredCookies(c: Cipher, league: Stored): (r: Option<Cookies>)
    ensures r.Some? <==> Given(league.s2) || Given(league.swid)
  {
    if Given(league.s2) || Given(league.swid)
    then Some(Cookies(DecryptData(c, league.s2), DecryptData(c, league.swid)))
    else None
  }

  /** Skipping the second check the other handlers make changes nothing on
      the wire: the cookies sent are the ones `LeagueCookies` and
      `get_espn_cookies_for_user` give. */
  lemma StoredCookiesAgree(c: Cipher, league: Stored)
    ensures SentDict(StoredCookies(c, league)) == SentDict(LeagueCookies(c, league))
    ensures SentDict(StoredCookies(c, league)) == CookiesForUser(c, league).GetOr(map[])
  {
    LeagueCookiesAgreeWithUserCookies(c, league);
    if (Given(league.s2) || Given(league.swid)) && LeagueCookies(c, league).None? {
      assert CookiesToDict(StoredCookies(c, league).value) == map[];
    }
  }

  /** The handlers' `except ESPNError` clause. httpx's status error, raised
      for a response other than 200 or 401, is not an `ESPNError` and falls
      through to the generic clause. */
  predicate CaughtAsEspnError(e: EspnError) {
    !e.HttpStatusError?
  }

  // ---------------------------------------------------------------------------
  // Writing teams and the league
  // ---------------------------------------------------------------------------

  /** The natural key of an ESPN team within league `leagueId`; teams of
      other leagues are out of scope. */
  function EspnTeamKey(leagueId: int): TeamRow -> Option<Option<int>> {
    (t: TeamRow) => if t.leagueId == leagueId then Some(t.espnTeamId) else None
  }

  function TeamItemKey(d: TeamSummary): Option<Option<int>> {
    Some(d.id)
  }

  /** The update branch of the team loop: every ESPN field is overwritten. */
  function WriteTeam(d: TeamSummary): TeamRow -> TeamRow {
    (t: TeamRow) => t.(name := d.name, location := Some(d.location), nickname := Some(d.nickname),
      abbreviation := Some(d.abbreviation), logoUrl := Some(d.logoUrl),
      wins := d.wins, losses := d.losses, ties := d.ties,
      pointsFor := d.pointsFor, pointsAgainst := d.pointsAgainst)
  }

  /** The create branch of the team loop. */
  function NewTeam(leagueId: int): TeamSummary -> TeamRow {
    (d: TeamSummary) => TeamRow(leagueId, d.id, None, None, d.name, Some(d.location), Some(d.nickname),
      Some(d.abbreviation), Some(d.logoUrl), d.wins, d.losses, d.ties, d.pointsFor, d.pointsAgainst)
  }

  /** The team loop of `connect_league` and `sync_league`. */
  function EspnTeamSync(leagueId: int): Sync<TeamRow, Option<int>, TeamSummary> {
    Sync(EspnTeamKey(leagueId), TeamItemKey, WriteTeam, NewTeam(leagueId))
  }

  lemma EspnTeamSyncLawful(leagueId: int)
    ensures Lawful(EspnTeamSync(leagueId))
  {
  }

  /** A team row carries the values of an ESPN team summary. */
  predicate Holds(t: TeamRow, d: TeamSummary) {
    t.espnTeamId == d.id && t.name == d.name && t.location == Some(d.location)
    && t.nickname == Some(d.nickname) && t.abbreviation == Some(d.abbreviation)
    && t.logoUrl == Some(d.logoUrl) && t.wins == d.wins && t.losses == d.losses
    && t.ties == d.ties && t.pointsFor == d.pointsFor && t.pointsAgainst == d.pointsAgainst
  }

  /** The league's teams have distinct ESPN ids (the database's invariant,
      which every sync keeps). */
  ghost predicate TeamKeysUnique(db: Db) {
    forall leagueId :: UniqueKeys(db.teams, EspnTeamKey(leagueId))
  }

  /** After the team loop, every team ESPN reported is stored in the league
      with the values of its last summary, and teams ESPN did not report,
      and every team of another league, are untouched. */
  lemma TeamsSynced(teams: seq<TeamRow>, leagueId: int, ts: seq<TeamSummary>)
    ensures var after := UpsertAll(teams, EspnTeamSync(leagueId), ts);
      |after| >= |teams|
      && (forall j :: 0 <= j < |ts| ==>
        exists i :: 0 <= i < |after| && after[i].leagueId == leagueId && Holds(after[i], ts[LastFor(EspnTeamSync(leagueId), ts, ts[j].id).value]))
      && (forall i :: 0 <= i < |teams| && teams[i].leagueId != leagueId ==> after[i] == teams[i])
      && (forall i :: 0 <= i < |teams| && LastFor(EspnTeamSync(leagueId), ts, teams[i].espnTeamId).None? ==> after[i] == teams[i])
  {
    var s := EspnTeamSync(leagueId);
    var after := UpsertAll(teams, s, ts);
    EspnTeamSyncLawful(leagueId);
    UpsertAllFrame(teams, s, ts);
    UpsertAllKeepsKeys(teams, s, ts);
    forall j | 0 <= j < |ts|
      ensures exists i :: 0 <= i < |after| && after[i].leagueId == leagueId && Holds(after[i], ts[LastFor(s, ts, ts[j].id).value])
    {
      assert ItemKeyIs(s, ts[j].id)(ts[j]);
      UpsertAllReflects(teams, s, ts, ts[j].id);
      var i := Lookup(after, s.key, Some(ts[j].id)).value;
      var d := ts[LastFor(s, ts, ts[j].id).value];
      assert WriteTeam(d)(after[i]) == after[i];
      assert after[i].leagueId == leagueId;
    }
  }

  /** Encrypt a credential for storage when it is non-empty. */
  function Encrypted(c: Cipher, v: Option<string>): (r: Option<string>)
    ensures r.Some? <==> Given(v)
  {
    if Given(v) then Some(EncryptData(c, v.value)) else None
  }

  /** What `connect_league` writes into the league row. `s2` and `swid` are
      the encrypted credentials to store; `None` keeps the stored one. */
  datatype LeagueUpdate = LeagueUpdate(info: LeagueInfo, owner: int, s2: Option<string>, swid: Option<string>)

  function EspnLeagueKey(l: LeagueRow): Option<int> {
    l.espnLeagueId
  }

  function Keep(update: Option<string>, stored: Option<string>): Option<string> {
    if update.Some? then update else stored
  }

  /** The update branch: refresh the settings, (re)claim ownership,
      reactivate, and store the credentials given. */
  function WriteLeague(u: LeagueUpdate): LeagueRow -> LeagueRow {
    (l: LeagueRow) => l.(name := u.info.name, size := u.info.size, currentWeek := u.info.currentWeek,
      scoringType := u.info.scoringType, ownerUserId := Some(u.owner), isActive := true,
      credentials := Stored(Keep(u.s2, l.credentials.s2), Keep(u.swid, l.credentials.swid)))
  }

  /** The create branch: an ESPN league of the service's season. */
  function NewLeague(espnLeagueId: int, season: int): LeagueUpdate -> LeagueRow {
    (u: LeagueUpdate) => LeagueRow(Espn, Some(espnLeagueId), None, None, u.info.name, season, u.info.size,
      u.info.currentWeek, u.info.scoringType, Stored(u.s2, u.swid), Some(u.owner), true, None)
  }

  function LeagueSync(espnLeagueId: int, season: int): Sync<LeagueRow, int, LeagueUpdate> {
    Sync(EspnLeagueKey, (u: LeagueUpdate) => Some(espnLeagueId), WriteLeague, NewLeague(espnLeagueId, season))
  }

  /** The index the connected league ends up at: the first row with the ESPN
      id, or a new row at the end. */
  function LeagueIndex(leagues: seq<LeagueRow>, espnLeagueId: int): (r: nat)
    ensures r <= |leagues|
    ensures r < |leagues| ==> (leagues[r].espnLeagueId == Some(espnLeagueId)
      && forall i :: 0 <= i < r ==> leagues[i].espnLeagueId != Some(espnLeagueId))
    ensures r == |leagues| <==> forall i :: 0 <= i < |leagues| ==> leagues[i].espnLeagueId != Some(espnLeagueId)
  {
    match Lookup(leagues, EspnLeagueKey, Some(espnLeagueId))
    case Some(i) => i
    case None => |leagues|
  }

  // ---------------------------------------------------------------------------
  // connect_league and sync_league
  // ---------------------------------------------------------------------------

  /** What a connect or sync answers: the league and its teams, or the ESPN
      error reported with `success=False`. */
  datatype Outcome = Synced(leagueId: int, teams: seq<TeamSummary>) | EspnFailed(error: EspnError)

  /** An error raised by the adapter before anything is committed. */
  function EspnFailure(db: Db, e: EspnError): (r: Result<(Db, Outcome), int>)
    ensures r.Success? <==> CaughtAsEspnError(e)
    ensures r.Success? ==> r.value == (db, EspnFailed(e))
    ensures r.Failure? ==> r.error == 500
  {
    if CaughtAsEspnError(e) then Success((db, EspnFailed(e))) else Failure(500)
  }

  /** The writes of `connect_league` once both fetches succeeded: the league
      row (found by ESPN id or created) and then its teams. Returns the new
      database and the league's id. */
  function ConnectWith(c: Cipher, db: Db, user: int, req: ConnectRequest, season: int,
                       info: LeagueInfo, ts: seq<TeamSummary>): (r: (Db, int))
    ensures var (after, id) := r;
      1 <= id <= |after.leagues| && |db.leagues| <= |after.leagues| <= |db.leagues| + 1
      && (id <= |db.leagues| <==> exists i :: 0 <= i < |db.leagues| && db.leagues[i].espnLeagueId == Some(req.leagueId))
      && after.leagues[id - 1].espnLeagueId == Some(req.leagueId)
      && after.leagues[id - 1].ownerUserId == Some(user) && after.leagues[id - 1].isActive
      && after.leagues[id - 1].name == info.name && after.leagues[id - 1].size == info.size
      && after.leagues[id - 1].currentWeek == info.currentWeek && after.leagues[id - 1].scoringType == info.scoringType
      && (id > |db.leagues| ==> after.leagues[id - 1].seasonYear == season && after.leagues[id - 1].platform == Espn)
      && (forall i :: 0 <= i < |db.leagues| && i != id - 1 ==> after.leagues[i] == db.leagues[i])
      && after.budgets == db.budgets
  {
    var u := LeagueUpdate(info, user, Encrypted(c, req.espnS2), Encrypted(c, req.espnSwid));
    var at := LeagueIndex(db.leagues, req.leagueId);
    var leagues := Upsert(db.leagues, LeagueSync(req.leagueId, season), u);
    (Db(leagues, UpsertAll(db.teams, EspnTeamSync(at + 1), ts), db.budgets), at + 1)
  }

  /** Connect's teams are the fetched teams synced into the connected
      league, so `TeamsSynced` describes them. */
  lemma ConnectWithSyncsTeams(c: Cipher, db: Db, user: int, req: ConnectRequest, season: int,
                              info: LeagueInfo, ts: seq<TeamSummary>)
    ensures var (after, id) := ConnectWith(c, db, user, req, season, info, ts);
      after.teams == UpsertAll(db.teams, EspnTeamSync(id), ts)
  {
  }

  /** The credentials stored with a connected league: the request's,
      encrypted, where given; otherwise what the row already held (nothing,
      for a new row). */
  lemma ConnectStoresCredentials(c: Cipher, db: Db, user: int, req: ConnectRequest, season: int,
                                 info: LeagueInfo, ts: seq<TeamSummary>)
    ensures var (after, id) := ConnectWith(c, db, user, req, season, info, ts);
      var stored := after.leagues[id - 1].credentials;
      var before := if id <= |db.leagues| then db.leagues[id - 1].credentials else NoCredentials;
      (Given(req.espnS2) ==> stored.s2 == Some(EncryptData(c, req.espnS2.value)))
      && (!Given(req.espnS2) ==> stored.s2 == before.s2)
      && (Given(req.espnSwid) ==> stored.swid == Some(EncryptData(c, req.espnSwid.value)))
      && (!Given(req.espnSwid) ==> stored.swid == before.swid)
  {
  }

  /** `connect_league`. Both fetches happen before any write, so an error
      leaves the database as it was; an `ESPNError` is answered with
      `success=False`, anything else with a 500. */
  function Connect(c: Cipher, db: Db, user: Account, req: ConnectRequest, season: int,
                   espn: Call -> Result<EspnRecords.LeagueView, EspnError>): (r: Result<(Db, Outcome), int>)
    ensures r.Failure? ==> r.error == 500
    ensures r.Success? && r.value.1.EspnFailed? ==> r.value.0 == db && CaughtAsEspnError(r.value.1.error)
    ensures r.Success? && r.value.1.Synced? ==>
      OwnedLeague(r.value.0, r.value.1.leagueId, user.id).Some?
      && r.value.0.leagues[r.value.1.leagueId - 1] in UserLeagues(r.value.0, user.id)
  {
    var dict := SentDict(ConnectCookies(c, user.credentials, req));
    match GetLeagueInfo(espn(Call(InfoView, Some(req.leagueId), None, dict)))
    case Failure(e) => EspnFailure(db, e)
    case Success(info) =>
      match GetTeams(espn(Call(TeamsView, Some(req.leagueId), None, dict)))
      case Failure(e) => EspnFailure(db, e)
      case Success(ts) =>
        var (after, id) := ConnectWith(c, db, user.id, req, season, info, ts);
        UserLeaguesExactly(after, user.id);
        Success((after, Synced(id, ts)))
  }

  /** Two league rows that differ at most in the ciphertexts of their
      credentials, which decrypt to the same values under `c`. */
  predicate SameUpToCiphertext(c: Cipher, a: LeagueRow, b: LeagueRow) {
    a.(credentials := NoCredentials) == b.(credentials := NoCredentials)
    && DecryptData(c, a.credentials.s2) == DecryptData(c, b.credentials.s2)
    && DecryptData(c, a.credentials.swid) == DecryptData(c, b.credentials.swid)
  }

  /** Connecting the same league twice with the same data. Encryption is
      randomized, so the second connect encrypts with its own `encrypt2`,
      which only has to decrypt under the same key. The league keeps its id,
      its teams and every other row. Its stored ciphertexts may change, but
      they decrypt to the same credentials. A request without credentials
      encrypts nothing, and then the second connect changes nothing at all. */
  lemma ConnectIdempotent(c: Cipher, encrypt2: string -> string, db: Db, user: int, req: ConnectRequest,
                          season: int, info: LeagueInfo, ts: seq<TeamSummary>)
    requires TeamKeysUnique(db)
    requires WellFormed(c) && WellFormed(c.(encrypt := encrypt2))
    ensures var once := ConnectWith(c, db, user, req, season, info, ts);
      var twice := ConnectWith(c.(encrypt := encrypt2), once.0, user, req, season, info, ts);
      twice.1 == once.1 && twice.0.teams == once.0.teams && twice.0.budgets == once.0.budgets
      && |twice.0.leagues| == |once.0.leagues|
      && (forall i :: 0 <= i < |once.0.leagues| && i != once.1 - 1 ==> twice.0.leagues[i] == once.0.leagues[i])
      && SameUpToCiphertext(c, twice.0.leagues[once.1 - 1], once.0.leagues[once.1 - 1])
    ensures !Given(req.espnS2) && !Given(req.espnSwid) ==>
      var once := ConnectWith(c, db, user, req, season, info, ts);
      ConnectWith(c.(encrypt := encrypt2), once.0, user, req, season, info, ts) == once
  {
    var c2 := c.(encrypt := encrypt2);
    var u1 := LeagueUpdate(info, user, Encrypted(c, req.espnS2), Encrypted(c, req.espnSwid));
    var u2 := LeagueUpdate(info, user, Encrypted(c2, req.espnS2), Encrypted(c2, req.espnSwid));
    var at := LeagueIndex(db.leagues, req.leagueId);
    LeagueUpsertStable(db.leagues, req.leagueId, season, u1);
    EspnTeamSyncLawful(at + 1);
    SyncIdempotent(db.teams, EspnTeamSync(at + 1), ts);
    LeagueRewrite(c, c2, db.leagues, req, season, u1, u2);
  }

  /** The league write of the second connect: the row written by the first
      is rewritten in place, up to its ciphertexts. */
  lemma LeagueRewrite(c: Cipher, c2: Cipher, rows: seq<LeagueRow>, req: ConnectRequest, season: int,
                      u1: LeagueUpdate, u2: LeagueUpdate)
    requires WellFormed(c) && WellFormed(c2) && c2 == c.(encrypt := c2.encrypt)
    requires u1 == LeagueUpdate(u1.info, u1.owner, Encrypted(c, req.espnS2), Encrypted(c, req.espnSwid))
    requires u2 == u1.(s2 := Encrypted(c2, req.espnS2), swid := Encrypted(c2, req.espnSwid))
    ensures var s := LeagueSync(req.leagueId, season);
      var once := Upsert(rows, s, u1);
      var at := LeagueIndex(rows, req.leagueId);
      var twice := Upsert(once, s, u2);
      at < |once| && |twice| == |once|
      && (forall i :: 0 <= i < |once| && i != at ==> twice[i] == once[i])
      && SameUpToCiphertext(c, twice[at], once[at])
  {
    var s := LeagueSync(req.leagueId, season);
    var once := Upsert(rows, s, u1);
    var at := LeagueIndex(rows, req.leagueId);
    LeagueUpsertStable(rows, req.leagueId, season, u1);
    assert Lookup(once, EspnLeagueKey, Some(req.leagueId)) == Some(at);
    var twice := Upsert(once, s, u2);
    assert twice == once[at := WriteLeague(u2)(once[at])];
    assert once[at].credentials.s2 == Keep(u1.s2, if at < |rows| then rows[at].credentials.s2 else None);
    assert once[at].credentials.swid == Keep(u1.swid, if at < |rows| then rows[at].credentials.swid else None);
    if Given(req.espnS2) {
      EncryptDecryptRoundTrip(c, req.espnS2.value);
      EncryptDecryptRoundTrip(c2, req.espnS2.value);
    }
    if Given(req.espnSwid) {
      EncryptDecryptRoundTrip(c, req.espnSwid.value);
      EncryptDecryptRoundTrip(c2, req.espnSwid.value);
    }
  }

  /** Writing the same league update twice: the league stays at the same
      index and the second write changes nothing. */
  lemma LeagueUpsertStable(rows: seq<LeagueRow>, espnLeagueId: int, season: int, u: LeagueUpdate)
    ensures LeagueIndex(Upsert(rows, LeagueSync(espnLeagueId, season), u), espnLeagueId) == LeagueIndex(rows, espnLeagueId)
    ensures Upsert(Upsert(rows, LeagueSync(espnLeagueId, season), u), LeagueSync(espnLeagueId, season), u)
         == Upsert(rows, LeagueSync(espnLeagueId, season), u)
  {
    var s := LeagueSync(espnLeagueId, season);
    var at := LeagueIndex(rows, espnLeagueId);
    var leagues := Upsert(rows, s, u);
    if at < |rows| {
      LookupSameKeys(leagues, rows, EspnLeagueKey, Some(espnLeagueId));
    } else {
      LookupAppend(rows, EspnLeagueKey, NewLeague(espnLeagueId, season)(u), espnLeagueId);
    }
    assert LeagueIndex(leagues, espnLeagueId) == at;
  }

  /** `last_synced` is the database clock at the commit. */
  function Refresh(l: LeagueRow, info: LeagueInfo, now: int): LeagueRow {
    l.(name := info.name, size := info.size, currentWeek := info.currentWeek,
       scoringType := info.scoringType, lastSynced := Some(now))
  }

  /** The writes of `sync_league` once both fetches succeeded. */
  function SyncWith(db: Db, i: nat, now: int, info: LeagueInfo, ts: seq<TeamSummary>): (after: Db)
    requires i < |db.leagues|
    ensures |after.leagues| == |db.leagues| && after.budgets == db.budgets
    ensures forall j :: 0 <= j < |db.leagues| && j != i ==> after.leagues[j] == db.leagues[j]
    ensures var (l, m) := (db.leagues[i], after.leagues[i]);
      m.name == info.name && m.size == info.size && m.currentWeek == info.currentWeek
      && m.scoringType == info.scoringType && m.lastSynced == Some(now)
      && m.platform == l.platform && m.espnLeagueId == l.espnLeagueId && m.seasonYear == l.seasonYear
      && m.credentials == l.credentials && m.ownerUserId == l.ownerUserId && m.isActive == l.isActive
  {
    Db(db.leagues[i := Refresh(db.leagues[i], info, now)], UpsertAll(db.teams, EspnTeamSync(i + 1), ts), db.budgets)
  }

  /** `sync_league`: 404 for a league the user does not own; otherwise
      refetch with the league's stored cookies and write as `connect_league`
      does, except that ownership, activity and credentials stay as they
      are. A fetch error commits nothing. */
  function SyncLeague(c: Cipher, db: Db, leagueId: int, userId: int, now: int,
                      espn: Call -> Result<EspnRecords.LeagueView, EspnError>): (r: Result<(Db, Outcome), int>)
    ensures OwnedLeague(db, leagueId, userId).None? ==> r == Failure(404)
    ensures r.Failure? ==> r.error in {404, 500}
    ensures r.Success? && r.value.1.EspnFailed? ==> r.value.0 == db && CaughtAsEspnError(r.value.1.error)
    ensures r.Success? && r.value.1.Synced? ==> (r.value.1.leagueId == leagueId
      && 1 <= leagueId <= |r.value.0.leagues|
      && r.value.0.leagues[leagueId - 1].lastSynced == Some(now)
      && GetLeague(r.value.0, leagueId, userId).Success?)
  {
    match OwnedLeague(db, leagueId, userId)
    case None => Failure(404)
    case Some(i) =>
      var l := db.leagues[i];
      var dict := SentDict(StoredCookies(c, l.credentials));
      match GetLeagueInfo(espn(Call(InfoView, l.espnLeagueId, None, dict)))
      case Failure(e) => EspnFailure(db, e)
      case Success(info) =>
        match GetTeams(espn(Call(TeamsView, l.espnLeagueId, None, dict)))
        case Failure(e) => EspnFailure(db, e)
        case Success(ts) => Success((SyncWith(db, i, now, info, ts), Synced(leagueId, ts)))
  }

  /** A sync that sees the same teams as the connect before it leaves the
      teams table as the connect left it. */
  lemma SyncAfterConnectKeepsTeams(c: Cipher, db: Db, user: int, req: ConnectRequest, season: int,
                                   info: LeagueInfo, info2: LeagueInfo, ts: seq<TeamSummary>, now: int)
    requires TeamKeysUnique(db)
    ensures var (after, id) := ConnectWith(c, db, user, req, season, info, ts);
      SyncWith(after, id - 1, now, info2, ts).teams == after.teams
  {
    var at := LeagueIndex(db.leagues, req.leagueId);
    EspnTeamSyncLawful(at + 1);
    SyncIdempotent(db.teams, EspnTeamSync(at + 1), ts);
  }

  // ---------------------------------------------------------------------------
  // get_league_matchups
  // ---------------------------------------------------------------------------

  /** `MatchupWithTeams`: ESPN's matchup, with the stored home and away
      teams (their row ids and names) where ESPN's ids name one. */
  datatype MatchupWithTeams = MatchupWithTeams(
    id: int, matchupId: int, leagueId: int, week: int,
    homeTeamId: Option<int>, awayTeamId: Option<int>,
    homeScore: real, awayScore: real, isPlayoff: bool, winner: string,
    homeTeamName: Option<string>, awayTeamName: Option<string>,
    homeTeamLocation: Option<string>, awayTeamLocation: Option<string>,
    homeTeamNickname: Option<string>, awayTeamNickname: Option<string>)

  /** The stored team for an ESPN team id, looked up only when the id is
      truthy. */
  function TeamFor(teams: seq<TeamRow>, leagueId: int, espnTeamId: Option<int>): (r: Option<nat>)
    ensures r.Some? ==> (Truthy(espnTeamId) && r.value < |teams|
      && teams[r.value].leagueId == leagueId && teams[r.value].espnTeamId == espnTeamId)
    ensures r.None? <==> (!Truthy(espnTeamId)
      || forall i :: 0 <= i < |teams| ==> !(teams[i].leagueId == leagueId && teams[i].espnTeamId == espnTeamId))
  {
    if Truthy(espnTeamId) then
      var r := Lookup(teams, EspnTeamKey(leagueId), Some(espnTeamId));
      assert r.None? ==> forall i :: 0 <= i < |teams| ==> EspnTeamKey(leagueId)(teams[i]) != Some(espnTeamId);
      r
    else None
  }

  function RowId(t: Option<nat>): Option<int> {
    if t.Some? then Some(t.value + 1) else None
  }

  function Column(teams: seq<TeamRow>, t: Option<nat>, f: TeamRow -> Option<string>): Option<string>
    requires t.Some? ==> t.value < |teams|
  {
    if t.Some? then f(teams[t.value]) else None
  }

  /** The response's required fields: a matchup without an id or a week
      fails validation. */
  predicate Valid(m: Matchup) {
    m.matchupId.Some? && m.week.Some?
  }

  function WithTeams(teams: seq<TeamRow>, leagueId: int): Matchup -> MatchupWithTeams {
    (m: Matchup) =>
      var home := TeamFor(teams, leagueId, m.homeTeamId);
      var away := TeamFor(teams, leagueId, m.awayTeamId);
      MatchupWithTeams(m.matchupId.GetOr(0), m.matchupId.GetOr(0), leagueId, m.week.GetOr(0),
        RowId(home), RowId(away), m.homeScore, m.awayScore, m.isPlayoff, m.winner,
        Column(teams, home, (t: TeamRow) => Some(t.name)), Column(teams, away, (t: TeamRow) => Some(t.name)),
        Column(teams, home, (t: TeamRow) => t.location), Column(teams, away, (t: TeamRow) => t.location),
        Column(teams, home, (t: TeamRow) => t.nickname), Column(teams, away, (t: TeamRow) => t.nickname))
  }

  /** `get_league_matchups`: 404 for a league the user does not own; ESPN's
      matchups for the week, in order, each joined with the league's stored
      teams; an `ESPNError` is a 400 and anything else (a status error, a
      matchup failing validation) a 500. Nothing is written. */
  function GetLeagueMatchups(c: Cipher, db: Db, leagueId: int, userId: int, week: Option<int>,
                             espn: Call -> Result<EspnRecords.LeagueView, EspnError>): (r: Result<seq<MatchupWithTeams>, int>)
    ensures OwnedLeague(db, leagueId, userId).None? ==> r == Failure(404)
    ensures r.Failure? ==> r.error in {400, 404, 500}
    ensures r.Success? ==> forall k :: 0 <= k < |r.value| ==>
      r.value[k].leagueId == leagueId && r.value[k].id == r.value[k].matchupId
      && (Truthy(week) ==> r.value[k].week == week.value)
      && (r.value[k].homeTeamId.Some? ==> (1 <= r.value[k].homeTeamId.value <= |db.teams|
            && db.teams[r.value[k].homeTeamId.value - 1].leagueId == leagueId
            && r.value[k].homeTeamName == Some(db.teams[r.value[k].homeTeamId.value - 1].name)))
      && (r.value[k].homeTeamId.None? ==> r.value[k].homeTeamName.None? && r.value[k].homeTeamLocation.None?)
      && (r.value[k].awayTeamId.Some? ==> (1 <= r.value[k].awayTeamId.value <= |db.teams|
            && db.teams[r.value[k].awayTeamId.value - 1].leagueId == leagueId
            && r.value[k].awayTeamName == Some(db.teams[r.value[k].awayTeamId.value - 1].name)))
      && (r.value[k].awayTeamId.None? ==> r.value[k].awayTeamName.None? && r.value[k].awayTeamLocation.None?)
  {
    match OwnedLeague(db, leagueId, userId)
    case None => Failure(404)
    case Some(i) =>
      var l := db.leagues[i];
      var dict := SentDict(StoredCookies(c, l.credentials));
      var rosters := espn(Call(RostersView, l.espnLeagueId, Some(WeekOr(week, 1)), dict));
      match GetMatchups(espn(Call(MatchupsView, l.espnLeagueId, week, dict)), week, rosters)
      case Failure(e) => Failure(if CaughtAsEspnError(e) then 400 else 500)
      case Success(ms) =>
        if Any(ms, (m: Matchup) => !Valid(m)) then Failure(500)
        else
          assert forall k :: 0 <= k < |ms| ==> Valid(ms[k]);
          Success(Map(ms, WithTeams(db.teams, leagueId)))
  }

  /** A matchup names a stored team exactly when ESPN's id is truthy and the
      league has a team with that ESPN id. */
  lemma MatchupTeamsResolved(teams: seq<TeamRow>, leagueId: int, m: Matchup)
    ensures var w := WithTeams(teams, leagueId)(m);
      (w.homeTeamId.Some? <==> (Truthy(m.homeTeamId)
        && exists i :: 0 <= i < |teams| && teams[i].leagueId == leagueId && teams[i].espnTeamId == m.homeTeamId))
      && (w.awayTeamId.Some? <==> (Truthy(m.awayTeamId)
        && exists i :: 0 <= i < |teams| && teams[i].leagueId == leagueId && teams[i].espnTeamId == m.awayTeamId))
      && (w.homeTeamId.Some? ==> teams[w.homeTeamId.value - 1].espnTeamId == m.homeTeamId)
      && (w.awayTeamId.Some? ==> teams[w.awayTeamId.value - 1].espnTeamId == m.awayTeamId)
  {
  }

  // ---------------------------------------------------------------------------
  // get_league_waiver_budgets
  // ---------------------------------------------------------------------------

  /** A budget whose ESPN team the league has stored, with that team's row. */
  datatype Resolved = Resolved(team: nat, budget: Budget)

  function Known(teams: seq<TeamRow>, leagueId: int): Budget -> bool {
    (b: Budget) => Lookup(teams, EspnTeamKey(leagueId), Some(b.teamId)).Some?
  }

  /** The budgets of teams the league has stored, each with its team's row
      index; the others are skipped. */
  function Resolve(teams: seq<TeamRow>, leagueId: int, budgets: seq<Budget>): (r: seq<Resolved>)
    ensures |r| == |Filter(budgets, Known(teams, leagueId))|
    ensures forall k :: 0 <= k < |r| ==> (r[k].team < |teams| && r[k].budget in budgets
      && teams[r[k].team].leagueId == leagueId && teams[r[k].team].espnTeamId == r[k].budget.teamId)
    decreases |budgets|
  {
    if budgets == [] then []
    else
      var b := budgets[0];
      var rest := Resolve(teams, leagueId, budgets[1..]);
      match Lookup(teams, EspnTeamKey(leagueId), Some(b.teamId))
      case None => rest
      case Some(t) => [Resolved(t, b)] + rest
  }

  function BudgetOfResolved(x: Resolved): Budget {
    x.budget
  }

  /** Exactly the budgets of known teams come through, in order. */
  lemma {:induction false} ResolveKeepsKnown(teams: seq<TeamRow>, leagueId: int, budgets: seq<Budget>)
    ensures Map(Resolve(teams, leagueId, budgets), BudgetOfResolved) == Filter(budgets, Known(teams, leagueId))
    decreases |budgets|
  {
    if budgets != [] {
      ResolveKeepsKnown(teams, leagueId, budgets[1..]);
      var rest := Resolve(teams, leagueId, budgets[1..]);
      if Known(teams, leagueId)(budgets[0]) {
        MapAppend([Resolve(teams, leagueId, budgets)[0]], rest, BudgetOfResolved);
      }
    }
  }

  /** The waiver-budget row key: the team, within the league and season. */
  function BudgetKey(leagueId: int, season: int): BudgetRow -> Option<int> {
    (b: BudgetRow) => if b.leagueId == leagueId && b.seasonYear == season then Some(b.teamId) else None
  }

  function WriteBudget(x: Resolved): BudgetRow -> BudgetRow {
    (b: BudgetRow) => b.(totalBudget := x.budget.totalBudget, currentBudget := x.budget.currentBudget,
      spentBudget := x.budget.spentBudget)
  }

  function NewBudget(leagueId: int, season: int): Resolved -> BudgetRow {
    (x: Resolved) => BudgetRow(leagueId, x.team + 1, season, x.budget.totalBudget, x.budget.currentBudget, x.budget.spentBudget)
  }

  function BudgetSync(leagueId: int, season: int): Sync<BudgetRow, int, Resolved> {
    Sync(BudgetKey(leagueId, season), (x: Resolved) => Some(x.team + 1), WriteBudget, NewBudget(leagueId, season))
  }

  lemma BudgetSyncLawful(leagueId: int, season: int)
    ensures Lawful(BudgetSync(leagueId, season))
  {
  }

  /** `TeamBudgetSummary` (recent transactions are not modelled). */
  datatype BudgetSummary = BudgetSummary(teamId: int, teamName: string, currentBudget: real, spentBudget: real, totalBudget: real)

  function Summary(teams: seq<TeamRow>): Resolved -> BudgetSummary {
    (x: Resolved) =>
      BudgetSummary(x.team + 1, if x.team < |teams| then teams[x.team].name else "",
        x.budget.currentBudget, x.budget.spentBudget, x.budget.totalBudget)
  }

  /** `get_league_waiver_budgets`: 404 for a league the user does not own;
      otherwise ESPN's budgets for the teams the league has stored (others
      skipped), written into this season's budget rows and reported with the
      stored team's id and name. An `ESPNError` is a 400 and commits
      nothing; anything else is a 500. */
  function GetWaiverBudgetsHandler(c: Cipher, db: Db, leagueId: int, userId: int,
                                   espn: Call -> Result<EspnRecords.LeagueView, EspnError>): (r: Result<(Db, seq<BudgetSummary>), int>)
    ensures OwnedLeague(db, leagueId, userId).None? ==> r == Failure(404)
    ensures r.Failure? ==> r.error in {400, 404, 500}
    ensures r.Success? ==> r.value.0.leagues == db.leagues && r.value.0.teams == db.teams
    ensures r.Success? ==> forall k :: 0 <= k < |r.value.1| ==>
      1 <= r.value.1[k].teamId <= |db.teams| && db.teams[r.value.1[k].teamId - 1].leagueId == leagueId
      && r.value.1[k].teamName == db.teams[r.value.1[k].teamId - 1].name
      && r.value.1[k].currentBudget == r.value.1[k].totalBudget - r.value.1[k].spentBudget
  {
    match OwnedLeague(db, leagueId, userId)
    case None => Failure(404)
    case Some(i) =>
      var l := db.leagues[i];
      var dict := SentDict(StoredCookies(c, l.credentials));
      match GetWaiverBudgets(espn(Call(BudgetsView, l.espnLeagueId, None, dict)))
      case Failure(e) => Failure(if CaughtAsEspnError(e) then 400 else 500)
      case Success(budgets) =>
        var xs := Resolve(db.teams, leagueId, budgets);
        Success((db.(budgets := UpsertAll(db.budgets, BudgetSync(leagueId, l.seasonYear), xs)),
                 Map(xs, Summary(db.teams))))
  }

  /** Some row holds the budget of that team for the league and season. */
  ghost predicate HasBudget(rows: seq<BudgetRow>, leagueId: int, season: int, teamId: int, b: Budget) {
    exists i :: 0 <= i < |rows| && rows[i].leagueId == leagueId && rows[i].seasonYear == season
      && rows[i].teamId == teamId && rows[i].totalBudget == b.totalBudget
      && rows[i].currentBudget == b.currentBudget && rows[i].spentBudget == b.spentBudget
  }

  /** After the handler, every reported team has a budget row for the
      league's season holding ESPN's figures (the last ones reported for
      that team), and budget rows of other leagues or seasons are
      untouched. */
  lemma WaiverBudgetsStored(budgets: seq<BudgetRow>, leagueId: int, season: int, xs: seq<Resolved>)
    ensures |UpsertAll(budgets, BudgetSync(leagueId, season), xs)| >= |budgets|
    ensures forall j :: 0 <= j < |xs| ==>
      (LastFor(BudgetSync(leagueId, season), xs, xs[j].team + 1).Some?
       && HasBudget(UpsertAll(budgets, BudgetSync(leagueId, season), xs), leagueId, season, xs[j].team + 1,
                    xs[LastFor(BudgetSync(leagueId, season), xs, xs[j].team + 1).value].budget))
    ensures forall i :: (0 <= i < |budgets| && (budgets[i].leagueId != leagueId || budgets[i].seasonYear != season)
      ==> UpsertAll(budgets, BudgetSync(leagueId, season), xs)[i] == budgets[i])
  {
    BudgetsFramed(budgets, leagueId, season, xs);
    forall j | 0 <= j < |xs|
      ensures LastFor(BudgetSync(leagueId, season), xs, xs[j].team + 1).Some?
      ensures HasBudget(UpsertAll(budgets, BudgetSync(leagueId, season), xs), leagueId, season, xs[j].team + 1,
                        xs[LastFor(BudgetSync(leagueId, season), xs, xs[j].team + 1).value].budget)
    {
      BudgetReflected(budgets, leagueId, season, xs, j);
    }
  }

  lemma BudgetsFramed(budgets: seq<BudgetRow>, leagueId: int, season: int, xs: seq<Resolved>)
    ensures var after := UpsertAll(budgets, BudgetSync(leagueId, season), xs);
      |after| >= |budgets|
      && (forall i :: (0 <= i < |budgets| && (budgets[i].leagueId != leagueId || budgets[i].seasonYear != season)
        ==> after[i] == budgets[i]))
  {
    var s := BudgetSync(leagueId, season);
    UpsertAllFrame(budgets, s, xs);
    forall i | 0 <= i < |budgets| && (budgets[i].leagueId != leagueId || budgets[i].seasonYear != season)
      ensures s.key(budgets[i]).None?
    {
    }
  }

  lemma BudgetReflected(budgets: seq<BudgetRow>, leagueId: int, season: int, xs: seq<Resolved>, j: nat)
    requires j < |xs|
    ensures LastFor(BudgetSync(leagueId, season), xs, xs[j].team + 1).Some?
    ensures HasBudget(UpsertAll(budgets, BudgetSync(leagueId, season), xs), leagueId, season, xs[j].team + 1,
                      xs[LastFor(BudgetSync(leagueId, season), xs, xs[j].team + 1).value].budget)
  {
    var s := BudgetSync(leagueId, season);
    var after := UpsertAll(budgets, s, xs);
    BudgetSyncLawful(leagueId, season);
    assert ItemKeyIs(s, xs[j].team + 1)(xs[j]);
    UpsertAllReflects(budgets, s, xs, xs[j].team + 1);
    var i := Lookup(after, s.key, Some(xs[j].team + 1)).value;
    var d := xs[LastFor(s, xs, xs[j].team + 1).value];
    assert WriteBudget(d)(after[i]) == after[i];
    assert after[i].leagueId == leagueId && after[i].seasonYear == season && after[i].teamId == xs[j].team + 1;
  }
}

=== FILE: middleware.dfy ===
/** Two request middlewares of `core/middleware.py`: the per-client sliding
    window rate limiter and the security headers added to every response.
    The clock is an input; the rest of the request pipeline is not
    modelled. */
module Middleware {
  import opened Wrappers
  import opened Seqs

  // ---------------------------------------------------------------------------
  // Rate limiting
  // ---------------------------------------------------------------------------

  /** The window, in seconds. */
  const Window: real := 60.0

  const DefaultRequestsPerMinute := 60

  /** `RateLimitingMiddleware`: the limit and, per client address, the times
      of its admitted requests. */
  datatype Limiter = Limiter(requestsPerMinute: int, requestTimes: map<string, seq<real>>)

  function NewLimiter(requestsPerMinute: int): Limiter {
    Limiter(requestsPerMinute, map[])
  }

  /** `request.client.host if request.client else "unknown"`. */
  function ClientKey(host: Option<string>): string {
    host.GetOr("unknown")
  }

  function After(cutoff: real): real -> bool {
    (t: real) => t > cutoff
  }

  /** The times recorded for a client; none when it has no entry. */
  function TimesOf(l: Limiter, ip: string): seq<real> {
    if ip in l.requestTimes then l.requestTimes[ip] else []
  }

  /** The first cleaning step: drop every client none of whose times is
      after the cutoff; the others keep their lists as they are. */
  function DropIdle(m: map<string, seq<real>>, cutoff: real): (r: map<string, seq<real>>)
    ensures forall ip :: ip in r <==> ip in m && exists i :: 0 <= i < |m[ip]| && m[ip][i] > cutoff
    ensures forall ip :: ip in r ==> r[ip] == m[ip]
  {
    map ip | ip in m && Any(m[ip], After(cutoff)) :: m[ip]
  }

  datatype Verdict = Admitted | Rejected   // `Rejected` is the raised 429 `HTTPException`

  /** `RateLimitingMiddleware.dispatch` for a request from `ip` at time
      `now`: clean the map, keep the client's times inside the window, and
      admit the request (recording `now`) exactly when fewer than the limit
      remain. */
  function Dispatch(l: Limiter, ip: string, now: real): (r: (Limiter, Verdict))
    ensures r.0.requestsPerMinute == l.requestsPerMinute
    ensures ip in r.0.requestTimes
    ensures r.1 == Admitted <==> |Filter(TimesOf(l, ip), After(now - Window))| < l.requestsPerMinute
    ensures r.1 == Rejected ==> r.0.requestTimes[ip] == Filter(TimesOf(l, ip), After(now - Window))
    ensures r.1 == Admitted ==> r.0.requestTimes[ip] == Filter(TimesOf(l, ip), After(now - Window)) + [now]
  {
    var cutoff := now - Window;
    var kept := DropIdle(l.requestTimes, cutoff);
    var mine := Filter(if ip in kept then kept[ip] else [], After(cutoff));
    CleanedTimes(l, ip, cutoff);
    if |mine| >= l.requestsPerMinute then (Limiter(l.requestsPerMinute, kept[ip := mine]), Rejected)
    else (Limiter(l.requestsPerMinute, kept[ip := mine + [now]]), Admitted)
  }

  /** Both cleaning steps together leave the client exactly its times after
      the cutoff. */
  lemma CleanedTimes(l: Limiter, ip: string, cutoff: real)
    ensures var kept := DropIdle(l.requestTimes, cutoff);
      Filter(if ip in kept then kept[ip] else [], After(cutoff)) == Filter(TimesOf(l, ip), After(cutoff))
  {
    var kept := DropIdle(l.requestTimes, cutoff);
    if ip in l.requestTimes && ip !in kept {
      NoneSurvive(l.requestTimes[ip], After(cutoff));
    }
  }

  /** After a request every time the client has is inside the window, and
      any other client either keeps its list unchanged or, when all of its
      times are outside the window, loses its entry. */
  lemma DispatchCleans(l: Limiter, ip: string, now: real)
    ensures var after := Dispatch(l, ip, now).0;
      (forall i :: 0 <= i < |after.requestTimes[ip]| ==> after.requestTimes[ip][i] > now - Window)
      && (forall other :: other != ip && other in after.requestTimes ==>
            other in l.requestTimes && after.requestTimes[other] == l.requestTimes[other])
      && (forall other :: (other != ip && other in l.requestTimes ==>
            (other in after.requestTimes <==> exists i :: 0 <= i < |l.requestTimes[other]| && l.requestTimes[other][i] > now - Window)))
  {
    var mine := Filter(TimesOf(l, ip), After(now - Window));
    assert forall i :: 0 <= i < |mine| ==> After(now - Window)(mine[i]);
  }

  /** No client holds more times than the limit. */
  ghost predicate Bounded(l: Limiter) {
    forall ip :: ip in l.requestTimes ==> |l.requestTimes[ip]| <= l.requestsPerMinute
  }

  /** The limiter's invariant: starting bounded (a new limiter is), it stays
      bounded whatever requests arrive. */
  lemma DispatchKeepsBounded(l: Limiter, ip: string, now: real)
    requires Bounded(l) && l.requestsPerMinute >= 0
    ensures Bounded(Dispatch(l, ip, now).0)
  {
    var after := Dispatch(l, ip, now).0;
    forall other | other in after.requestTimes
      ensures |after.requestTimes[other]| <= after.requestsPerMinute
    {
      if other == ip {
        var mine := Filter(TimesOf(l, ip), After(now - Window));
        assert |mine| <= |TimesOf(l, ip)|;
      }
    }
  }

  /** A run of requests from one client: the limiter after them and the
      times of those admitted, in order. */
  function Burst(l: Limiter, ip: string, times: seq<real>): (r: (Limiter, seq<real>))
    decreases |times|
  {
    if times == [] then (l, [])
    else
      var (before, admitted) := Burst(l, ip, times[..|times| - 1]);
      var now := times[|times| - 1];
      var (after, v) := Dispatch(before, ip, now);
      (after, if v == Admitted then admitted + [now] else admitted)
  }

  /** Requests that all fall within one window: each one's cutoff is before
      every earlier one. */
  predicate WithinWindow(times: seq<real>) {
    forall i, j :: 0 <= i < j < |times| ==> times[i] > times[j] - Window
  }

  /** While the requests stay within one window, the client's list ends
      with every time admitted so far. */
  lemma {:induction false} BurstKeepsAdmitted(l: Limiter, ip: string, times: seq<real>) returns (older: seq<real>)
    requires WithinWindow(times)
    ensures TimesOf(Burst(l, ip, times).0, ip) == older + Burst(l, ip, times).1
    ensures forall k :: 0 <= k < |Burst(l, ip, times).1| ==> Burst(l, ip, times).1[k] in times
    decreases |times|
  {
    if times == [] {
      older := TimesOf(l, ip);
    } else {
      var pre := times[..|times| - 1];
      var now := times[|times| - 1];
      assert WithinWindow(pre);
      var prior := BurstKeepsAdmitted(l, ip, pre);
      var (before, admitted) := Burst(l, ip, pre);
      InWindowSurvive(times, admitted, now);
      StepKeepsTail(before, admitted, prior, ip, now);
      older := Filter(prior, After(now - Window));
    }
  }

  /** One request of such a run: the earlier admitted times survive its
      cleaning, and it is admitted only while fewer than the limit were. */
  lemma StepKeepsTail(before: Limiter, admitted: seq<real>, prior: seq<real>, ip: string, now: real)
    requires TimesOf(before, ip) == prior + admitted
    requires Filter(admitted, After(now - Window)) == admitted
    ensures var (after, v) := Dispatch(before, ip, now);
      TimesOf(after, ip) == Filter(prior, After(now - Window)) + (if v == Admitted then admitted + [now] else admitted)
      && (v == Admitted ==> |admitted| < before.requestsPerMinute)
  {
    FilterAppend(prior, admitted, After(now - Window));
  }

  /** Times admitted earlier in a run within one window are all still
      inside the window of its last request. */
  lemma InWindowSurvive(times: seq<real>, admitted: seq<real>, now: real)
    requires WithinWindow(times) && times != [] && now == times[|times| - 1]
    requires forall k :: 0 <= k < |admitted| ==> admitted[k] in times[..|times| - 1]
    ensures Filter(admitted, After(now - Window)) == admitted
  {
    var pre := times[..|times| - 1];
    forall k | 0 <= k < |admitted|
      ensures After(now - Window)(admitted[k])
    {
      var i := IndexOf(pre, admitted[k]);
      assert times[i] == pre[i];
    }
    KeepAll(admitted, After(now - Window));
  }

  /** A position of a member of a sequence. */
  lemma IndexOf(s: seq<real>, x: real) returns (i: nat)
    requires x in s
    ensures i < |s| && s[i] == x
  {
    i :| 0 <= i < |s| && s[i] == x;
  }

  lemma {:induction false} KeepAll(s: seq<real>, p: real -> bool)
    requires forall k :: 0 <= k < |s| ==> p(s[k])
    ensures Filter(s, p) == s
    decreases |s|
  {
    if s != [] {
      KeepAll(s[1..], p);
      assert s == [s[0]] + s[1..];
    }
  }

  /** The sliding-window promise: of requests from one client that all fall
      within a window, at most the limit are admitted. */
  lemma {:induction false} BurstAdmitsAtMostLimit(l: Limiter, ip: string, times: seq<real>)
    requires WithinWindow(times)
    ensures |Burst(l, ip, times).1| <= l.requestsPerMinute || Burst(l, ip, times).1 == []
    decreases |times|
  {
    if times != [] {
      var pre := times[..|times| - 1];
      var now := times[|times| - 1];
      assert WithinWindow(pre);
      BurstAdmitsAtMostLimit(l, ip, pre);
      var prior := BurstKeepsAdmitted(l, ip, pre);
      BurstKeepsLimit(l, ip, pre);
      var (before, admitted) := Burst(l, ip, pre);
      InWindowSurvive(times, admitted, now);
      StepKeepsTail(before, admitted, prior, ip, now);
    }
  }

  lemma {:induction false} BurstKeepsLimit(l: Limiter, ip: string, times: seq<real>)
    ensures Burst(l, ip, times).0.requestsPerMinute == l.requestsPerMinute
    decreases |times|
  {
    if times != [] {
      BurstKeepsLimit(l, ip, times[..|times| - 1]);
    }
  }

  // ---------------------------------------------------------------------------
  // Security headers
  // ---------------------------------------------------------------------------

  const HstsValue := "max-age=31536000; includeSubDomains"

  /** The four headers set on every response. */
  const Always: map<string, string> := map[
    "X-Content-Type-Options" := "nosniff",
    "X-Frame-Options" := "DENY",
    "X-XSS-Protection" := "1; mode=block",
    "Referrer-Policy" := "strict-origin-when-cross-origin"]

  /** `SecurityHeadersMiddleware.dispatch` on the response's headers. */
  function SecurityHeaders(headers: map<string, string>, debug: bool): (r: map<string, string>)
    ensures forall h :: h in Always ==> h in r && r[h] == Always[h]
    ensures !debug ==> "Strict-Transport-Security" in r && r["Strict-Transport-Security"] == HstsValue
    ensures forall h :: h in headers && h !in Always && (debug || h != "Strict-Transport-Security") ==> h in r && r[h] == headers[h]
    ensures forall h :: h in r ==> h in headers || h in Always || (!debug && h == "Strict-Transport-Security")
  {
    var set4 := headers + Always;
    if !debug then set4["Strict-Transport-Security" := HstsValue] else set4
  }

  /** Adding the headers twice is the same as adding them once. */
  lemma SecurityHeadersIdempotent(headers: map<string, string>, debug: bool)
    ensures SecurityHeaders(SecurityHeaders(headers, debug), debug) == SecurityHeaders(headers, debug)
  {
  }
}

=== FILE: players.dfy ===
/** The player endpoints of `api/players.py`: both list the free agents
    of an owned ESPN league (`players_wl` view); the search endpoint then
    keeps the players whose name contains the search term. */
module Players {
  import opened Wrappers
  import opened Domain
  import opened Seqs
  import opened Text
  import opened EspnFetch
  import EspnRecords
  import opened EspnService
  import opened Credentials
  import opened Store
  import opened Leagues

  /** `PlayerSearchRequest`. */
  datatype SearchRequest = SearchRequest(
    leagueId: int, week: Option<int>, position: Option<string>,
    searchTerm: Option<string>, availableOnly: bool)

  datatype SearchResponse = SearchResponse(players: seq<AvailablePlayer>, totalCount: nat)

  /** The response of the available-players endpoint. */
  datatype AvailableResponse = AvailableResponse(
    players: seq<AvailablePlayer>, totalCount: nat, week: Option<int>, positionFilter: Option<string>)

  /** The free agents of the stored league, as the service returns them. */
  function FetchAvailable(c: Cipher, l: LeagueRow, week: Option<int>, position: Option<string>,
                          espn: Call -> Result<EspnRecords.LeagueView, EspnError>): Result<seq<AvailablePlayer>, EspnError>
  {
    var dict := SentDict(LeagueCookies(c, l.credentials));
    GetAvailablePlayers(espn(Call(PlayersView, l.espnLeagueId, Some(WeekOr(week, 1)), dict)), week, position)
  }

  /** Both endpoints answer an `ESPNError` with 503 and anything else with
      500. */
  function ErrorStatus(e: EspnError): (status: int)
    ensures status == 503 <==> CaughtAsEspnError(e)
    ensures status in {500, 503}
  {
    if CaughtAsEspnError(e) then 503 else 500
  }

  function NameContains(term: string): AvailablePlayer -> bool {
    (p: AvailablePlayer) => Contains(Lower(term), Lower(p.fullName))
  }

  /** The search filter: a falsy term keeps the list as it is. */
  function FilterByTerm(players: seq<AvailablePlayer>, term: Option<string>): (r: seq<AvailablePlayer>)
    ensures !Given(term) ==> r == players
    ensures |r| <= |players|
  {
    if Given(term) then Filter(players, NameContains(term.value)) else players
  }

  /** With a term, exactly the players whose lower-cased name contains the
      lower-cased term are kept, in the service's order. */
  lemma FilterByTermExactly(players: seq<AvailablePlayer>, term: string)
    requires term != ""
    ensures forall p :: (p in FilterByTerm(players, Some(term)) <==>
      p in players && exists i :: OccursAt(Lower(term), Lower(p.fullName), i))
    ensures IsSubsequence(FilterByTerm(players, Some(term)), players)
  {
    FilterMembers(players, NameContains(term));
    FilterIsSubsequence(players, NameContains(term));
    forall p | p in players
      ensures Contains(Lower(term), Lower(p.fullName)) <==> exists i :: OccursAt(Lower(term), Lower(p.fullName), i)
    {
      ContainsIffOccurs(Lower(term), Lower(p.fullName));
    }
  }

  /** `search_players`. */
  function SearchPlayers(c: Cipher, db: Db, userId: int, req: SearchRequest,
                         espn: Call -> Result<EspnRecords.LeagueView, EspnError>): (r: Result<SearchResponse, int>)
    ensures OwnedLeague(db, req.leagueId, userId).None? <==> r == Failure(404)
    ensures r.Failure? ==> r.error in {404, 500, 503}
    ensures r.Success? ==> r.value.totalCount == |r.value.players|
    ensures r.Success? ==> (FetchAvailable(c, db.leagues[req.leagueId - 1], req.week, req.position, espn).Success?
      && r.value.players == FilterByTerm(FetchAvailable(c, db.leagues[req.leagueId - 1], req.week, req.position, espn).value, req.searchTerm))
  {
    match OwnedLeague(db, req.leagueId, userId)
    case None => Failure(404)
    case Some(i) =>
      var l := db.leagues[i];
      // Both branches of `available_only` make the same request.
      var fetched :=
        if req.availableOnly then FetchAvailable(c, l, req.week, req.position, espn)
        else FetchAvailable(c, l, req.week, req.position, espn);
      match fetched
      case Failure(e) => Failure(ErrorStatus(e))
      case Success(players) =>
        var kept := FilterByTerm(players, req.searchTerm);
        Success(SearchResponse(kept, |kept|))
  }

  /** `available_only` does not change the answer. */
  lemma AvailableOnlyIgnored(c: Cipher, db: Db, userId: int, req: SearchRequest,
                             espn: Call -> Result<EspnRecords.LeagueView, EspnError>)
    ensures SearchPlayers(c, db, userId, req, espn) == SearchPlayers(c, db, userId, req.(availableOnly := !req.availableOnly), espn)
  {
  }

  /** The `/league/{id}/available` endpoint. */
  function GetAvailable(c: Cipher, db: Db, userId: int, leagueId: int, week: Option<int>, position: Option<string>,
                        espn: Call -> Result<EspnRecords.LeagueView, EspnError>): (r: Result<AvailableResponse, int>)
    ensures OwnedLeague(db, leagueId, userId).None? <==> r == Failure(404)
    ensures r.Failure? ==> r.error in {404, 500, 503}
    ensures r.Success? ==> r.value.totalCount == |r.value.players| && r.value.week == week && r.value.positionFilter == position
  {
    match OwnedLeague(db, leagueId, userId)
    case None => Failure(404)
    case Some(i) =>
      match FetchAvailable(c, db.leagues[i], week, position, espn)
      case Failure(e) => Failure(ErrorStatus(e))
      case Success(players) => Success(AvailableResponse(players, |players|, week, position))
  }

  /** The available-players endpoint answers as a search without a term:
      the same status, and on success the same players. */
  lemma AvailableIsSearchWithoutTerm(c: Cipher, db: Db, userId: int, leagueId: int, week: Option<int>,
                                     position: Option<string>, term: Option<string>, availableOnly: bool,
                                     espn: Call -> Result<EspnRecords.LeagueView, EspnError>)
    requires !Given(term)
    ensures var a := GetAvailable(c, db, userId, leagueId, week, position, espn);
      var s := SearchPlayers(c, db, userId, SearchRequest(leagueId, week, position, term, availableOnly), espn);
      a.Success? == s.Success? && (a.Failure? ==> a.error == s.error)
      && (a.Success? ==> a.value.players == s.value.players && a.value.totalCount == s.value.totalCount)
  {
  }
}

=== FILE: seqs.dfy ===
/** List operations the backend performs with comprehensions, `next(...)`
    and `list.sort(key=..., reverse=True)`. */
module Seqs {
  import opened Wrappers

  /** `[x for x in s if p(x)]`. */
  function Filter<T>(s: seq<T>, p: T -> bool): (r: seq<T>)
    ensures |r| <= |s|
    ensures forall i :: 0 <= i < |r| ==> p(r[i])
  {
    if s == [] then [] else (if p(s[0]) then [s[0]] else []) + Filter(s[1..], p)
  }

  /** Every element that passes the test survives the filter, and only those. */
  lemma {:induction false} FilterMembers<T>(s: seq<T>, p: T -> bool)
    ensures forall x :: x in Filter(s, p) <==> x in s && p(x)
    decreases |s|
  {
    if s != [] {
      FilterMembers(s[1..], p);
      assert s == [s[0]] + s[1..];
    }
  }

  lemma {:induction false} FilterAppend<T>(a: seq<T>, b: seq<T>, p: T -> bool)
    ensures Filter(a + b, p) == Filter(a, p) + Filter(b, p)
    decreases |a|
  {
    if a == [] {
      assert a + b == b;
    } else {
      FilterAppend(a[1..], b, p);
      assert (a + b)[1..] == a[1..] + b;
      assert (a + b)[0] == a[0];
    }
  }

  /** `a` is `b` with some elements left out, order kept. */
  ghost predicate IsSubsequence<T>(a: seq<T>, b: seq<T>)
    decreases |b|
  {
    a == [] || (b != [] && ((a[0] == b[0] && IsSubsequence(a[1..], b[1..])) || IsSubsequence(a, b[1..])))
  }

  /** Filtering keeps the surviving elements in their original order. */
  lemma {:induction false} FilterIsSubsequence<T>(s: seq<T>, p: T -> bool)
    ensures IsSubsequence(Filter(s, p), s)
    decreases |s|
  {
    if s != [] {
      FilterIsSubsequence(s[1..], p);
      var rest := Filter(s[1..], p);
      if p(s[0]) {
        assert Filter(s, p) == [s[0]] + rest;
        assert ([s[0]] + rest)[1..] == rest;
      } else {
        assert Filter(s, p) == rest;
      }
    }
  }

  /** `[f(x) for x in s]`. */
  function Map<T, U>(s: seq<T>, f: T -> U): (r: seq<U>)
    ensures |r| == |s|
    ensures forall i :: 0 <= i < |s| ==> r[i] == f(s[i])
  {
    seq(|s|, i requires 0 <= i < |s| => f(s[i]))
  }

  lemma MapAppend<T, U>(a: seq<T>, b: seq<T>, f: T -> U)
    ensures Map(a + b, f) == Map(a, f) + Map(b, f)
  {
  }

  /** `sum(f(x) for x in s)`, accumulated left to right from 0. */
  function SumOf<T>(s: seq<T>, f: T -> real): real {
    if s == [] then 0.0 else f(s[0]) + SumOf(s[1..], f)
  }

  lemma {:induction false} SumAppend<T>(a: seq<T>, b: seq<T>, f: T -> real)
    ensures SumOf(a + b, f) == SumOf(a, f) + SumOf(b, f)
    decreases |a|
  {
    if a == [] {
      assert a + b == b;
    } else {
      SumAppend(a[1..], b, f);
      assert (a + b)[1..] == a[1..] + b;
      assert (a + b)[0] == a[0];
    }
  }

  /** Index of the first element satisfying `p` (Python's
      `next((x for x in s if p(x)), None)`). */
  function FindFirst<T>(s: seq<T>, p: T -> bool): (r: Option<nat>)
    ensures r.Some? ==> r.value < |s| && p(s[r.value])
    ensures r.Some? ==> forall j :: 0 <= j < r.value ==> !p(s[j])
    ensures r.None? <==> forall j :: 0 <= j < |s| ==> !p(s[j])
  {
    if s == [] then None
    else if p(s[0]) then Some(0)
    else match FindFirst(s[1..], p)
      case None => None
      case Some(i) => Some(i + 1)
  }

  /** Index of the last element satisfying `p`: the survivor of a loop that
      overwrites its answer at every match. */
  function FindLast<T>(s: seq<T>, p: T -> bool): (r: Option<nat>)
    ensures r.Some? ==> r.value < |s| && p(s[r.value])
    ensures r.Some? ==> forall j :: r.value < j < |s| ==> !p(s[j])
    ensures r.None? <==> forall j :: 0 <= j < |s| ==> !p(s[j])
  {
    if s == [] then None
    else if p(s[|s| - 1]) then Some(|s| - 1)
    else FindLast(s[..|s| - 1], p)
  }

  /** Appending an element moves no match that was already there. */
  lemma {:induction false} FindFirstAppend<T>(s: seq<T>, x: T, p: T -> bool)
    ensures FindFirst(s + [x], p)
         == if FindFirst(s, p).Some? then FindFirst(s, p) else if p(x) then Some(|s|) else None
    decreases |s|
  {
    var t := s + [x];
    if s == [] {
      assert t == [x] && t[1..] == [];
    } else {
      assert t[0] == s[0] && t[1..] == s[1..] + [x];
      FindFirstAppend(s[1..], x, p);
    }
  }

  /** Filtering a mapped list is mapping the filtered list, for the test
      read through the map. */
  lemma {:induction false} FilterMap<T, U>(s: seq<T>, f: T -> U, p: U -> bool, q: T -> bool)
    requires forall x :: q(x) == p(f(x))
    ensures Filter(Map(s, f), p) == Map(Filter(s, q), f)
    decreases |s|
  {
    if s != [] {
      FilterMap(s[1..], f, p, q);
      assert Map(s, f)[1..] == Map(s[1..], f);
      var head := if q(s[0]) then [s[0]] else [];
      assert Filter(s, q) == head + Filter(s[1..], q);
      MapAppend(head, Filter(s[1..], q), f);
    }
  }

  /** Nothing survives a test that nothing passes. */
  lemma {:induction false} NoneSurvive<T>(s: seq<T>, p: T -> bool)
    requires forall j :: 0 <= j < |s| ==> !p(s[j])
    ensures Filter(s, p) == []
    decreases |s|
  {
    if s != [] {
      NoneSurvive(s[1..], p);
    }
  }

  /** Python's `any(p(x) for x in s)`. */
  function Any<T>(s: seq<T>, p: T -> bool): (b: bool)
    ensures b <==> exists i :: 0 <= i < |s| && p(s[i])
  {
    FindFirst(s, p).Some?
  }

  // ---------------------------------------------------------------------------
  // Stable descending sort (`s.sort(key=key, reverse=True)`)
  // ---------------------------------------------------------------------------

  predicate SortedDesc<T>(s: seq<T>, key: T -> real) {
    forall i, j :: 0 <= i < j < |s| ==> key(s[i]) >= key(s[j])
  }

  /** The test "has key `k`". */
  function KeyIs<T>(key: T -> real, k: real): T -> bool {
    x => key(x) == k
  }

  /** The elements of `s` whose key is `k`, in order. */
  function WithKey<T>(s: seq<T>, key: T -> real, k: real): seq<T> {
    Filter(s, KeyIs(key, k))
  }

  /** Insert `x` before the first element whose key does not exceed its own:
      `x` precedes every element of equal key already in `t`. */
  function Insert<T>(x: T, t: seq<T>, key: T -> real): seq<T> {
    if t == [] || key(x) >= key(t[0]) then [x] + t else [t[0]] + Insert(x, t[1..], key)
  }

  function SortDesc<T>(s: seq<T>, key: T -> real): seq<T> {
    if s == [] then [] else Insert(s[0], SortDesc(s[1..], key), key)
  }

  lemma {:induction false} InsertPermutes<T>(x: T, t: seq<T>, key: T -> real)
    ensures multiset(Insert(x, t, key)) == multiset([x] + t)
    ensures |Insert(x, t, key)| == |t| + 1
    decreases |t|
  {
    if !(t == [] || key(x) >= key(t[0])) {
      InsertPermutes(x, t[1..], key);
      assert t == [t[0]] + t[1..];
    }
  }

  /** Insertion keeps an upper bound on the keys. */
  lemma {:induction false} InsertBounded<T>(x: T, t: seq<T>, key: T -> real, b: real)
    requires key(x) <= b
    requires forall j :: 0 <= j < |t| ==> key(t[j]) <= b
    ensures forall j :: 0 <= j < |Insert(x, t, key)| ==> key(Insert(x, t, key)[j]) <= b
    decreases |t|
  {
    if !(t == [] || key(x) >= key(t[0])) {
      InsertBounded(x, t[1..], key, b);
    }
  }

  lemma {:induction false} InsertSorted<T>(x: T, t: seq<T>, key: T -> real)
    requires SortedDesc(t, key)
    ensures SortedDesc(Insert(x, t, key), key)
    decreases |t|
  {
    if !(t == [] || key(x) >= key(t[0])) {
      InsertSorted(x, t[1..], key);
      InsertBounded(x, t[1..], key, key(t[0]));
    }
  }

  lemma {:induction false} InsertWithKey<T>(x: T, t: seq<T>, key: T -> real, k: real)
    ensures WithKey(Insert(x, t, key), key, k) == WithKey([x] + t, key, k)
    decreases |t|
  {
    var p := KeyIs(key, k);
    if !(t == [] || key(x) >= key(t[0])) {
      InsertWithKey(x, t[1..], key, k);
      var rest := Insert(x, t[1..], key);
      assert Insert(x, t, key) == [t[0]] + rest;
      FilterAppend([t[0]], rest, p);
      FilterAppend([x], t[1..], p);
      assert [x] + t == [x] + ([t[0]] + t[1..]);
      FilterAppend([x], [t[0]] + t[1..], p);
      FilterAppend([t[0]], t[1..], p);
      // x and t[0] have different keys, so at most one of them has key k
      assert Filter([x], p) == [] || Filter([t[0]], p) == [];
    }
  }

  /** The sort orders by key, non-increasing; it is a permutation; and among
      elements of equal key it keeps the input order (Python's sort is stable,
      also with `reverse=True`). */
  lemma {:induction false} SortDescCorrect<T>(s: seq<T>, key: T -> real)
    ensures SortedDesc(SortDesc(s, key), key)
    ensures multiset(SortDesc(s, key)) == multiset(s)
    ensures forall k :: WithKey(SortDesc(s, key), key, k) == WithKey(s, key, k)
    decreases |s|
  {
    if s != [] {
      SortDescCorrect(s[1..], key);
      var rest := SortDesc(s[1..], key);
      assert SortDesc(s, key) == Insert(s[0], rest, key);
      InsertSorted(s[0], rest, key);
      InsertPermutes(s[0], rest, key);
      assert s == [s[0]] + s[1..];
      forall k
        ensures WithKey(SortDesc(s, key), key, k) == WithKey(s, key, k)
      {
        var p := KeyIs(key, k);
        calc {
          WithKey(SortDesc(s, key), key, k);
          { InsertWithKey(s[0], rest, key, k); }
          Filter([s[0]] + rest, p);
          { FilterAppend([s[0]], rest, p); }
          Filter([s[0]], p) + WithKey(rest, key, k);
          Filter([s[0]], p) + Filter(s[1..], p);
          { FilterAppend([s[0]], s[1..], p); }
          WithKey(s, key, k);
        }
      }
    }
  }
}

=== FILE: sleeper_fetch.dfy ===
/** The retry policy of the Sleeper client's `_make_request`. It differs from
    the ESPN client's: a 404 fails at once, a 429 is retried without any sleep,
    and a transient failure on the last attempt raises instead of falling out
    of the loop. */
module SleeperFetch {
  import opened Wrappers

  /** One attempt. A response's body is `None` when its text is not JSON. */
  datatype Attempt<T> = Response(status: int, body: Option<T>) | Timeout | RequestError

  /** The `SleeperError` family. `NotFound` is `SleeperNotFoundError`;
      `TimedOut`, `ConnectionFailed` and `MaxRetriesExceeded` are
      `SleeperConnectionError`s; the other two are plain `SleeperError`s. */
  datatype SleeperError =
    | NotFound
    | RateLimitExceeded
    | ApiError(status: int)
    | TimedOut
    | ConnectionFailed
    | MaxRetriesExceeded

  /** What the request can raise: a Sleeper error, or the JSON decoding error
      of a 200 whose text is not JSON, which is not a Sleeper error at all. */
  datatype Raised = Sleeper(error: SleeperError) | DecodeError

  datatype Fetch<T> = Fetch(result: Result<T, Raised>, requests: nat)

  function Run<T>(outcomes: seq<Attempt<T>>, maxRetries: int, attempt: nat): (f: Fetch<T>)
    requires |outcomes| >= maxRetries
    ensures attempt < maxRetries ==> attempt < f.requests <= maxRetries
    ensures attempt >= maxRetries ==> f.requests == attempt
    decreases maxRetries - attempt
  {
    if attempt >= maxRetries then Fetch(Failure(Sleeper(MaxRetriesExceeded)), attempt)
    else
      var retry := attempt < maxRetries - 1;
      match outcomes[attempt]
      case Response(status, body) =>
        if status == 200 then
          Fetch(if body.Some? then Success(body.value) else Failure(DecodeError), attempt + 1)
        else if status == 404 then Fetch(Failure(Sleeper(NotFound)), attempt + 1)
        else if status == 429 then
          if retry then Run(outcomes, maxRetries, attempt + 1)
          else Fetch(Failure(Sleeper(RateLimitExceeded)), attempt + 1)
        else Fetch(Failure(Sleeper(ApiError(status))), attempt + 1)
      case Timeout =>
        if retry then Run(outcomes, maxRetries, attempt + 1)
        else Fetch(Failure(Sleeper(TimedOut)), attempt + 1)
      case RequestError =>
        if retry then Run(outcomes, maxRetries, attempt + 1)
        else Fetch(Failure(Sleeper(ConnectionFailed)), attempt + 1)
  }

  /** `_make_request(endpoint, max_retries)`: at most `max_retries` requests. */
  function MakeRequest<T>(outcomes: seq<Attempt<T>>, maxRetries: int): (f: Fetch<T>)
    requires |outcomes| >= maxRetries
    ensures maxRetries <= 0 ==> f.requests == 0
    ensures maxRetries > 0 ==> 1 <= f.requests <= maxRetries
  {
    Run(outcomes, maxRetries, 0)
  }

  // ---------------------------------------------------------------------------
  // Reference description of the loop
  // ---------------------------------------------------------------------------

  /** A transient failure: retried while attempts remain. */
  predicate Transient<T>(a: Attempt<T>) {
    a.Timeout? || a.RequestError? || (a.Response? && a.status == 429)
  }

  /** What an attempt raises or returns when it ends the loop. */
  function Verdict<T>(a: Attempt<T>): Result<T, Raised> {
    match a
    case Timeout => Failure(Sleeper(TimedOut))
    case RequestError => Failure(Sleeper(ConnectionFailed))
    case Response(status, body) =>
      if status == 200 then (if body.Some? then Success(body.value) else Failure(DecodeError))
      else if status == 404 then Failure(Sleeper(NotFound))
      else if status == 429 then Failure(Sleeper(RateLimitExceeded))
      else Failure(Sleeper(ApiError(status)))
  }

  predicate AllTransient<T>(outcomes: seq<Attempt<T>>, lo: nat, hi: nat)
    requires hi <= |outcomes|
  {
    forall i :: lo <= i < hi ==> Transient(outcomes[i])
  }

  /** The loop ends at the first non-transient attempt, or at the last attempt,
      whichever comes first, with that attempt's verdict. */
  lemma {:induction false} RunEndsAt<T>(outcomes: seq<Attempt<T>>, maxRetries: int, attempt: nat, j: nat)
    requires |outcomes| >= maxRetries
    requires attempt <= j < maxRetries
    requires !Transient(outcomes[j]) || j == maxRetries - 1
    requires AllTransient(outcomes, attempt, j)
    ensures Run(outcomes, maxRetries, attempt) == Fetch(Verdict(outcomes[j]), j + 1)
    decreases j - attempt
  {
    if attempt < j {
      assert Transient(outcomes[attempt]);
      RunEndsAt(outcomes, maxRetries, attempt + 1, j);
    }
  }

  /** With at least one attempt allowed, "Max retries exceeded" is never
      raised: the last attempt always raises or returns by itself. */
  lemma MaxRetriesUnreachable<T>(outcomes: seq<Attempt<T>>, maxRetries: int)
    requires |outcomes| >= maxRetries >= 1
    ensures MakeRequest(outcomes, maxRetries).result != Failure(Sleeper(MaxRetriesExceeded))
  {
    var j := 0;
    while j < maxRetries - 1 && Transient(outcomes[j])
      invariant 0 <= j <= maxRetries - 1
      invariant AllTransient(outcomes, 0, j)
      decreases maxRetries - j
    {
      j := j + 1;
    }
    RunEndsAt(outcomes, maxRetries, 0, j);
  }

  /** A 404, or any status other than 200 and 429, fails on the spot. */
  lemma ErrorStatusIsImmediate<T>(outcomes: seq<Attempt<T>>, maxRetries: int, status: int, body: Option<T>)
    requires |outcomes| >= maxRetries >= 1
    requires outcomes[0] == Response(status, body) && status != 200 && status != 429
    ensures MakeRequest(outcomes, maxRetries).requests == 1
    ensures MakeRequest(outcomes, maxRetries).result
         == Failure(Sleeper(if status == 404 then NotFound else ApiError(status)))
  {
  }

  /** Three 429s with three attempts allowed: three requests, then the
      rate-limit error (not "Max retries exceeded"). */
  lemma ThreeRateLimits<T>(b: Option<T>)
    ensures MakeRequest([Response(429, b), Response(429, b), Response(429, b)], 3)
         == Fetch(Failure(Sleeper(RateLimitExceeded)), 3)
  {
    RunEndsAt([Response(429, b), Response(429, b), Response(429, b)], 3, 0, 2);
  }
}

=== FILE: sleeper_leagues.dfy ===
/** `connect_sleeper_league` (`api/sleeper_leagues.py`): the user and league
    gates, the membership check, the scoring type, and the league and team
    upserts. Each Sleeper fetch the handler makes is an input, in the order
    the handler makes them. */
module SleeperLeagues {
  import opened Wrappers
  import opened Domain
  import opened Seqs
  import opened Text
  import opened SleeperFetch
  import SS = SleeperService
  import EspnRecords
  import EspnStats
  import opened Credentials
  import opened Tables
  import opened Store

  datatype ConnectRequest = ConnectRequest(leagueId: string, sleeperUserId: string)

  /** The fields of `league/{id}` the handler reads. */
  datatype League = League(
    name: Option<string>,
    totalRosters: Option<int>,
    season: Option<string>,
    leg: Option<int>,            // settings.leg
    rec: Option<real>)           // scoring_settings.rec

  // ---------------------------------------------------------------------------
  // Error mapping
  // ---------------------------------------------------------------------------

  /** The status for a failed `get_user` or `get_league`: their
      `SleeperNotFoundError` is turned into a 404 on the spot. */
  function GateStatus(e: Raised): (status: int)
    ensures status == 404 <==> e == Raised.Sleeper(NotFound)
    ensures status == 500 <==> e.DecodeError?
  {
    match e
    case Sleeper(NotFound) => 404
    case Sleeper(_) => 503
    case DecodeError => 500
  }

  /** The status for any other failed fetch: a Sleeper error of any kind is a
      503; a body that is not JSON falls to the generic clause. */
  function FetchStatus(e: Raised): (status: int)
    ensures status == 503 <==> e.Sleeper?
    ensures status == 500 <==> e.DecodeError?
  {
    if e.Sleeper? then 503 else 500
  }

  // ---------------------------------------------------------------------------
  // Scoring type and league fields
  // ---------------------------------------------------------------------------

  /** `scoring_settings.get("rec", 0)`: 1 point per reception is PPR, half a
      point is half PPR, anything else (and no setting) is standard. */
  function SleeperScoring(rec: Option<real>): (t: ScoringType)
    ensures t == Ppr <==> rec == Some(1.0)
    ensures t == HalfPpr <==> rec == Some(0.5)
    ensures rec.None? ==> t == Standard
  {
    var ppr := rec.GetOr(0.0);
    if ppr == 1.0 then Ppr else if ppr == 0.5 then HalfPpr else Standard
  }

  /** Sleeper's rule agrees with ESPN's on a league whose only reception
      setting is the same value. */
  lemma SleeperScoringAgreesWithEspn(v: real)
    ensures SleeperScoring(Some(v)) == EspnStats.DetermineScoringType([EspnRecords.ScoringItem(Some(53), Some(v))])
  {
    var items := [EspnRecords.ScoringItem(Some(53), Some(v))];
    assert items[1..] == [];
  }

  /** What the handler writes into the league row. */
  datatype Fields = Fields(name: string, size: int, season: int, currentWeek: int, scoringType: ScoringType)

  /** `league_data["name"]`, `["total_rosters"]` and `int(["season"])`; a
      missing key or a season that is not a number raises. The week is
      `settings.leg`, 1 when absent. */
  function ParseFields(l: League): (r: Option<Fields>)
    ensures r.Some? <==> l.name.Some? && l.totalRosters.Some? && l.season.Some? && ParseInt(l.season.value).Some?
    ensures r.Some? ==> (r.value.name == l.name.value && r.value.size == l.totalRosters.value
      && Some(r.value.season) == ParseInt(l.season.value)
      && r.value.currentWeek == l.leg.GetOr(1) && r.value.scoringType == SleeperScoring(l.rec))
  {
    if l.name.Some? && l.totalRosters.Some? && l.season.Some? && ParseInt(l.season.value).Some?
    then Some(Fields(l.name.value, l.totalRosters.value, ParseInt(l.season.value).value,
      l.leg.GetOr(1), SleeperScoring(l.rec)))
    else None
  }

  // ---------------------------------------------------------------------------
  // The league upsert
  // ---------------------------------------------------------------------------

  datatype LeagueUpdate = LeagueUpdate(fields: Fields, sleeperUserId: string, owner: int)

  function SleeperLeagueKey(l: LeagueRow): Option<string> {
    l.sleeperLeagueId
  }

  /** The update branch: refresh the fields and turn the row into an active
      Sleeper league of this user. */
  function WriteLeague(u: LeagueUpdate): LeagueRow -> LeagueRow {
    (l: LeagueRow) => l.(name := u.fields.name, size := u.fields.size, seasonYear := u.fields.season,
      currentWeek := u.fields.currentWeek, scoringType := u.fields.scoringType,
      sleeperUserId := Some(u.sleeperUserId), ownerUserId := Some(u.owner), isActive := true,
      platform := Platform.Sleeper)
  }

  function NewLeague(sleeperLeagueId: string): LeagueUpdate -> LeagueRow {
    (u: LeagueUpdate) => LeagueRow(Platform.Sleeper, None, Some(sleeperLeagueId), Some(u.sleeperUserId),
      u.fields.name, u.fields.season, u.fields.size, u.fields.currentWeek, u.fields.scoringType,
      NoCredentials, Some(u.owner), true, None)
  }

  function LeagueSync(sleeperLeagueId: string): Sync<LeagueRow, string, LeagueUpdate> {
    Sync(SleeperLeagueKey, (u: LeagueUpdate) => Some(sleeperLeagueId), WriteLeague, NewLeague(sleeperLeagueId))
  }

  lemma LeagueSyncLawful(sleeperLeagueId: string)
    ensures Lawful(LeagueSync(sleeperLeagueId))
  {
  }

  /** Where the league lands: the first row with the Sleeper id, or a new
      row at the end. */
  function LeagueIndex(leagues: seq<LeagueRow>, sleeperLeagueId: string): (r: nat)
    ensures r <= |leagues|
    ensures r < |leagues| ==> leagues[r].sleeperLeagueId == Some(sleeperLeagueId)
    ensures r == |leagues| <==> forall i :: 0 <= i < |leagues| ==> leagues[i].sleeperLeagueId != Some(sleeperLeagueId)
  {
    match Lookup(leagues, SleeperLeagueKey, Some(sleeperLeagueId))
    case Some(i) => i
    case None => |leagues|
  }

  // ---------------------------------------------------------------------------
  // The team upsert
  // ---------------------------------------------------------------------------

  /** What the loop derives from one roster. */
  datatype TeamItem = TeamItem(rosterId: Option<int>, ownerId: Option<string>, name: string,
    wins: int, losses: int, ties: int, pointsFor: real, pointsAgainst: real)

  /** A roster's team: named after its owner, with a missing record counted
      as zero. */
  function TeamOf(users: seq<SS.User>): SS.Roster -> TeamItem {
    (r: SS.Roster) => TeamItem(r.rosterId, r.ownerId, SS.TeamName(r, users),
      r.wins.GetOr(0), r.losses.GetOr(0), r.ties.GetOr(0), r.fpts.GetOr(0.0), r.fptsAgainst.GetOr(0.0))
  }

  function SleeperTeamKey(leagueId: int): TeamRow -> Option<Option<int>> {
    (t: TeamRow) => if t.leagueId == leagueId then Some(t.sleeperRosterId) else None
  }

  /** The update branch: the name and record change; the owner id stays. */
  function WriteTeam(d: TeamItem): TeamRow -> TeamRow {
    (t: TeamRow) => t.(name := d.name, wins := d.wins, losses := d.losses, ties := d.ties,
      pointsFor := d.pointsFor, pointsAgainst := d.pointsAgainst)
  }

  function NewTeam(leagueId: int): TeamItem -> TeamRow {
    (d: TeamItem) => TeamRow(leagueId, None, d.rosterId, d.ownerId, d.name, None, None, None, None,
      d.wins, d.losses, d.ties, d.pointsFor, d.pointsAgainst)
  }

  function TeamSync(leagueId: int): Sync<TeamRow, Option<int>, TeamItem> {
    Sync(SleeperTeamKey(leagueId), (d: TeamItem) => Some(d.rosterId), WriteTeam, NewTeam(leagueId))
  }

  lemma TeamSyncLawful(leagueId: int)
    ensures Lawful(TeamSync(leagueId))
  {
  }

  /** After the loop, every roster's team is stored in the league under its
      roster id with the name and record of the last roster carrying that
      id; a team that already existed keeps its owner id; teams of other
      leagues are untouched. */
  lemma TeamsSynced(teams: seq<TeamRow>, leagueId: int, items: seq<TeamItem>)
    ensures var after := UpsertAll(teams, TeamSync(leagueId), items);
      |after| >= |teams|
      && (forall j :: 0 <= j < |items| ==>
        exists i :: (0 <= i < |after| && after[i].leagueId == leagueId && after[i].sleeperRosterId == items[j].rosterId
          && var d := items[LastFor(TeamSync(leagueId), items, items[j].rosterId).value];
          after[i].name == d.name && after[i].wins == d.wins && after[i].losses == d.losses
          && after[i].ties == d.ties && after[i].pointsFor == d.pointsFor && after[i].pointsAgainst == d.pointsAgainst))
      && (forall i :: 0 <= i < |teams| ==> after[i].sleeperOwnerId == teams[i].sleeperOwnerId)
      && (forall i :: 0 <= i < |teams| && teams[i].leagueId != leagueId ==> after[i] == teams[i])
  {
    var s := TeamSync(leagueId);
    var after := UpsertAll(teams, s, items);
    TeamSyncLawful(leagueId);
    UpsertAllFrame(teams, s, items);
    OwnersKept(teams, leagueId, items);
    UpsertAllKeepsKeys(teams, s, items);
    forall j | 0 <= j < |items|
      ensures exists i :: (0 <= i < |after| && after[i].leagueId == leagueId && after[i].sleeperRosterId == items[j].rosterId
          && var d := items[LastFor(s, items, items[j].rosterId).value];
          after[i].name == d.name && after[i].wins == d.wins && after[i].losses == d.losses
          && after[i].ties == d.ties && after[i].pointsFor == d.pointsFor && after[i].pointsAgainst == d.pointsAgainst)
    {
      assert ItemKeyIs(s, items[j].rosterId)(items[j]);
      UpsertAllReflects(teams, s, items, items[j].rosterId);
      var i := Lookup(after, s.key, Some(items[j].rosterId)).value;
      var d := items[LastFor(s, items, items[j].rosterId).value];
      assert WriteTeam(d)(after[i]) == after[i];
    }
  }

  /** No write touches an owner id. */
  lemma {:induction false} OwnersKept(teams: seq<TeamRow>, leagueId: int, items: seq<TeamItem>)
    ensures var after := UpsertAll(teams, TeamSync(leagueId), items);
      |after| >= |teams| && forall i :: 0 <= i < |teams| ==> after[i].sleeperOwnerId == teams[i].sleeperOwnerId
    decreases |items|
  {
    UpsertAllFrame(teams, TeamSync(leagueId), items);
    if items != [] {
      OwnersKept(teams, leagueId, items[..|items| - 1]);
    }
  }

  // ---------------------------------------------------------------------------
  // connect_sleeper_league
  // ---------------------------------------------------------------------------

  datatype Connected = Connected(leagueId: int, sleeperLeagueId: string, leagueName: string, teamsSynced: nat)

  /** The fetches in the order the handler makes them: the user, the league,
      the users for the membership check, the rosters, and the users again
      for naming the teams. */
  datatype Fetched = Fetched(
    user: Result<SS.User, Raised>,
    league: Result<League, Raised>,
    members: Result<seq<SS.User>, Raised>,
    rosters: Result<seq<SS.Roster>, Raised>,
    users: Result<seq<SS.User>, Raised>)

  function HasRosterId(r: SS.Roster): bool {
    r.rosterId.Some?
  }

  /** The two writes once every fetch and every field has been read: the
      league row, committed, then its teams. */
  function ConnectWith(db: Db, owner: int, req: ConnectRequest, sleeperUserId: string, fields: Fields,
                       items: seq<TeamItem>): (r: (Db, int))
    ensures var (after, id) := r;
      1 <= id <= |after.leagues| && |db.leagues| <= |after.leagues| <= |db.leagues| + 1
      && (id <= |db.leagues| <==> exists i :: 0 <= i < |db.leagues| && db.leagues[i].sleeperLeagueId == Some(req.leagueId))
      && after.leagues[id - 1].sleeperLeagueId == Some(req.leagueId)
      && after.leagues[id - 1].platform == Platform.Sleeper && after.leagues[id - 1].isActive
      && after.leagues[id - 1].ownerUserId == Some(owner) && after.leagues[id - 1].sleeperUserId == Some(sleeperUserId)
      && after.leagues[id - 1].name == fields.name && after.leagues[id - 1].seasonYear == fields.season
      && after.leagues[id - 1].size == fields.size && after.leagues[id - 1].currentWeek == fields.currentWeek
      && after.leagues[id - 1].scoringType == fields.scoringType
      && (forall i :: 0 <= i < |db.leagues| && i != id - 1 ==> after.leagues[i] == db.leagues[i])
      && after.budgets == db.budgets
      && after.teams == UpsertAll(db.teams, TeamSync(id), items)
  {
    var at := LeagueIndex(db.leagues, req.leagueId);
    var leagues := Upsert(db.leagues, LeagueSync(req.leagueId), LeagueUpdate(fields, sleeperUserId, owner));
    (Db(leagues, UpsertAll(db.teams, TeamSync(at + 1), items), db.budgets), at + 1)
  }

  /** `connect_sleeper_league`. Returns the database as committed and the
      response or error status: a missing user or league is a 404 and a
      non-member a 403, all before any write; other Sleeper errors are 503
      and anything else a 500. A roster without an id fails the team loop
      after the league row was committed. */
  function ConnectSleeperLeague(db: Db, owner: int, req: ConnectRequest, f: Fetched): (r: (Db, Result<Connected, int>))
    ensures r.1.Failure? ==> r.1.error in {403, 404, 500, 503}
    ensures r.1.Failure? && r.1.error != 500 ==> r.0 == db
    ensures f.user.Failure? ==> r == (db, Failure(GateStatus(f.user.error)))
    ensures f.user.Success? && f.league.Failure? ==> r == (db, Failure(GateStatus(f.league.error)))
    ensures r.1.Success? ==> (f.user.Success? && f.user.value.userId.Some?
      && SS.ValidateLeagueAccess(f.members, f.user.value.userId.value) == Success(true)
      && f.rosters.Success? && r.1.value.teamsSynced == |f.rosters.value|
      && var id := r.1.value.leagueId;
      1 <= id <= |r.0.leagues| && r.0.leagues[id - 1].sleeperLeagueId == Some(req.leagueId)
      && r.0.leagues[id - 1].platform == Platform.Sleeper && r.0.leagues[id - 1].ownerUserId == Some(owner)
      && r.0.leagues[id - 1].isActive && r.1.value.leagueName == r.0.leagues[id - 1].name)
  {
    match f.user
    case Failure(e) => (db, Failure(GateStatus(e)))
    case Success(user) =>
      match f.league
      case Failure(e) => (db, Failure(GateStatus(e)))
      case Success(league) =>
        match user.userId
        case None => (db, Failure(500))
        case Some(uid) =>
          match SS.ValidateLeagueAccess(f.members, uid)
          case Failure(e) => (db, Failure(FetchStatus(e)))
          case Success(isMember) =>
            if !isMember then (db, Failure(403))
            else
              match f.rosters
              case Failure(e) => (db, Failure(FetchStatus(e)))
              case Success(rosters) =>
                match f.users
                case Failure(e) => (db, Failure(FetchStatus(e)))
                case Success(users) =>
                  match ParseFields(league)
                  case None => (db, Failure(500))
                  case Some(fields) =>
                    var at := LeagueIndex(db.leagues, req.leagueId);
                    var committed := db.(leagues := Upsert(db.leagues, LeagueSync(req.leagueId), LeagueUpdate(fields, uid, owner)));
                    if !(forall i :: 0 <= i < |rosters| ==> HasRosterId(rosters[i])) then (committed, Failure(500))
                    else
                      var (after, id) := ConnectWith(db, owner, req, uid, fields, Map(rosters, TeamOf(users)));
                      (after, Success(Connected(id, req.leagueId, fields.name, |rosters|)))
  }

  /** The membership gate: once the user and the league are found, a user
      the league does not list is refused with a 403 and nothing is
      written. */
  lemma NonMemberRefused(db: Db, owner: int, req: ConnectRequest, f: Fetched)
    requires f.user.Success? && f.league.Success? && f.user.value.userId.Some?
    requires f.members.Success?
    requires forall i :: 0 <= i < |f.members.value| ==> f.members.value[i].userId != f.user.value.userId
    ensures ConnectSleeperLeague(db, owner, req, f) == (db, Failure(403))
  {
  }

  /** Connecting the same league twice with the same data changes nothing
      the second time. */
  lemma ConnectIdempotent(db: Db, owner: int, req: ConnectRequest, sleeperUserId: string, fields: Fields,
                          items: seq<TeamItem>)
    requires forall leagueId :: UniqueKeys(db.teams, SleeperTeamKey(leagueId))
    ensures var once := ConnectWith(db, owner, req, sleeperUserId, fields, items);
      ConnectWith(once.0, owner, req, sleeperUserId, fields, items) == once
  {
    var u := LeagueUpdate(fields, sleeperUserId, owner);
    var s := LeagueSync(req.leagueId);
    var at := LeagueIndex(db.leagues, req.leagueId);
    var once := ConnectWith(db, owner, req, sleeperUserId, fields, items);
    var leagues := once.0.leagues;
    assert leagues == Upsert(db.leagues, s, u);
    if at < |db.leagues| {
      LookupSameKeys(leagues, db.leagues, SleeperLeagueKey, Some(req.leagueId));
    } else {
      LookupAppend(db.leagues, SleeperLeagueKey, NewLeague(req.leagueId)(u), req.leagueId);
    }
    assert LeagueIndex(leagues, req.leagueId) == at;
    assert Upsert(leagues, s, u) == leagues;
    TeamSyncLawful(at + 1);
    SyncIdempotent(db.teams, TeamSync(at + 1), items);
  }
}

=== FILE: sleeper_service.dfy ===
/** The Sleeper adapter (`SleeperService`) over already fetched responses:
    the league-membership check, the roster lookup, the position mapping and
    the stats and projections endpoint paths. A fetch is the outcome of
    `_make_request` (see `SleeperFetch`). */
module SleeperService {
  import opened Wrappers
  import Domain
  import opened Text
  import opened Seqs
  import opened SleeperFetch

  /** An element of `league/{id}/users`. */
  datatype User = User(userId: Option<string>, displayName: Option<string>)

  /** An element of `league/{id}/rosters`; the record fields come from its
      `settings` object (absent when the object is). */
  datatype Roster = Roster(
    rosterId: Option<int>,
    ownerId: Option<string>,
    wins: Option<int>,
    losses: Option<int>,
    ties: Option<int>,
    fpts: Option<real>,
    fptsAgainst: Option<real>)

  // ---------------------------------------------------------------------------
  // League membership
  // ---------------------------------------------------------------------------

  function HasUserId(userId: string): User -> bool {
    (u: User) => u.userId == Some(userId)
  }

  /** `validate_league_access(league_id, user_id)` given the outcome of the
      users fetch: whether some league user has that id. A Sleeper error
      becomes `False`; a body that is not JSON is not a Sleeper error and
      still propagates. */
  function ValidateLeagueAccess(users: Result<seq<User>, Raised>, userId: string): (r: Result<bool, Raised>)
    ensures users.Success? ==>
      r == Success(exists i :: 0 <= i < |users.value| && users.value[i].userId == Some(userId))
    ensures users.Failure? && users.error.Sleeper? ==> r == Success(false)
    ensures users.Failure? && users.error.DecodeError? ==> r == Failure(DecodeError)
  {
    match users
    case Success(us) => Success(Any(us, HasUserId(userId)))
    case Failure(Sleeper(_)) => Success(false)
    case Failure(DecodeError) => Failure(DecodeError)
  }

  /** Membership does not depend on the order of the users, nor on users
      that do not carry the id. */
  lemma MembershipIgnoresOthers(us: seq<User>, vs: seq<User>, userId: string)
    requires forall u :: u in us && u.userId == Some(userId) <==> u in vs && u.userId == Some(userId)
    ensures ValidateLeagueAccess(Success(us), userId) == ValidateLeagueAccess(Success(vs), userId)
  {
    assert (exists i :: 0 <= i < |us| && us[i].userId == Some(userId))
       <==> (exists u :: u in us && u.userId == Some(userId));
    assert (exists i :: 0 <= i < |vs| && vs[i].userId == Some(userId))
       <==> (exists u :: u in vs && u.userId == Some(userId));
  }

  // ---------------------------------------------------------------------------
  // Roster lookup
  // ---------------------------------------------------------------------------

  function HasRosterId(rosterId: int): Roster -> bool {
    (r: Roster) => r.rosterId == Some(rosterId)
  }

  /** `get_team_roster(league_id, roster_id)`: the FIRST roster with that id;
      `SleeperNotFoundError` when there is none; a failed fetch re-raises. */
  function GetTeamRoster(rosters: Result<seq<Roster>, Raised>, rosterId: int): (r: Result<Roster, Raised>)
    ensures rosters.Failure? ==> r == Failure(rosters.error)
    ensures rosters.Success? && r.Success? ==> exists i :: (0 <= i < |rosters.value|
      && rosters.value[i] == r.value && r.value.rosterId == Some(rosterId)
      && forall j :: 0 <= j < i ==> rosters.value[j].rosterId != Some(rosterId))
    ensures rosters.Success? && r.Failure? ==> (r.error == Sleeper(NotFound)
      && forall i :: 0 <= i < |rosters.value| ==> rosters.value[i].rosterId != Some(rosterId))
  {
    match rosters
    case Failure(e) => Failure(e)
    case Success(rs) =>
      match FindFirst(rs, HasRosterId(rosterId))
      case None => Failure(Sleeper(NotFound))
      case Some(i) => Success(rs[i])
  }

  /** Rosters after the first match are never consulted. */
  lemma RosterLookupStopsAtFirst(a: seq<Roster>, x: Roster, b: seq<Roster>, rosterId: int)
    requires forall j :: 0 <= j < |a| ==> a[j].rosterId != Some(rosterId)
    requires x.rosterId == Some(rosterId)
    ensures GetTeamRoster(Success(a + [x] + b), rosterId) == Success(x)
  {
    var s := a + [x] + b;
    assert forall j :: 0 <= j < |a| ==> s[j] == a[j];
    assert s[|a|] == x;
  }

  // ---------------------------------------------------------------------------
  // Team names (the connect handler and the weekly recap name rosters alike)
  // ---------------------------------------------------------------------------

  /** `f"Team {roster_id}"`. */
  function DefaultTeamName(rosterId: Option<int>): string {
    "Team " + (if rosterId.Some? then IntToString(rosterId.value) else "None")
  }

  function Owns(ownerId: Option<string>): User -> bool {
    (u: User) => u.userId == ownerId
  }

  /** A roster's team name: the display name of the FIRST league user whose
      id equals the roster's owner id (the default name when that user has
      no display name), and the default name when no user matches. */
  function TeamName(roster: Roster, users: seq<User>): (r: string)
    ensures (forall i :: 0 <= i < |users| ==> users[i].userId != roster.ownerId) ==> r == DefaultTeamName(roster.rosterId)
    ensures (exists i :: 0 <= i < |users| && users[i].userId == roster.ownerId) ==>
      exists i :: (0 <= i < |users| && users[i].userId == roster.ownerId
        && (forall j :: 0 <= j < i ==> users[j].userId != roster.ownerId)
        && r == users[i].displayName.GetOr(DefaultTeamName(roster.rosterId)))
  {
    match FindFirst(users, Owns(roster.ownerId))
    case None => DefaultTeamName(roster.rosterId)
    case Some(i) => users[i].displayName.GetOr(DefaultTeamName(roster.rosterId))
  }

  /** Default names tell rosters apart: distinct roster ids never share one. */
  lemma DefaultTeamNamesDistinct(a: Option<int>, b: Option<int>)
    ensures DefaultTeamName(a) == DefaultTeamName(b) ==> a == b
  {
    if DefaultTeamName(a) == DefaultTeamName(b) {
      var ta := if a.Some? then IntToString(a.value) else "None";
      var tb := if b.Some? then IntToString(b.value) else "None";
      assert ta == DefaultTeamName(a)[5..] && tb == DefaultTeamName(b)[5..];
      if a.Some? && b.Some? {
        IntToStringInjective(a.value, b.value);
      }
    }
  }

  // ---------------------------------------------------------------------------
  // Positions
  // ---------------------------------------------------------------------------

  /** `position_map`: Sleeper position code to the app's position name. */
  const PositionMap: map<string, string> := map[
    "QB" := "QB", "RB" := "RB", "WR" := "WR", "TE" := "TE", "K" := "K",
    "DEF" := "D/ST", "FLEX" := "FLEX", "SUPER_FLEX" := "SFLEX", "BN" := "BENCH", "IR" := "IR"]

  /** `map_sleeper_to_standard_position(p)`: the table's name, or `p` itself. */
  function MapPosition(p: string): (r: string)
    ensures p !in PositionMap ==> r == p
    ensures r in PositionMap ==> PositionMap[r] == r
  {
    if p in PositionMap then PositionMap[p] else p
  }

  /** Mapping a mapped position changes nothing more, and the named codes
      map as the app expects. */
  lemma MapPositionIdempotent(p: string)
    ensures MapPosition(MapPosition(p)) == MapPosition(p)
    ensures MapPosition("BN") == "BENCH" && MapPosition("DEF") == "D/ST"
    ensures MapPosition("SUPER_FLEX") == "SFLEX" && MapPosition("DL") == "DL"
  {
  }

  // ---------------------------------------------------------------------------
  // Endpoint paths
  // ---------------------------------------------------------------------------

  /** The endpoint of `get_player_stats` (`kind` "stats") or
      `get_player_projections` (`kind` "projections"): the week segment is
      present only when the week is truthy. */
  function SeasonPath(kind: string, season: int, week: Option<int>): string {
    kind + "/" + "nfl" + "/" + "regular" + "/" + IntToString(season)
      + (if Domain.Truthy(week) then "/" + IntToString(week.value) else "")
  }

  function StatsPath(season: int, week: Option<int>): string {
    SeasonPath("stats", season, week)
  }

  function ProjectionsPath(season: int, week: Option<int>): string {
    SeasonPath("projections", season, week)
  }

  /** Python's `s.split("/")`. */
  function Split(s: string): (r: seq<string>)
    ensures |r| >= 1
  {
    if s == [] then [""]
    else if s[0] == '/' then [""] + Split(s[1..])
    else
      var t := Split(s[1..]);
      [[s[0]] + t[0]] + t[1..]
  }

  predicate NoSlash(s: string) {
    forall i :: 0 <= i < |s| ==> s[i] != '/'
  }

  lemma {:induction false} SplitNoSlash(s: string)
    requires NoSlash(s)
    ensures Split(s) == [s]
    decreases |s|
  {
    if s != [] {
      SplitNoSlash(s[1..]);
      assert [s[0]] + s[1..] == s;
    }
  }

  lemma {:induction false} SplitAppend(a: string, b: string)
    ensures Split(a + "/" + b) == Split(a) + Split(b)
    decreases |a|
  {
    if a == [] {
      assert a + "/" + b == ['/'] + b;
      assert (['/'] + b)[1..] == b;
    } else {
      var s := a + "/" + b;
      assert s[0] == a[0];
      assert s[1..] == a[1..] + "/" + b;
      SplitAppend(a[1..], b);
    }
  }

  lemma IntToStringNoSlash(i: int)
    ensures NoSlash(IntToString(i))
  {
    var s := IntToString(i);
    if i < 0 {
      assert s == "-" + NatToString(-i);
      assert forall k :: 1 <= k < |s| ==> s[k] == NatToString(-i)[k - 1];
    }
  }

  /** The fixed head of both paths splits into its three segments. */
  lemma HeadSegments(kind: string)
    requires NoSlash(kind)
    ensures Split(kind + "/" + "nfl" + "/" + "regular") == [kind, "nfl", "regular"]
  {
    SplitNoSlash(kind);
    SplitNoSlash("nfl");
    SplitNoSlash("regular");
    SplitAppend(kind, "nfl");
    SplitAppend(kind + "/" + "nfl", "regular");
  }

  /** A number segment splits off as itself and reads back as written. */
  lemma NumberSegment(head: string, n: int)
    ensures Split(head + "/" + IntToString(n)) == Split(head) + [IntToString(n)]
    ensures ParseInt(IntToString(n)) == Some(n)
  {
    IntToStringNoSlash(n);
    SplitNoSlash(IntToString(n));
    SplitAppend(head, IntToString(n));
    ParseIntToString(n);
  }

  /** The path splits into the endpoint's segments with the season, then the
      week only when it is truthy; each number reads back as written. */
  lemma SeasonPathSegments(kind: string, season: int, week: Option<int>)
    requires NoSlash(kind)
    ensures var segs := Split(SeasonPath(kind, season, week));
      segs == [kind, "nfl", "regular", IntToString(season)]
              + (if Domain.Truthy(week) then [IntToString(week.value)] else [])
      && ParseInt(segs[3]) == Some(season)
      && (Domain.Truthy(week) ==> |segs| == 5 && ParseInt(segs[4]) == Some(week.value))
      && (!Domain.Truthy(week) ==> |segs| == 4)
  {
    var head := kind + "/" + "nfl" + "/" + "regular";
    HeadSegments(kind);
    NumberSegment(head, season);
    var withSeason := head + "/" + IntToString(season);
    assert Split(withSeason) == [kind, "nfl", "regular", IntToString(season)];
    if Domain.Truthy(week) {
      NumberSegment(withSeason, week.value);
      assert SeasonPath(kind, season, week) == withSeason + "/" + IntToString(week.value);
    } else {
      assert SeasonPath(kind, season, week) == withSeason;
    }
  }

  /** The stats and projections paths name the same season and week. */
  lemma StatsAndProjectionsAgree(season: int, week: Option<int>)
    ensures Split(StatsPath(season, week))[0] == "stats"
    ensures Split(ProjectionsPath(season, week))[0] == "projections"
    ensures Split(StatsPath(season, week))[1..] == Split(ProjectionsPath(season, week))[1..]
  {
    SeasonPathSegments("stats", season, week);
    SeasonPathSegments("projections", season, week);
  }
}

=== FILE: store.dfy ===
/** The rows the league handlers read and write (`leagues`, `teams`,
    `waiver_budgets`), and the handlers that only look a league up, list
    leagues or disconnect one (`api/leagues.py`). A row's id is its index
    plus one; the JSON settings columns and timestamps other than
    `last_synced` are not modelled. */
module Store {
  import opened Wrappers
  import opened Domain
  import opened Seqs
  import opened Credentials

  datatype LeagueRow = LeagueRow(
    platform: Platform,
    espnLeagueId: Option<int>,
    sleeperLeagueId: Option<string>,
    sleeperUserId: Option<string>,
    name: string,
    seasonYear: int,
    size: int,
    currentWeek: int,
    scoringType: ScoringType,
    credentials: Stored,
    ownerUserId: Option<int>,
    isActive: bool,
    lastSynced: Option<int>)

  datatype TeamRow = TeamRow(
    leagueId: int,
    espnTeamId: Option<int>,
    sleeperRosterId: Option<int>,
    sleeperOwnerId: Option<string>,
    name: string,
    location: Option<string>,
    nickname: Option<string>,
    abbreviation: Option<string>,
    logoUrl: Option<string>,
    wins: int,
    losses: int,
    ties: int,
    pointsFor: real,
    pointsAgainst: real)

  datatype BudgetRow = BudgetRow(
    leagueId: int, teamId: int, seasonYear: int,
    totalBudget: real, currentBudget: real, spentBudget: real)

  datatype Db = Db(leagues: seq<LeagueRow>, teams: seq<TeamRow>, budgets: seq<BudgetRow>)

  /** The league with that id, if the user owns it (active or not). */
  function OwnedLeague(db: Db, leagueId: int, userId: int): (r: Option<nat>)
    ensures r.Some? <==> 1 <= leagueId <= |db.leagues| && db.leagues[leagueId - 1].ownerUserId == Some(userId)
    ensures r.Some? ==> r.value == leagueId - 1
  {
    if 1 <= leagueId <= |db.leagues| && db.leagues[leagueId - 1].ownerUserId == Some(userId)
    then Some(leagueId - 1) else None
  }

  /** `get_league`. */
  function GetLeague(db: Db, leagueId: int, userId: int): (r: Result<LeagueRow, int>)
    ensures r.Failure? <==> OwnedLeague(db, leagueId, userId).None?
    ensures r.Failure? ==> r.error == 404
    ensures r.Success? ==> r.value == db.leagues[leagueId - 1] && r.value.ownerUserId == Some(userId)
  {
    match OwnedLeague(db, leagueId, userId)
    case None => Failure(404)
    case Some(i) => Success(db.leagues[i])
  }

  function Listed(userId: int): LeagueRow -> bool {
    (l: LeagueRow) => l.ownerUserId == Some(userId) && l.isActive
  }

  /** `get_user_leagues`: the user's active leagues, in row order. */
  function UserLeagues(db: Db, userId: int): (r: seq<LeagueRow>)
    ensures forall i :: 0 <= i < |r| ==> r[i].ownerUserId == Some(userId) && r[i].isActive
  {
    Filter(db.leagues, Listed(userId))
  }

  /** Exactly the active leagues the user owns are listed, in order. */
  lemma UserLeaguesExactly(db: Db, userId: int)
    ensures forall l :: l in UserLeagues(db, userId) <==> l in db.leagues && l.ownerUserId == Some(userId) && l.isActive
    ensures IsSubsequence(UserLeagues(db, userId), db.leagues)
  {
    FilterMembers(db.leagues, Listed(userId));
    FilterIsSubsequence(db.leagues, Listed(userId));
  }

  /** `disconnect_league`: a soft delete; the row stays with `is_active`
      false and nothing else changes. */
  function Disconnect(db: Db, leagueId: int, userId: int): (r: Result<Db, int>)
    ensures r.Failure? <==> OwnedLeague(db, leagueId, userId).None?
    ensures r.Failure? ==> r.error == 404
    ensures r.Success? ==> |r.value.leagues| == |db.leagues| && r.value.teams == db.teams && r.value.budgets == db.budgets
    ensures r.Success? ==> r.value.leagues[leagueId - 1] == db.leagues[leagueId - 1].(isActive := false)
    ensures r.Success? ==> forall i :: 0 <= i < |db.leagues| && i != leagueId - 1 ==> r.value.leagues[i] == db.leagues[i]
  {
    match OwnedLeague(db, leagueId, userId)
    case None => Failure(404)
    case Some(i) => Success(db.(leagues := db.leagues[i := db.leagues[i].(isActive := false)]))
  }

  /** After a disconnect the league drops out of its owner's list but can
      still be fetched by id; every other league keeps its listing. */
  lemma DisconnectUnlists(db: Db, leagueId: int, userId: int, viewer: int)
    requires Disconnect(db, leagueId, userId).Success?
    ensures var after := Disconnect(db, leagueId, userId).value;
      (forall i :: 0 <= i < |after.leagues| ==>
        (Listed(viewer)(after.leagues[i]) <==> Listed(viewer)(db.leagues[i]) && i != leagueId - 1))
      && GetLeague(after, leagueId, userId) == Success(db.leagues[leagueId - 1].(isActive := false))
  {
  }
}

=== FILE: tables.dfy ===
/** Database tables as sequences of rows. The row at index `i` has primary
    key `i + 1` (autoincrement) and rows are never removed, so a row keeps
    its id. A lookup by natural key (`select ... where key == k` followed by
    `scalar_one_or_none()`) finds the row holding the key. A key function
    returns `None` for a row outside the query's scope (a team of another
    league, say), and such a row matches nothing; inside the scope keys are
    compared by equality, a NULL column being an ordinary value (`col ==
    None` is rendered as `IS NULL`). A sync writes a list of fresh items
    into a table, one keyed upsert per item. */
module Tables {
  import opened Wrappers
  import opened Seqs

  function IsKey<K(==)>(k: K): Option<K> -> bool {
    (x: Option<K>) => x == Some(k)
  }

  /** The natural key of every row, in row order. */
  function Keys<R, K>(rows: seq<R>, key: R -> Option<K>): seq<Option<K>> {
    Map(rows, key)
  }

  /** The index of the first row holding key `k`; nothing for `None`. */
  function Lookup<R, K(==)>(rows: seq<R>, key: R -> Option<K>, k: Option<K>): (r: Option<nat>)
    ensures r.Some? ==> k.Some? && r.value < |rows| && key(rows[r.value]) == k
    ensures r.Some? ==> forall i :: 0 <= i < r.value ==> key(rows[i]) != k
    ensures r.None? <==> k.None? || forall i :: 0 <= i < |rows| ==> key(rows[i]) != k
  {
    if k.None? then None else FindFirst(Keys(rows, key), IsKey(k.value))
  }

  /** No two rows in scope share a key. */
  ghost predicate UniqueKeys<R, K>(rows: seq<R>, key: R -> Option<K>) {
    forall i, j :: 0 <= i < j < |rows| && key(rows[i]).Some? ==> key(rows[i]) != key(rows[j])
  }

  /** With unique keys, the lookup of a row's key finds that row. */
  lemma LookupUnique<R, K>(rows: seq<R>, key: R -> Option<K>, i: nat)
    requires UniqueKeys(rows, key) && i < |rows| && key(rows[i]).Some?
    ensures Lookup(rows, key, key(rows[i])) == Some(i)
  {
  }

  /** How a sync writes items of type `I` into rows of type `R` keyed by
      `K`: the key of a row and of an item, the overwrite of an existing
      row, and the new row. */
  datatype Sync<!R, K, !I> = Sync(key: R -> Option<K>, itemKey: I -> Option<K>, write: I -> (R -> R), create: I -> R)

  /** The laws a handler's upsert obeys: overwriting keeps a row's key, a
      new row carries its item's key, a second overwrite replaces the first
      completely, and overwriting a new row with its own item changes
      nothing. */
  ghost predicate Lawful<R(!new), K, I(!new)>(s: Sync<R, K, I>) {
    (forall d, r :: s.key(s.write(d)(r)) == s.key(r))
    && (forall d :: s.key(s.create(d)) == s.itemKey(d))
    && (forall d, e, r :: s.write(d)(s.write(e)(r)) == s.write(d)(r))
    && (forall d :: s.write(d)(s.create(d)) == s.create(d))
  }

  /** One upsert: overwrite the row holding the item's key, or append a new
      row when there is none (always, for an item with no key). */
  function Upsert<R, K(==), I>(rows: seq<R>, s: Sync<R, K, I>, d: I): (r: seq<R>)
    ensures |rows| <= |r| <= |rows| + 1
    ensures forall i :: 0 <= i < |rows| && (s.key(rows[i]).None? || s.key(rows[i]) != s.itemKey(d)) ==> r[i] == rows[i]
    ensures |r| == |rows| <==> Lookup(rows, s.key, s.itemKey(d)).Some?
    ensures |r| == |rows| + 1 ==> r[|rows|] == s.create(d)
  {
    match Lookup(rows, s.key, s.itemKey(d))
    case Some(i) => rows[i := s.write(d)(rows[i])]
    case None => rows + [s.create(d)]
  }

  /** The sync loop: one upsert per item, in order. */
  function UpsertAll<R, K(==), I>(rows: seq<R>, s: Sync<R, K, I>, items: seq<I>): seq<R>
    decreases |items|
  {
    if items == [] then rows else Upsert(UpsertAll(rows, s, items[..|items| - 1]), s, items[|items| - 1])
  }

  function ItemKeyIs<R, K(==), I>(s: Sync<R, K, I>, k: K): I -> bool {
    (d: I) => s.itemKey(d) == Some(k)
  }

  /** The last item carrying key `k`: the one whose values a sync leaves. */
  function LastFor<R, K(==), I>(s: Sync<R, K, I>, items: seq<I>, k: K): (r: Option<nat>)
    ensures r.Some? ==> r.value < |items| && s.itemKey(items[r.value]) == Some(k)
  {
    FindLast(items, ItemKeyIs(s, k))
  }

  lemma LastForAppend<R, K, I>(s: Sync<R, K, I>, items: seq<I>, d: I, k: K)
    ensures LastFor(s, items + [d], k) == if s.itemKey(d) == Some(k) then Some(|items|) else LastFor(s, items, k)
  {
    assert (items + [d])[..|items|] == items;
  }

  /** Rows no item addresses are left as they were, and no row moves. */
  lemma {:induction false} UpsertAllFrame<R, K, I>(rows: seq<R>, s: Sync<R, K, I>, items: seq<I>)
    ensures |UpsertAll(rows, s, items)| >= |rows|
    ensures forall i :: (0 <= i < |rows| && (s.key(rows[i]).None? || LastFor(s, items, s.key(rows[i]).value).None?)
      ==> UpsertAll(rows, s, items)[i] == rows[i])
    decreases |items|
  {
    if items != [] {
      var pre := items[..|items| - 1];
      var d := items[|items| - 1];
      UpsertAllFrame(rows, s, pre);
      assert pre + [d] == items;
      forall i | 0 <= i < |rows| && s.key(rows[i]).Some? && LastFor(s, items, s.key(rows[i]).value).None?
        ensures LastFor(s, pre, s.key(rows[i]).value).None? && s.itemKey(d) != s.key(rows[i])
      {
        LastForAppend(s, pre, d, s.key(rows[i]).value);
      }
    }
  }

  /** With lawful writes, a sync changes no row's key. */
  lemma {:induction false} UpsertAllKeepsKeys<R(!new), K, I(!new)>(rows: seq<R>, s: Sync<R, K, I>, items: seq<I>)
    requires Lawful(s)
    ensures |UpsertAll(rows, s, items)| >= |rows|
    ensures forall i :: 0 <= i < |rows| ==> s.key(UpsertAll(rows, s, items)[i]) == s.key(rows[i])
    decreases |items|
  {
    if items != [] {
      UpsertAllKeepsKeys(rows, s, items[..|items| - 1]);
    }
  }

  /** A lawful sync keeps keys unique. */
  lemma {:induction false} UpsertAllUnique<R(!new), K, I(!new)>(rows: seq<R>, s: Sync<R, K, I>, items: seq<I>)
    requires Lawful(s) && UniqueKeys(rows, s.key)
    ensures UniqueKeys(UpsertAll(rows, s, items), s.key)
    decreases |items|
  {
    if items != [] {
      var prev := UpsertAll(rows, s, items[..|items| - 1]);
      var d := items[|items| - 1];
      UpsertAllUnique(rows, s, items[..|items| - 1]);
      var next := Upsert(prev, s, d);
      match Lookup(prev, s.key, s.itemKey(d))
      case Some(i0) =>
        assert forall i :: 0 <= i < |prev| ==> s.key(next[i]) == s.key(prev[i]);
      case None =>
        assert next == prev + [s.create(d)];
    }
  }

  /** Lookup depends only on the keys. */
  lemma LookupSameKeys<R, K>(a: seq<R>, b: seq<R>, key: R -> Option<K>, k: Option<K>)
    requires |a| == |b| && forall i :: 0 <= i < |a| ==> key(a[i]) == key(b[i])
    ensures Lookup(a, key, k) == Lookup(b, key, k)
  {
    assert Keys(a, key) == Keys(b, key);
  }

  /** Lookup after appending a row. */
  lemma LookupAppend<R, K>(rows: seq<R>, key: R -> Option<K>, x: R, k: K)
    ensures Lookup(rows + [x], key, Some(k))
         == if Lookup(rows, key, Some(k)).Some? then Lookup(rows, key, Some(k))
            else if key(x) == Some(k) then Some(|rows|) else None
  {
    MapAppend(rows, [x], key);
    assert Keys(rows + [x], key) == Keys(rows, key) + [key(x)];
    FindFirstAppend(Keys(rows, key), key(x), IsKey(k));
  }

  /** After a lawful sync, the row holding the key of any item is a fixed
      point of the overwrite by the last item with that key: it holds that
      item's values. */
  lemma {:induction false} UpsertAllReflects<R(!new), K, I(!new)>(rows: seq<R>, s: Sync<R, K, I>, items: seq<I>, k: K)
    requires Lawful(s) && LastFor(s, items, k).Some?
    ensures Lookup(UpsertAll(rows, s, items), s.key, Some(k)).Some?
    ensures var after := UpsertAll(rows, s, items);
      var i := Lookup(after, s.key, Some(k)).value;
      s.write(items[LastFor(s, items, k).value])(after[i]) == after[i]
    decreases |items|
  {
    var pre := items[..|items| - 1];
    var d := items[|items| - 1];
    assert pre + [d] == items;
    var prev := UpsertAll(rows, s, pre);
    var after := UpsertAll(rows, s, items);
    LastForAppend(s, pre, d, k);
    match Lookup(prev, s.key, s.itemKey(d))
    case Some(i0) =>
      assert after == prev[i0 := s.write(d)(prev[i0])];
      LookupSameKeys(after, prev, s.key, Some(k));
      if s.itemKey(d) != Some(k) {
        UpsertAllReflects(rows, s, pre, k);
      }
    case None =>
      assert after == prev + [s.create(d)];
      LookupAppend(prev, s.key, s.create(d), k);
      if s.itemKey(d) != Some(k) {
        UpsertAllReflects(rows, s, pre, k);
      }
  }

  /** `rows` with every row that some item addresses overwritten by the last
      such item. */
  ghost function Overlay<R, K, I>(rows: seq<R>, s: Sync<R, K, I>, items: seq<I>): (r: seq<R>)
    ensures |r| == |rows|
  {
    seq(|rows|, i requires 0 <= i < |rows| =>
      if s.key(rows[i]).Some? && LastFor(s, items, s.key(rows[i]).value).Some?
      then s.write(items[LastFor(s, items, s.key(rows[i]).value).value])(rows[i])
      else rows[i])
  }

  /** Replaying items whose keys all have rows only overwrites those rows. */
  lemma {:induction false} ReplayIsOverlay<R(!new), K, I(!new)>(rows: seq<R>, s: Sync<R, K, I>, items: seq<I>)
    requires Lawful(s) && UniqueKeys(rows, s.key)
    requires forall j :: 0 <= j < |items| ==> Lookup(rows, s.key, s.itemKey(items[j])).Some?
    ensures UpsertAll(rows, s, items) == Overlay(rows, s, items)
    decreases |items|
  {
    if items != [] {
      var pre := items[..|items| - 1];
      var d := items[|items| - 1];
      assert pre + [d] == items;
      ReplayIsOverlay(rows, s, pre);
      var prev := Overlay(rows, s, pre);
      var want := Overlay(rows, s, items);
      assert Lookup(rows, s.key, s.itemKey(d)).Some?;
      var i0 := Lookup(rows, s.key, s.itemKey(d)).value;
      LookupSameKeys(prev, rows, s.key, s.itemKey(d));
      var got := prev[i0 := s.write(d)(prev[i0])];
      assert UpsertAll(rows, s, items) == got;
      forall i | 0 <= i < |rows|
        ensures got[i] == want[i]
      {
        if s.key(rows[i]).Some? {
          LastForAppend(s, pre, d, s.key(rows[i]).value);
        }
        if i == i0 {
          assert s.key(rows[i]) == s.itemKey(d);
        } else if s.key(rows[i]).Some? {
          LookupUnique(rows, s.key, i);
        }
      }
    }
  }

  /** Running the same sync twice is the same as running it once, provided
      keys start unique and every item has a key (an item without one
      adds a new row every time). */
  lemma SyncIdempotent<R(!new), K, I(!new)>(rows: seq<R>, s: Sync<R, K, I>, items: seq<I>)
    requires Lawful(s) && UniqueKeys(rows, s.key)
    requires forall j :: 0 <= j < |items| ==> s.itemKey(items[j]).Some?
    ensures UpsertAll(UpsertAll(rows, s, items), s, items) == UpsertAll(rows, s, items)
  {
    var once := UpsertAll(rows, s, items);
    UpsertAllUnique(rows, s, items);
    forall j | 0 <= j < |items|
      ensures Lookup(once, s.key, s.itemKey(items[j])).Some?
    {
      assert ItemKeyIs(s, s.itemKey(items[j]).value)(items[j]);
      UpsertAllReflects(rows, s, items, s.itemKey(items[j]).value);
    }
    ReplayIsOverlay(once, s, items);
    forall i | 0 <= i < |once|
      ensures Overlay(once, s, items)[i] == once[i]
    {
      var k := s.key(once[i]);
      if k.Some? && LastFor(s, items, k.value).Some? {
        UpsertAllReflects(rows, s, items, k.value);
        LookupUnique(once, s.key, i);
      }
    }
  }
}

=== FILE: text.dfy ===
/** The handful of Python string operations the backend relies on:
    `str(n)` / `int(s)` for integers, `str.strip()`, ASCII `str.lower()`
    and the substring test `a in b`. */
module Text {
  import opened Wrappers

  predicate IsDigit(c: char) {
    '0' <= c <= '9'
  }

  predicate AllDigits(s: string) {
    forall i :: 0 <= i < |s| ==> IsDigit(s[i])
  }

  /** Python's `str.isspace()` for a single character: the ASCII blanks and
      separators 9-13 and 28-31, space, and the Unicode space characters. */
  predicate IsSpace(c: char) {
    var n := c as int;
    n == 32 || 9 <= n <= 13 || 28 <= n <= 31 || n == 0x85 || n == 0xA0
    || n == 0x1680 || 0x2000 <= n <= 0x200A || n == 0x2028 || n == 0x2029
    || n == 0x202F || n == 0x205F || n == 0x3000
  }

  function DigitChar(d: nat): (c: char)
    requires d < 10
    ensures IsDigit(c)
  {
    ('0' as int + d) as char
  }

  function DigitValue(c: char): (d: nat)
    requires IsDigit(c)
    ensures d < 10
  {
    c as int - '0' as int
  }

  /** Decimal rendering of a natural number, without leading zeros. */
  function NatToString(n: nat): (s: string)
    ensures s != [] && AllDigits(s)
    decreases n
  {
    if n < 10 then [DigitChar(n)] else NatToString(n / 10) + [DigitChar(n % 10)]
  }

  /** Python's `str(n)` for an `int`. */
  function IntToString(i: int): (s: string)
    ensures s != []
    ensures i < 0 <==> s[0] == '-'
    ensures IsDigit(s[|s| - 1])
  {
    if i < 0 then "-" + NatToString(-i) else NatToString(i)
  }

  /** The value of a string of decimal digits. */
  function ParseDigits(s: string): nat
    requires AllDigits(s)
  {
    if s == [] then 0 else ParseDigits(s[..|s| - 1]) * 10 + DigitValue(s[|s| - 1])
  }

  /** Python's `int(s)` restricted to an optional minus sign followed by ASCII
      digits; anything else is the `ValueError` case. */
  function ParseInt(s: string): Option<int> {
    if |s| > 1 && s[0] == '-' && AllDigits(s[1..]) then Some(0 - ParseDigits(s[1..]) as int)
    else if s != [] && AllDigits(s) then Some(ParseDigits(s) as int)
    else None
  }

  lemma {:induction false} ParseDigitsOfNatToString(n: nat)
    ensures ParseDigits(NatToString(n)) == n
    decreases n
  {
    var s := NatToString(n);
    if n < 10 {
      assert s[..|s| - 1] == [];
    } else {
      ParseDigitsOfNatToString(n / 10);
      assert s[..|s| - 1] == NatToString(n / 10);
    }
  }

  /** `int(str(i)) == i`: the decimal rendering can always be read back. */
  lemma ParseIntToString(i: int)
    ensures ParseInt(IntToString(i)) == Some(i)
  {
    var s := IntToString(i);
    if i < 0 {
      ParseDigitsOfNatToString(-i);
      assert s[1..] == NatToString(-i);
    } else {
      ParseDigitsOfNatToString(i);
    }
  }

  /** Distinct integers render to distinct strings, so a map keyed by
      `str(week)` is looked up by week without ambiguity. */
  lemma IntToStringInjective(a: int, b: int)
    ensures IntToString(a) == IntToString(b) ==> a == b
  {
    ParseIntToString(a);
    ParseIntToString(b);
  }

  /** Removing leading whitespace. */
  function TrimStart(s: string): (r: string)
    ensures |r| <= |s| && r == s[|s| - |r|..]
    ensures r == [] || !IsSpace(r[0])
    ensures forall i :: 0 <= i < |s| - |r| ==> IsSpace(s[i])
  {
    if s != [] && IsSpace(s[0]) then TrimStart(s[1..]) else s
  }

  /** Removing trailing whitespace. */
  function TrimEnd(s: string): (r: string)
    ensures |r| <= |s| && r == s[..|r|]
    ensures r == [] || !IsSpace(r[|r| - 1])
    ensures forall i :: |r| <= i < |s| ==> IsSpace(s[i])
  {
    if s != [] && IsSpace(s[|s| - 1]) then TrimEnd(s[..|s| - 1]) else s
  }

  /** Neither the first nor the last character is whitespace. */
  predicate IsStripped(s: string) {
    s == [] || (!IsSpace(s[0]) && !IsSpace(s[|s| - 1]))
  }

  predicate AllSpace(s: string) {
    forall i :: 0 <= i < |s| ==> IsSpace(s[i])
  }

  /** Python's `str.strip()`: the result is stripped, and it is empty exactly
      when the input is nothing but whitespace. */
  function Strip(s: string): (r: string)
    ensures |r| <= |s|
    ensures IsStripped(r)
    ensures r == [] <==> AllSpace(s)
  {
    var t := TrimStart(s);
    var r := TrimEnd(t);
    assert r != [] ==> r[0] == t[0];
    assert r == [] ==> t == [];
    r
  }

  /** Stripping a string that is already stripped changes nothing. */
  lemma StripStripped(s: string)
    requires IsStripped(s)
    ensures Strip(s) == s
  {
  }

  /** `s.strip().strip() == s.strip()`. */
  lemma StripIdempotent(s: string)
    ensures Strip(Strip(s)) == Strip(s)
  {
    StripStripped(Strip(s));
  }

  /** ASCII `str.lower()` for one character. */
  function LowerChar(c: char): char {
    if 'A' <= c <= 'Z' then (c as int + 32) as char else c
  }

  function Lower(s: string): (r: string)
    ensures |r| == |s|
    ensures forall i :: 0 <= i < |s| ==> r[i] == LowerChar(s[i])
  {
    seq(|s|, i requires 0 <= i < |s| => LowerChar(s[i]))
  }

  predicate IsPrefix(p: string, s: string) {
    |p| <= |s| && s[..|p|] == p
  }

  /** Python's `needle in hay` for strings, as a left-to-right scan. */
  function Contains(needle: string, hay: string): bool
    decreases |hay|
  {
    IsPrefix(needle, hay) || (hay != [] && Contains(needle, hay[1..]))
  }

  /** `needle` occurs at position `i` of `hay`. */
  ghost predicate OccursAt(needle: string, hay: string, i: int) {
    0 <= i && i + |needle| <= |hay| && hay[i..i + |needle|] == needle
  }

  /** The scan finds the needle exactly when it occurs somewhere. */
  lemma {:induction false} ContainsIffOccurs(needle: string, hay: string)
    ensures Contains(needle, hay) <==> exists i :: OccursAt(needle, hay, i)
    decreases |hay|
  {
    if IsPrefix(needle, hay) {
      assert OccursAt(needle, hay, 0);
    } else if hay == [] {
      assert forall i :: !OccursAt(needle, hay, i);
    } else {
      ContainsIffOccurs(needle, hay[1..]);
      if Contains(needle, hay[1..]) {
        var i :| OccursAt(needle, hay[1..], i);
        OccursInTail(needle, hay, i + 1);
      } else {
        forall i | OccursAt(needle, hay, i)
          ensures false
        {
          if i > 0 {
            OccursInTail(needle, hay, i);
          }
        }
      }
    }
  }

  /** An occurrence past the first character is one in the tail. */
  lemma OccursInTail(needle: string, hay: string, i: int)
    requires hay != [] && i > 0
    ensures OccursAt(needle, hay, i) <==> OccursAt(needle, hay[1..], i - 1)
  {
    if i + |needle| <= |hay| {
      assert hay[1..][i - 1..i - 1 + |needle|] == hay[i..i + |needle|];
    }
  }
}

=== FILE: trades.dfy ===
/** Trade analysis and creation (`api/trades.py`): the projected totals of
    both sides, their difference, the fairness score, the recommendations,
    and the row a new trade proposal becomes. */
module Trades {
  import opened Wrappers
  import opened Seqs
  import opened EspnStats
  import opened EspnService

  // ---------------------------------------------------------------------------
  // Side totals
  // ---------------------------------------------------------------------------

  /** `player.get("stats", {}).get("projected", {}).get("0", 0)`: the value
      under key "0" of the player's projected bucket, 0 when absent. */
  function ProjectedZero(p: RosterPlayer): real {
    var m := p.stats.projected.GetOr(map[]);
    if "0" in m then m["0"] else 0.0
  }

  /** `player["player_id"] in ids`. */
  function InTrade(ids: seq<int>): RosterPlayer -> bool {
    (p: RosterPlayer) => p.playerId.Some? && p.playerId.value in ids
  }

  /** The loop over a roster adding the projection of every player whose id
      is in the request list: each roster entry counts once, however often
      its id is listed. */
  function SideTotal(roster: seq<RosterPlayer>, ids: seq<int>): real {
    SumOf(Filter(roster, InTrade(ids)), ProjectedZero)
  }

  /** The total of a roster is its first entry's share plus the total of
      the rest. */
  lemma SideTotalCons(roster: seq<RosterPlayer>, ids: seq<int>)
    requires roster != []
    ensures SideTotal(roster, ids)
         == (if InTrade(ids)(roster[0]) then ProjectedZero(roster[0]) else 0.0) + SideTotal(roster[1..], ids)
  {
    var p := InTrade(ids);
    var head := if p(roster[0]) then [roster[0]] else [];
    assert Filter(roster, p) == head + Filter(roster[1..], p);
    SumAppend(head, Filter(roster[1..], p), ProjectedZero);
  }

  /** Two id lists that pick the same roster entries give the same total:
      ids that are not on the roster, repeated ids and the order of the ids
      change nothing. */
  lemma {:induction false} SideTotalDependsOnlyOnRoster(roster: seq<RosterPlayer>, a: seq<int>, b: seq<int>)
    requires forall k :: 0 <= k < |roster| ==> (InTrade(a)(roster[k]) <==> InTrade(b)(roster[k]))
    ensures SideTotal(roster, a) == SideTotal(roster, b)
    decreases |roster|
  {
    if roster != [] {
      SideTotalDependsOnlyOnRoster(roster[1..], a, b);
      SideTotalCons(roster, a);
      SideTotalCons(roster, b);
    }
  }

  /** Giving away two disjoint groups of players is worth the sum of giving
      each. */
  lemma {:induction false} SideTotalAdditive(roster: seq<RosterPlayer>, a: seq<int>, b: seq<int>)
    requires forall k :: 0 <= k < |roster| ==> !(InTrade(a)(roster[k]) && InTrade(b)(roster[k]))
    ensures SideTotal(roster, a + b) == SideTotal(roster, a) + SideTotal(roster, b)
    decreases |roster|
  {
    if roster != [] {
      SideTotalAdditive(roster[1..], a, b);
      SideTotalCons(roster, a);
      SideTotalCons(roster, b);
      SideTotalCons(roster, a + b);
      var p := roster[0];
      assert InTrade(a + b)(p) <==> InTrade(a)(p) || InTrade(b)(p);
    }
  }

  // ---------------------------------------------------------------------------
  // Fairness and recommendations
  // ---------------------------------------------------------------------------

  function Abs(x: real): real {
    if x < 0.0 then -x else x
  }

  /** The fairness score: 50 when neither side is worth anything, 0 when only
      the received side is, otherwise 100 less 100 times the relative gap
      between the sides, floored at 0. */
  function Fairness(give: real, receive: real): (f: real)
    ensures 0.0 <= f <= 100.0
    ensures give == 0.0 && receive == 0.0 ==> f == 50.0
    ensures give == 0.0 && receive != 0.0 ==> f == 0.0
    ensures give != 0.0 ==> (f == 100.0 <==> receive == give)
  {
    if give == 0.0 && receive == 0.0 then 50.0
    else if give == 0.0 then 0.0
    else
      var ratio := receive / give;
      var score := 100.0 - Abs(ratio - 1.0) * 100.0;
      if score > 0.0 then score else 0.0
  }

  /** The score only depends on how far the ratio of the sides is from 1:
      a ratio closer to 1 never scores lower, and a gap of 100% or more
      scores 0. */
  lemma FairnessByGap(give: real, r1: real, r2: real)
    requires give != 0.0
    ensures Abs(r1 / give - 1.0) <= Abs(r2 / give - 1.0) ==> Fairness(give, r1) >= Fairness(give, r2)
    ensures Abs(r1 / give - 1.0) >= 1.0 ==> Fairness(give, r1) == 0.0
    ensures Fairness(10.0, 15.0) == 50.0 && Fairness(10.0, 5.0) == 50.0 && Fairness(-10.0, 10.0) == 0.0
  {
  }

  /** The five value messages, from the best deal to the worst. */
  const HeavilyFavorsOpponent := "This trade heavily favors your opponent - consider carefully"
  const SlightlyFavorsOpponent := "This trade slightly favors your opponent"
  const Balanced := "This is a fairly balanced trade"
  const SlightlyFavorsYou := "This trade slightly favors you"
  const FavorsYou := "This trade favors you significantly - great deal!"
  const ValueMessages := [HeavilyFavorsOpponent, SlightlyFavorsOpponent, Balanced, SlightlyFavorsYou, FavorsYou]

  const LookForAlternatives := "Consider looking for more balanced alternatives"

  /** Which band the value difference falls in: the number of thresholds
      (-5, -2, 2, 5) it strictly exceeds. */
  function ValueBand(diff: real): (band: nat)
    ensures band < |ValueMessages|
    ensures band >= 1 <==> diff > -5.0
    ensures band >= 2 <==> diff > -2.0
    ensures band >= 3 <==> diff > 2.0
    ensures band >= 4 <==> diff > 5.0
  {
    if diff > 5.0 then 4
    else if diff > 2.0 then 3
    else if diff > -2.0 then 2
    else if diff > -5.0 then 1
    else 0
  }

  function ValueMessage(diff: real): string {
    ValueMessages[ValueBand(diff)]
  }

  /** A better deal never gets a worse message, and distinct bands get
      distinct messages, so exactly one message describes each difference. */
  lemma ValueMessageMonotone(d1: real, d2: real)
    ensures d1 <= d2 ==> ValueBand(d1) <= ValueBand(d2)
    ensures ValueMessage(d1) == ValueMessage(d2) <==> ValueBand(d1) == ValueBand(d2)
    ensures ValueMessage(0.0) == Balanced && ValueMessage(2.0) == Balanced && ValueMessage(-5.0) == HeavilyFavorsOpponent
  {
  }

  /** The recommendations of a complete analysis. */
  function Recommendations(diff: real, fairness: real): (r: seq<string>)
    ensures 1 <= |r| <= 2
    ensures r[0] == ValueMessage(diff)
    ensures LookForAlternatives in r <==> fairness < 60.0
  {
    [ValueMessage(diff)] + (if fairness < 60.0 then [LookForAlternatives] else [])
  }

  // ---------------------------------------------------------------------------
  // analyze_trade
  // ---------------------------------------------------------------------------

  /** `{"name", "position", "projected_points"}` of a traded player. */
  datatype Detail = Detail(name: string, position: string, projectedPoints: real)

  /** The details dict of one side: one entry per traded roster player, a
      later entry with the same id replacing an earlier one. */
  function Details(roster: seq<RosterPlayer>, ids: seq<int>): (d: map<int, Detail>)
    ensures forall id :: id in d <==> id in ids && exists k :: 0 <= k < |roster| && roster[k].playerId == Some(id)
    decreases |roster|
  {
    if roster == [] then map[]
    else
      var last := roster[|roster| - 1];
      var d := Details(roster[..|roster| - 1], ids);
      if InTrade(ids)(last) then
        d[last.playerId.value := Detail(last.fullName, last.positionName, ProjectedZero(last))]
      else d
  }

  /** What the summary sentence reports (its number formatting is not
      modelled). */
  datatype Summary =
    | ValidationFailed(error: ServiceError)
    | Complete(giveCount: nat, receiveCount: nat, valueDifference: real, fairness: real)
    | DetailUnavailable

  datatype Analysis = Analysis(
    isValid: bool,
    fairnessScore: Option<real>,
    valueDifference: Option<real>,
    summary: Summary,
    recommendations: seq<string>,
    giveDetails: map<int, Detail>,
    receiveDetails: map<int, Detail>)

  /** The request: league, the two teams and the ids each side gives. */
  datatype AnalysisRequest = AnalysisRequest(
    leagueId: int, proposingTeamId: int, receivingTeamId: int, give: seq<int>, receive: seq<int>)

  const CheckRosters := "Please check that all players are on the correct rosters"
  const ManualEvaluation := "Manual evaluation recommended"

  /** `analyze_trade`. `leagueOwned` is whether the league exists and belongs
      to the user; `proposing` and `receiving` are the roster fetches
      `validate_trade` makes; `proposingAgain` and `receivingAgain` the two
      the analysis makes afterwards. The outcome is the response, or the
      HTTP status of the error raised. */
  function AnalyzeTrade(leagueOwned: bool, req: AnalysisRequest,
                        proposing: Result<TeamRoster, ServiceError>, receiving: Result<TeamRoster, ServiceError>,
                        proposingAgain: Result<TeamRoster, ServiceError>, receivingAgain: Result<TeamRoster, ServiceError>): (r: Result<Analysis, int>)
    ensures !leagueOwned <==> r == Failure(404)
    ensures r.Success? ==> (r.value.isValid
      <==> ValidateTrade(req.proposingTeamId, req.receivingTeamId, proposing, receiving, req.give, req.receive).Valid?)
    ensures r.Success? && !r.value.isValid ==>
      r.value.fairnessScore.None? && r.value.valueDifference.None? && r.value.recommendations == [CheckRosters]
    ensures r.Success? && r.value.isValid && (proposingAgain.Failure? || receivingAgain.Failure?) ==>
      r.value.summary == DetailUnavailable && r.value.recommendations == [ManualEvaluation]
    ensures r.Success? && r.value.fairnessScore.Some? ==> (r.value.isValid
      && proposingAgain.Success? && receivingAgain.Success?
      && 0.0 <= r.value.fairnessScore.value <= 100.0
      && r.value.valueDifference == Some(SideTotal(receivingAgain.value.roster, req.receive)
                                         - SideTotal(proposingAgain.value.roster, req.give))
      && 1 <= |r.value.recommendations| <= 2
      && (LookForAlternatives in r.value.recommendations <==> r.value.fairnessScore.value < 60.0))
    ensures r.Success? && r.value.isValid && proposingAgain.Success? && receivingAgain.Success? ==>
      var g := SideTotal(proposingAgain.value.roster, req.give);
      var v := SideTotal(receivingAgain.value.roster, req.receive);
      r.value.fairnessScore == Some(Fairness(g, v)) && r.value.valueDifference == Some(v - g)
      && r.value.summary == Complete(|req.give|, |req.receive|, v - g, Fairness(g, v))
      && r.value.recommendations == Recommendations(v - g, Fairness(g, v))
      && r.value.giveDetails == Details(proposingAgain.value.roster, req.give)
      && r.value.receiveDetails == Details(receivingAgain.value.roster, req.receive)
  {
    if !leagueOwned then Failure(404)
    else
      var validation := ValidateTrade(req.proposingTeamId, req.receivingTeamId, proposing, receiving, req.give, req.receive);
      if validation.Invalid? then
        Success(Analysis(false, None, None, ValidationFailed(validation.error), [CheckRosters], map[], map[]))
      else if proposingAgain.Failure? || receivingAgain.Failure? then
        Success(Analysis(true, None, None, DetailUnavailable, [ManualEvaluation], map[], map[]))
      else
        var giveRoster := proposingAgain.value.roster;
        var receiveRoster := receivingAgain.value.roster;
        var giveTotal := SideTotal(giveRoster, req.give);
        var receiveTotal := SideTotal(receiveRoster, req.receive);
        var diff := receiveTotal - giveTotal;
        var fairness := Fairness(giveTotal, receiveTotal);
        Success(Analysis(true, Some(fairness), Some(diff),
          Complete(|req.give|, |req.receive|, diff, fairness),
          Recommendations(diff, fairness),
          Details(giveRoster, req.give), Details(receiveRoster, req.receive)))
  }

  /** A trade of nothing for nothing is scored 50 and balanced, so it is
      also told to look for alternatives. */
  lemma EmptyTradeAnalysis(req: AnalysisRequest, proposing: TeamRoster, receiving: TeamRoster)
    requires req.give == [] && req.receive == []
    ensures var r := AnalyzeTrade(true, req, Success(proposing), Success(receiving), Success(proposing), Success(receiving));
      r.Success? && r.value.fairnessScore == Some(50.0) && r.value.valueDifference == Some(0.0)
      && r.value.recommendations == [Balanced, LookForAlternatives]
  {
    assert forall k :: 0 <= k < |proposing.roster| ==> !InTrade([])(proposing.roster[k]);
    assert forall k :: 0 <= k < |receiving.roster| ==> !InTrade([])(receiving.roster[k]);
    NothingTraded(proposing.roster);
    NothingTraded(receiving.roster);
  }

  lemma {:induction false} NothingTraded(roster: seq<RosterPlayer>)
    ensures SideTotal(roster, []) == 0.0
    decreases |roster|
  {
    if roster != [] {
      NothingTraded(roster[1..]);
      SideTotalCons(roster, []);
    }
  }

  // ---------------------------------------------------------------------------
  // create_trade
  // ---------------------------------------------------------------------------

  datatype TradeStatus = Pending | Accepted | Rejected | Cancelled | Expired

  /** `timedelta(days=7)` in seconds. */
  const ProposalLifetime := 7 * 24 * 60 * 60

  datatype TradeRow = TradeRow(
    leagueId: int, proposingTeamId: int, receivingTeamId: int, userId: int,
    proposedPlayers: map<string, seq<int>>, status: TradeStatus, expiresAt: int)

  /** `create_trade` at time `now` (seconds): a pending proposal recording
      both id lists, expiring a week later; 404 when the league is not the
      user's. */
  function CreateTrade(leagueOwned: bool, req: AnalysisRequest, userId: int, now: int): (r: Result<TradeRow, int>)
    ensures !leagueOwned <==> r == Failure(404)
    ensures r.Success? ==> (r.value.status == Pending
      && r.value.expiresAt - now == 604800
      && r.value.proposedPlayers.Keys == {"give", "receive"}
      && r.value.proposedPlayers["give"] == req.give && r.value.proposedPlayers["receive"] == req.receive
      && r.value.leagueId == req.leagueId && r.value.userId == userId
      && r.value.proposingTeamId == req.proposingTeamId && r.value.receivingTeamId == req.receivingTeamId)
  {
    if !leagueOwned then Failure(404)
    else Success(TradeRow(req.leagueId, req.proposingTeamId, req.receivingTeamId, userId,
      map["give" := req.give, "receive" := req.receive], Pending, now + ProposalLifetime))
  }
}

=== FILE: weekly_recap.dfy ===
/** The weekly recap (`api/weekly_recap.py`): the matchup results the recap
    prompt is built from, for both platforms, and the dispatch of the recap
    request. The prompt's wording and the completion itself are not modelled:
    the completion is a parameter. */
module WeeklyRecap {
  import opened Wrappers
  import opened Domain
  import opened Seqs
  import opened Credentials
  import SS = SleeperService
  import ES = EspnService

  /** One line of the prompt's "MATCHUP RESULTS". */
  datatype Line = Line(winner: string, winnerScore: real, loser: string, loserScore: real, margin: real)

  /** Winner, loser and margin of a game between side 1 and side 2: the
      winner is the side with the higher score, and on a tie it is side 2. */
  function Decide(name1: string, score1: real, name2: string, score2: real): (l: Line)
    ensures l.winnerScore >= l.loserScore
    ensures l.margin == l.winnerScore - l.loserScore
    ensures (l.winner == name1 && l.winnerScore == score1 && l.loser == name2 && l.loserScore == score2)
         || (l.winner == name2 && l.winnerScore == score2 && l.loser == name1 && l.loserScore == score1)
    ensures score1 == score2 ==> l.winner == name2 && l.loser == name1
  {
    var first := score1 > score2;
    Line(if first then name1 else name2,
         if score1 >= score2 then score1 else score2,
         if first then name2 else name1,
         if score1 <= score2 then score1 else score2,
         if score1 - score2 >= 0.0 then score1 - score2 else score2 - score1)
  }

  // ---------------------------------------------------------------------------
  // Sleeper: grouping rows by matchup id
  // ---------------------------------------------------------------------------

  /** An element of `league/{id}/matchups/{week}`: one team's side of a game. */
  datatype MatchupRow = MatchupRow(matchupId: Option<int>, rosterId: Option<int>, points: Option<real>)

  /** One entry of `matchup_groups`: the rows with that matchup id, in order. */
  datatype Group = Group(key: Option<int>, rows: seq<MatchupRow>)

  function InMatchup(key: Option<int>): MatchupRow -> bool {
    (m: MatchupRow) => m.matchupId == key
  }

  function GroupKeyIs(key: Option<int>): Group -> bool {
    (g: Group) => g.key == key
  }

  /** One step of the grouping loop: append the row to the group of its
      matchup id, or open a new group at the end. */
  function AddRow(groups: seq<Group>, m: MatchupRow): seq<Group> {
    match FindFirst(groups, GroupKeyIs(m.matchupId))
    case Some(i) => groups[i := Group(groups[i].key, groups[i].rows + [m])]
    case None => groups + [Group(m.matchupId, [m])]
  }

  /** The grouping loop over all rows (a dict keeps insertion order). */
  function GroupByMatchup(rows: seq<MatchupRow>): seq<Group>
    decreases |rows|
  {
    if rows == [] then [] else AddRow(GroupByMatchup(rows[..|rows| - 1]), rows[|rows| - 1])
  }

  /** The index of the first row with that matchup id (`|rows|` if none). */
  function FirstSeen(rows: seq<MatchupRow>, key: Option<int>): nat {
    FindFirst(rows, InMatchup(key)).GetOr(|rows|)
  }

  /** One group per matchup id. */
  ghost predicate DistinctKeys(groups: seq<Group>) {
    forall i, j :: 0 <= i < j < |groups| ==> groups[i].key != groups[j].key
  }

  /** Each group holds exactly the rows with its id, in their order. */
  ghost predicate ExactRows(groups: seq<Group>, rows: seq<MatchupRow>) {
    forall i :: 0 <= i < |groups| ==> groups[i].rows == Filter(rows, InMatchup(groups[i].key))
  }

  ghost predicate HasGroup(groups: seq<Group>, key: Option<int>) {
    exists i :: 0 <= i < |groups| && groups[i].key == key
  }

  /** Every row's id has a group. */
  ghost predicate Covers(groups: seq<Group>, rows: seq<MatchupRow>) {
    forall k :: 0 <= k < |rows| ==> HasGroup(groups, rows[k].matchupId)
  }

  /** Every group's id occurs, and groups come in the order their ids first
      occur. */
  ghost predicate FirstSeenOrder(groups: seq<Group>, rows: seq<MatchupRow>) {
    (forall i :: 0 <= i < |groups| ==> FirstSeen(rows, groups[i].key) < |rows|)
    && (forall i, j :: 0 <= i < j < |groups| ==> FirstSeen(rows, groups[i].key) < FirstSeen(rows, groups[j].key))
  }

  /** `groups` partitions `rows` by matchup id. */
  ghost predicate Partitions(groups: seq<Group>, rows: seq<MatchupRow>) {
    DistinctKeys(groups) && ExactRows(groups, rows) && Covers(groups, rows) && FirstSeenOrder(groups, rows)
  }

  /** Appending a row changes one id's rows and first occurrence only by
      that row. */
  lemma AppendRowForKey(rows: seq<MatchupRow>, m: MatchupRow, key: Option<int>)
    ensures Filter(rows + [m], InMatchup(key))
         == Filter(rows, InMatchup(key)) + (if m.matchupId == key then [m] else [])
    ensures FirstSeen(rows, key) < |rows| ==> FirstSeen(rows + [m], key) == FirstSeen(rows, key)
    ensures FirstSeen(rows, key) == |rows| && m.matchupId == key ==> FirstSeen(rows + [m], key) == |rows|
  {
    var p := InMatchup(key);
    FilterAppend(rows, [m], p);
    assert [m][1..] == [];
    FindFirstAppend(rows, m, p);
  }

  /** A row whose id already has a group joins it. */
  lemma AddRowToGroup(groups: seq<Group>, rows: seq<MatchupRow>, m: MatchupRow, i0: nat)
    requires Partitions(groups, rows)
    requires i0 < |groups| && groups[i0].key == m.matchupId
    ensures Partitions(groups[i0 := Group(groups[i0].key, groups[i0].rows + [m])], rows + [m])
  {
    var g' := groups[i0 := Group(groups[i0].key, groups[i0].rows + [m])];
    assert forall i :: 0 <= i < |g'| ==> g'[i].key == groups[i].key;
    AddRowExactRows(groups, rows, m, i0);
    AddRowFirstSeen(groups, rows, m, i0);
    AddRowCovers(groups, rows, m, i0);
  }

  lemma AddRowExactRows(groups: seq<Group>, rows: seq<MatchupRow>, m: MatchupRow, i0: nat)
    requires DistinctKeys(groups) && ExactRows(groups, rows)
    requires i0 < |groups| && groups[i0].key == m.matchupId
    ensures ExactRows(groups[i0 := Group(groups[i0].key, groups[i0].rows + [m])], rows + [m])
  {
    var g' := groups[i0 := Group(groups[i0].key, groups[i0].rows + [m])];
    forall i | 0 <= i < |g'|
      ensures g'[i].rows == Filter(rows + [m], InMatchup(g'[i].key))
    {
      assert g'[i].key == groups[i].key;
      assert groups[i].rows == Filter(rows, InMatchup(groups[i].key));
      AppendRowForKey(rows, m, groups[i].key);
      if i != i0 {
        assert g'[i] == groups[i];
      }
    }
  }

  lemma AddRowFirstSeen(groups: seq<Group>, rows: seq<MatchupRow>, m: MatchupRow, i0: nat)
    requires FirstSeenOrder(groups, rows)
    requires i0 < |groups| && groups[i0].key == m.matchupId
    ensures FirstSeenOrder(groups[i0 := Group(groups[i0].key, groups[i0].rows + [m])], rows + [m])
  {
    var g' := groups[i0 := Group(groups[i0].key, groups[i0].rows + [m])];
    forall i | 0 <= i < |g'|
      ensures FirstSeen(rows + [m], g'[i].key) == FirstSeen(rows, groups[i].key)
    {
      AppendRowForKey(rows, m, groups[i].key);
    }
  }

  lemma AddRowCovers(groups: seq<Group>, rows: seq<MatchupRow>, m: MatchupRow, i0: nat)
    requires Covers(groups, rows)
    requires i0 < |groups| && groups[i0].key == m.matchupId
    ensures Covers(groups[i0 := Group(groups[i0].key, groups[i0].rows + [m])], rows + [m])
  {
    var g' := groups[i0 := Group(groups[i0].key, groups[i0].rows + [m])];
    var rows' := rows + [m];
    forall k | 0 <= k < |rows'|
      ensures HasGroup(g', rows'[k].matchupId)
    {
      if k < |rows| {
        assert rows'[k] == rows[k];
        var i :| 0 <= i < |groups| && groups[i].key == rows[k].matchupId;
        assert g'[i].key == rows'[k].matchupId;
      } else {
        assert g'[i0].key == rows'[k].matchupId;
      }
    }
  }

  /** An id no group has occurs in no row. */
  lemma NewKeyAbsent(groups: seq<Group>, rows: seq<MatchupRow>, key: Option<int>)
    requires Covers(groups, rows)
    requires forall i :: 0 <= i < |groups| ==> groups[i].key != key
    ensures Filter(rows, InMatchup(key)) == []
    ensures FirstSeen(rows, key) == |rows|
  {
    var p := InMatchup(key);
    forall k | 0 <= k < |rows|
      ensures !p(rows[k])
    {
      var i :| 0 <= i < |groups| && groups[i].key == rows[k].matchupId;
    }
    NoneSurvive(rows, p);
  }

  lemma NewGroupExactRows(groups: seq<Group>, rows: seq<MatchupRow>, m: MatchupRow)
    requires ExactRows(groups, rows)
    requires forall i :: 0 <= i < |groups| ==> groups[i].key != m.matchupId
    requires Filter(rows, InMatchup(m.matchupId)) == []
    ensures ExactRows(groups + [Group(m.matchupId, [m])], rows + [m])
  {
    var g' := groups + [Group(m.matchupId, [m])];
    forall i | 0 <= i < |g'|
      ensures g'[i].rows == Filter(rows + [m], InMatchup(g'[i].key))
    {
      if i < |groups| {
        assert g'[i] == groups[i];
      }
      AppendRowForKey(rows, m, g'[i].key);
    }
  }

  lemma NewGroupFirstSeen(groups: seq<Group>, rows: seq<MatchupRow>, m: MatchupRow)
    requires FirstSeenOrder(groups, rows)
    requires FirstSeen(rows, m.matchupId) == |rows|
    ensures FirstSeenOrder(groups + [Group(m.matchupId, [m])], rows + [m])
  {
    var g' := groups + [Group(m.matchupId, [m])];
    forall i | 0 <= i < |g'|
      ensures FirstSeen(rows + [m], g'[i].key) == if i < |groups| then FirstSeen(rows, groups[i].key) else |rows|
    {
      AppendRowForKey(rows, m, g'[i].key);
    }
  }

  lemma NewGroupCovers(groups: seq<Group>, rows: seq<MatchupRow>, m: MatchupRow)
    requires Covers(groups, rows)
    ensures Covers(groups + [Group(m.matchupId, [m])], rows + [m])
  {
    var g' := groups + [Group(m.matchupId, [m])];
    var rows' := rows + [m];
    forall k | 0 <= k < |rows'|
      ensures HasGroup(g', rows'[k].matchupId)
    {
      if k < |rows| {
        var i :| 0 <= i < |groups| && groups[i].key == rows[k].matchupId;
        assert g'[i].key == rows'[k].matchupId;
      } else {
        assert g'[|groups|].key == rows'[k].matchupId;
      }
    }
  }

  /** A row with a new id opens a group at the end. */
  lemma AddRowNewGroup(groups: seq<Group>, rows: seq<MatchupRow>, m: MatchupRow)
    requires Partitions(groups, rows)
    requires forall i :: 0 <= i < |groups| ==> groups[i].key != m.matchupId
    ensures Partitions(groups + [Group(m.matchupId, [m])], rows + [m])
  {
    NewKeyAbsent(groups, rows, m.matchupId);
    NewGroupExactRows(groups, rows, m);
    NewGroupFirstSeen(groups, rows, m);
    NewGroupCovers(groups, rows, m);
    var g' := groups + [Group(m.matchupId, [m])];
    assert forall i :: 0 <= i < |groups| ==> g'[i] == groups[i];
  }

  /** The grouping partitions the rows: every row is in the group of its
      matchup id and in no other (a missing id is a key like any other),
      and groups come in the order their ids first appear. */
  lemma {:induction false} GroupByMatchupPartitions(rows: seq<MatchupRow>)
    ensures Partitions(GroupByMatchup(rows), rows)
    decreases |rows|
  {
    if rows != [] {
      var pre := rows[..|rows| - 1];
      var m := rows[|rows| - 1];
      GroupByMatchupPartitions(pre);
      var groups := GroupByMatchup(pre);
      assert pre + [m] == rows;
      match FindFirst(groups, GroupKeyIs(m.matchupId))
      case Some(i) => AddRowToGroup(groups, pre, m, i);
      case None => AddRowNewGroup(groups, pre, m);
    }
  }

  /** A group's rows are the rows with its id. */
  lemma InGroupIff(groups: seq<Group>, rows: seq<MatchupRow>, i: nat, x: MatchupRow)
    requires ExactRows(groups, rows) && i < |groups|
    ensures x in groups[i].rows <==> x in rows && x.matchupId == groups[i].key
  {
    FilterMembers(rows, InMatchup(groups[i].key));
  }

  /** Every row lands in exactly one group: the one for its own id. */
  lemma RowInOneGroup(rows: seq<MatchupRow>, k: nat)
    requires k < |rows|
    ensures exists i :: (0 <= i < |GroupByMatchup(rows)| && GroupByMatchup(rows)[i].key == rows[k].matchupId
      && rows[k] in GroupByMatchup(rows)[i].rows)
    ensures forall i :: (0 <= i < |GroupByMatchup(rows)| && rows[k] in GroupByMatchup(rows)[i].rows
      ==> GroupByMatchup(rows)[i].key == rows[k].matchupId)
  {
    var groups := GroupByMatchup(rows);
    GroupByMatchupPartitions(rows);
    var x := rows[k];
    assert x in rows;
    var i :| 0 <= i < |groups| && groups[i].key == x.matchupId;
    InGroupIff(groups, rows, i, x);
    forall j | 0 <= j < |groups| && x in groups[j].rows
      ensures groups[j].key == x.matchupId
    {
      InGroupIff(groups, rows, j, x);
    }
  }

  // ---------------------------------------------------------------------------
  // Sleeper: owner names and pairing
  // ---------------------------------------------------------------------------

  function RosterIdIs(key: Option<int>): SS.Roster -> bool {
    (r: SS.Roster) => r.rosterId == key
  }

  /** `roster_owners`: every roster's team name under its roster id, a later
      roster with the same id replacing the earlier one. */
  function RosterOwners(rosters: seq<SS.Roster>, users: seq<SS.User>): (m: map<Option<int>, string>)
    ensures forall k :: k in m <==> exists i :: 0 <= i < |rosters| && rosters[i].rosterId == k
    decreases |rosters|
  {
    if rosters == [] then map[]
    else
      var pre := rosters[..|rosters| - 1];
      var last := rosters[|rosters| - 1];
      assert forall i :: 0 <= i < |pre| ==> pre[i] == rosters[i];
      RosterOwners(pre, users)[last.rosterId := SS.TeamName(last, users)]
  }

  /** The name under a roster id is that of the LAST roster with the id. */
  lemma {:induction false} RosterOwnersLastWins(rosters: seq<SS.Roster>, users: seq<SS.User>, k: Option<int>)
    requires k in RosterOwners(rosters, users)
    ensures FindLast(rosters, RosterIdIs(k)).Some?
    ensures RosterOwners(rosters, users)[k] == SS.TeamName(rosters[FindLast(rosters, RosterIdIs(k)).value], users)
    decreases |rosters|
  {
    var pre := rosters[..|rosters| - 1];
    if rosters[|rosters| - 1].rosterId != k {
      RosterOwnersLastWins(pre, users, k);
    }
  }

  /** `roster_owners.get(roster_id, "Unknown")`. */
  function OwnerName(owners: map<Option<int>, string>, rosterId: Option<int>): string {
    if rosterId in owners then owners[rosterId] else "Unknown"
  }

  function Points(m: MatchupRow): real {
    m.points.GetOr(0.0)
  }

  predicate IsPair(g: Group) {
    |g.rows| == 2
  }

  /** The line of a two-row group: its first row is side 1. */
  function PairLine(g: Group, owners: map<Option<int>, string>): Line
    requires IsPair(g)
  {
    Decide(OwnerName(owners, g.rows[0].rosterId), Points(g.rows[0]),
           OwnerName(owners, g.rows[1].rosterId), Points(g.rows[1]))
  }

  /** The pairing loop: one line per group of exactly two rows, in group
      order; groups of any other size give nothing. */
  function PairLines(groups: seq<Group>, owners: map<Option<int>, string>): (r: seq<Line>)
    ensures |r| == |Filter(groups, IsPair)|
    ensures forall i :: 0 <= i < |r| ==> r[i] == PairLine(Filter(groups, IsPair)[i], owners)
    decreases |groups|
  {
    if groups == [] then []
    else (if IsPair(groups[0]) then [PairLine(groups[0], owners)] else []) + PairLines(groups[1..], owners)
  }

  /** What `get_sleeper_weekly_data` returns. */
  datatype SleeperWeek = SleeperWeek(matchups: seq<MatchupRow>, rosters: seq<SS.Roster>, users: seq<SS.User>)

  /** The Sleeper branch of the prompt builder. */
  function SleeperLines(w: SleeperWeek): seq<Line> {
    PairLines(GroupByMatchup(w.matchups), RosterOwners(w.rosters, w.users))
  }

  /** Rows of two games and a row without a matchup id group into three
      groups, in the order the ids first occur. */
  lemma GroupingExample()
    ensures var a := MatchupRow(Some(1), Some(1), Some(100.0));
      var b := MatchupRow(Some(2), Some(3), Some(80.0));
      var c := MatchupRow(Some(1), Some(2), Some(90.0));
      var d := MatchupRow(Some(2), Some(4), None);
      var e := MatchupRow(None, Some(5), Some(50.0));
      GroupByMatchup([a, b, c, d, e])
        == [Group(Some(1), [a, c]), Group(Some(2), [b, d]), Group(None, [e])]
  {
    var a := MatchupRow(Some(1), Some(1), Some(100.0));
    var b := MatchupRow(Some(2), Some(3), Some(80.0));
    var c := MatchupRow(Some(1), Some(2), Some(90.0));
    var d := MatchupRow(Some(2), Some(4), None);
    var e := MatchupRow(None, Some(5), Some(50.0));
    assert [a][..0] == [];
    assert GroupByMatchup([a]) == AddRow(GroupByMatchup([]), a);
    var g1 := GroupByMatchup([a]);
    assert g1 == [Group(Some(1), [a])];
    assert [a, b][..1] == [a];
    var g2 := GroupByMatchup([a, b]);
    assert g2 == [Group(Some(1), [a]), Group(Some(2), [b])];
    assert [a, b, c][..2] == [a, b];
    assert FindFirst(g2, GroupKeyIs(Some(1))) == Some(0);
    assert GroupByMatchup([a, b, c]) == AddRow(g2, c);
    assert [a] + [c] == [a, c] && [b] + [d] == [b, d];
    var g3 := GroupByMatchup([a, b, c]);
    assert g3 == [Group(Some(1), [a, c]), Group(Some(2), [b])];
    assert [a, b, c, d][..3] == [a, b, c];
    assert g3[1..] == [Group(Some(2), [b])];
    assert FindFirst(g3[1..], GroupKeyIs(Some(2))) == Some(0);
    assert FindFirst(g3, GroupKeyIs(Some(2))) == Some(1);
    assert GroupByMatchup([a, b, c, d]) == AddRow(g3, d);
    var g4 := GroupByMatchup([a, b, c, d]);
    assert g4 == [Group(Some(1), [a, c]), Group(Some(2), [b, d])];
    assert [a, b, c, d, e][..4] == [a, b, c, d];
    assert GroupByMatchup([a, b, c, d, e]) == AddRow(g4, e);
  }

  /** The groups above give two lines: the tied game goes to its second
      row, an unknown roster is "Unknown" with a missing score of 0, and
      the lone row gives none. */
  lemma PairLinesExample()
    ensures var a := MatchupRow(Some(1), Some(1), Some(100.0));
      var b := MatchupRow(Some(2), Some(3), Some(80.0));
      var c := MatchupRow(Some(1), Some(2), Some(90.0));
      var d := MatchupRow(Some(2), Some(4), None);
      var e := MatchupRow(None, Some(5), Some(50.0));
      var f := MatchupRow(Some(3), Some(6), Some(70.0));
      var g := MatchupRow(Some(3), Some(7), Some(70.0));
      var owners := map[Some(1) := "Ann", Some(2) := "Bo", Some(3) := "Cy", Some(6) := "Di", Some(7) := "Ed"];
      PairLines([Group(Some(1), [a, c]), Group(Some(2), [b, d]), Group(None, [e]), Group(Some(3), [f, g])], owners)
        == [Line("Ann", 100.0, "Bo", 90.0, 10.0), Line("Cy", 80.0, "Unknown", 0.0, 80.0), Line("Ed", 70.0, "Di", 70.0, 0.0)]
  {
    var a := MatchupRow(Some(1), Some(1), Some(100.0));
    var b := MatchupRow(Some(2), Some(3), Some(80.0));
    var c := MatchupRow(Some(1), Some(2), Some(90.0));
    var d := MatchupRow(Some(2), Some(4), None);
    var e := MatchupRow(None, Some(5), Some(50.0));
    var f := MatchupRow(Some(3), Some(6), Some(70.0));
    var g := MatchupRow(Some(3), Some(7), Some(70.0));
    var gs := [Group(Some(1), [a, c]), Group(Some(2), [b, d]), Group(None, [e]), Group(Some(3), [f, g])];
    assert gs[1..] == [Group(Some(2), [b, d]), Group(None, [e]), Group(Some(3), [f, g])];
    assert gs[1..][1..] == [Group(None, [e]), Group(Some(3), [f, g])];
    assert gs[1..][1..][1..] == [Group(Some(3), [f, g])];
    assert gs[1..][1..][1..][1..] == [];
    var owners := map[Some(1) := "Ann", Some(2) := "Bo", Some(3) := "Cy", Some(6) := "Di", Some(7) := "Ed"];
    assert PairLine(gs[0], owners) == Line("Ann", 100.0, "Bo", 90.0, 10.0);
    assert PairLine(gs[1], owners) == Line("Cy", 80.0, "Unknown", 0.0, 80.0);
    assert PairLine(gs[3], owners) == Line("Ed", 70.0, "Di", 70.0, 0.0);
    assert PairLines(gs[1..][1..][1..], owners) == [PairLine(gs[3], owners)];
    assert PairLines(gs[1..][1..], owners) == [PairLine(gs[3], owners)];
  }

  // ---------------------------------------------------------------------------
  // ESPN
  // ---------------------------------------------------------------------------

  /** A side as the ESPN branch reads it: `team_id` and `total_points`. */
  datatype RecapSide = RecapSide(teamId: Option<int>, totalPoints: Option<real>)

  /** A matchup as the ESPN branch reads it: `matchup.get("home", {})` and
      `matchup.get("away")` (absent, null or empty is `None`). */
  datatype RecapMatchup = RecapMatchup(home: RecapSide, away: Option<RecapSide>)

  const EmptySide := RecapSide(None, None)

  function TeamIdIs(id: Option<int>): ES.TeamSummary -> bool {
    (t: ES.TeamSummary) => t.id == id
  }

  /** `teams_dict.get(team_id)["name"]`, "Unknown" without a team: the dict
      keeps the LAST team with each id. */
  function TeamNameOf(teams: seq<ES.TeamSummary>, id: Option<int>): string {
    match FindLast(teams, TeamIdIs(id))
    case None => "Unknown"
    case Some(i) => teams[i].name
  }

  predicate HasAway(m: RecapMatchup) {
    m.away.Some?
  }

  /** The line of a matchup with an away side: home is side 1. */
  function SideLine(m: RecapMatchup, teams: seq<ES.TeamSummary>): Line
    requires HasAway(m)
  {
    Decide(TeamNameOf(teams, m.home.teamId), m.home.totalPoints.GetOr(0.0),
           TeamNameOf(teams, m.away.value.teamId), m.away.value.totalPoints.GetOr(0.0))
  }

  /** The ESPN loop of the prompt builder: one line per matchup that has an
      away side, in order. */
  function EspnBranchLines(ms: seq<RecapMatchup>, teams: seq<ES.TeamSummary>): (r: seq<Line>)
    ensures |r| == |Filter(ms, HasAway)|
    ensures forall i :: 0 <= i < |r| ==> r[i] == SideLine(Filter(ms, HasAway)[i], teams)
    decreases |ms|
  {
    if ms == [] then []
    else (if HasAway(ms[0]) then [SideLine(ms[0], teams)] else []) + EspnBranchLines(ms[1..], teams)
  }

  /** How the branch sees an element of `get_matchups` AS WRITTEN: those
      dicts carry `home_team_id`, `away_team_id`, `home_score` and
      `away_score` but no `home` or `away` key, so home reads as `{}` and away
      as absent. */
  function AsWrittenView(m: ES.Matchup): RecapMatchup {
    RecapMatchup(EmptySide, None)
  }

  /** The ESPN prompt lines as written: always none. */
  function EspnLinesAsWritten(w: EspnWeek): seq<Line> {
    EspnBranchLines(Map(w.matchups, AsWrittenView), w.teams)
  }

  lemma EspnLinesAsWrittenAreEmpty(w: EspnWeek)
    ensures EspnLinesAsWritten(w) == []
  {
    var ms := Map(w.matchups, AsWrittenView);
    NoneSurvive(ms, HasAway);
  }

  /** The evident intent: read each matchup's sides from the keys
      `get_matchups` does produce. A bye (no away team) has no away side. */
  function CorrectedView(m: ES.Matchup): RecapMatchup {
    RecapMatchup(RecapSide(m.homeTeamId, Some(m.homeScore)),
      if m.awayTeamId.Some? then Some(RecapSide(m.awayTeamId, Some(m.awayScore))) else None)
  }

  predicate HasAwayTeam(m: ES.Matchup) {
    m.awayTeamId.Some?
  }

  /** What `get_espn_weekly_data` returns. */
  datatype EspnWeek = EspnWeek(matchups: seq<ES.Matchup>, teams: seq<ES.TeamSummary>)

  /** The ESPN branch of the prompt builder, reading the matchups' own keys. */
  function EspnLines(w: EspnWeek): seq<Line> {
    EspnBranchLines(Map(w.matchups, CorrectedView), w.teams)
  }

  /** One line per matchup with an away team, in order: home against away
      with their scores, the names taken from the week's teams. */
  lemma EspnLinesCorrect(w: EspnWeek)
    ensures |EspnLines(w)| == |Filter(w.matchups, HasAwayTeam)|
    ensures forall i :: 0 <= i < |EspnLines(w)| ==>
      var m := Filter(w.matchups, HasAwayTeam)[i];
      EspnLines(w)[i] == Decide(TeamNameOf(w.teams, m.homeTeamId), m.homeScore,
                                TeamNameOf(w.teams, m.awayTeamId), m.awayScore)
  {
    FilterMap(w.matchups, CorrectedView, HasAway, HasAwayTeam);
    var f := Filter(w.matchups, HasAwayTeam);
    assert Filter(Map(w.matchups, CorrectedView), HasAway) == Map(f, CorrectedView);
  }

  /** The discrepancy on one decided game: as written the prompt gets no
      line, the corrected reading gets the game. */
  lemma EspnRecapFindingExample()
    ensures var m := ES.Matchup(Some(1), Some(3), Some(1), Some(2), 110.0, 95.5, None, None, false, "HOME");
      var alpha := ES.TeamSummary(Some(1), "Alpha", "", "", "", "", 0, 0, 0, 0.0, 0.0);
      var beta := ES.TeamSummary(Some(2), "Beta", "", "", "", "", 0, 0, 0, 0.0, 0.0);
      var w := EspnWeek([m], [alpha, beta]);
      EspnLinesAsWritten(w) == [] && EspnLines(w) == [Line("Alpha", 110.0, "Beta", 95.5, 14.5)]
  {
    var m := ES.Matchup(Some(1), Some(3), Some(1), Some(2), 110.0, 95.5, None, None, false, "HOME");
    var alpha := ES.TeamSummary(Some(1), "Alpha", "", "", "", "", 0, 0, 0, 0.0, 0.0);
    var beta := ES.TeamSummary(Some(2), "Beta", "", "", "", "", 0, 0, 0, 0.0, 0.0);
    var w := EspnWeek([m], [alpha, beta]);
    EspnLinesAsWrittenAreEmpty(w);
    assert [alpha, beta][..1] == [alpha];
    assert FindLast([alpha], TeamIdIs(Some(1))) == Some(0);
    assert FindLast([alpha, beta], TeamIdIs(Some(1))) == Some(0);
    assert TeamNameOf(w.teams, Some(1)) == "Alpha";
    assert TeamNameOf(w.teams, Some(2)) == "Beta";
    assert Map(w.matchups, CorrectedView) == [CorrectedView(m)];
    assert [CorrectedView(m)][1..] == [];
  }

  // ---------------------------------------------------------------------------
  // get_weekly_recap
  // ---------------------------------------------------------------------------

  /** A failed weekly-data fetch: an ESPN or Sleeper error, or anything
      else. */
  datatype FetchError = PlatformError | OtherError

  /** The league row the recap reads. */
  datatype RecapLeague = RecapLeague(name: string, platform: Platform, credentials: Stored)

  /** What the completion is asked about. */
  datatype Prompt = Prompt(leagueName: string, week: int, lines: seq<Line>)

  datatype Recap = Recap(recap: string, week: int, leagueName: string, generatedAt: Option<string>)

  const RecapUnavailable := "AI recap unavailable. Please configure GROQ_API_KEY to enable hilarious weekly recaps!"

  /** The prompt lines of the week, or the fetch's failure, with
      `espnLines` reading an ESPN week. */
  function LinesWith(c: Cipher, l: RecapLeague,
                     fetchEspn: Option<ES.Cookies> -> Result<EspnWeek, FetchError>,
                     fetchSleeper: Result<SleeperWeek, FetchError>,
                     espnLines: EspnWeek -> seq<Line>): Result<seq<Line>, FetchError> {
    match l.platform
    case Espn =>
      (match fetchEspn(LeagueCookies(c, l.credentials))
       case Failure(e) => Failure(e)
       case Success(w) => Success(espnLines(w)))
    case Sleeper =>
      (match fetchSleeper
       case Failure(e) => Failure(e)
       case Success(w) => Success(SleeperLines(w)))
  }

  /** The prompt lines as the endpoint builds them. */
  function WeekLines(c: Cipher, l: RecapLeague,
                     fetchEspn: Option<ES.Cookies> -> Result<EspnWeek, FetchError>,
                     fetchSleeper: Result<SleeperWeek, FetchError>): Result<seq<Line>, FetchError> {
    LinesWith(c, l, fetchEspn, fetchSleeper, EspnLinesAsWritten)
  }

  /** The prompt lines with the ESPN branch reading the matchups' own keys. */
  function WeekLinesCorrected(c: Cipher, l: RecapLeague,
                              fetchEspn: Option<ES.Cookies> -> Result<EspnWeek, FetchError>,
                              fetchSleeper: Result<SleeperWeek, FetchError>): Result<seq<Line>, FetchError> {
    LinesWith(c, l, fetchEspn, fetchSleeper, EspnLines)
  }

  /** The response for a found league from its week's lines: a failed
      fetch is a 503 for a platform error and a 500 otherwise; without an
      LLM the fixed message; else the completion of the prompt. */
  function RecapOf(l: RecapLeague, week: int, lines: Result<seq<Line>, FetchError>,
                   llmAvailable: bool, complete: Prompt -> Option<string>): Result<Recap, int> {
    match lines
    case Failure(e) => Failure(if e == PlatformError then 503 else 500)
    case Success(lines) =>
      if !llmAvailable then Success(Recap(RecapUnavailable, week, l.name, None))
      else
        match complete(Prompt(l.name, week, lines))
        case None => Failure(500)
        case Some(text) => Success(Recap(text, week, l.name, Some("just now")))
  }

  /** `get_weekly_recap(league_id, week)`. `league` is the user's league with
      that id, if any; `fetchEspn` is the ESPN weekly fetch for the cookies it
      is given; `complete` is the completion for a prompt, `None` when the
      call fails. The outcome is the response or the HTTP status raised. As
      written, the prompt of an ESPN league never has a game line. */
  function GetWeeklyRecap(c: Cipher, league: Option<RecapLeague>, week: int,
                          fetchEspn: Option<ES.Cookies> -> Result<EspnWeek, FetchError>,
                          fetchSleeper: Result<SleeperWeek, FetchError>,
                          llmAvailable: bool, complete: Prompt -> Option<string>): (r: Result<Recap, int>)
    ensures league.None? <==> r == Failure(404)
    ensures r != Failure(400)
    ensures r.Failure? ==> r.error in {404, 500, 503}
    ensures league.Some? && WeekLines(c, league.value, fetchEspn, fetchSleeper) == Failure(PlatformError) ==> r == Failure(503)
    ensures r.Success? ==> (league.Some? && r.value.week == week && r.value.leagueName == league.value.name
      && WeekLines(c, league.value, fetchEspn, fetchSleeper).Success?)
    ensures r.Success? ==> (r.value.generatedAt.None? <==> !llmAvailable)
    ensures r.Success? && !llmAvailable ==> r.value.recap == RecapUnavailable
    ensures r.Success? && llmAvailable ==>
      Some(r.value.recap) == complete(Prompt(league.value.name, week, WeekLines(c, league.value, fetchEspn, fetchSleeper).value))
    ensures r.Success? && llmAvailable && league.value.platform == Espn ==>
      Some(r.value.recap) == complete(Prompt(league.value.name, week, []))
  {
    if league.None? then Failure(404)
    else
      var l := league.value;
      if l.platform == Espn && fetchEspn(LeagueCookies(c, l.credentials)).Success? then
        EspnLinesAsWrittenAreEmpty(fetchEspn(LeagueCookies(c, l.credentials)).value);
        RecapOf(l, week, WeekLines(c, l, fetchEspn, fetchSleeper), llmAvailable, complete)
      else
        RecapOf(l, week, WeekLines(c, l, fetchEspn, fetchSleeper), llmAvailable, complete)
  }

  /** The endpoint with the ESPN branch corrected. It answers exactly as the
      endpoint as written does for a missing league, a Sleeper league, a
      failed fetch, or without an LLM; an ESPN league's prompt carries the
      week's game lines. */
  function GetWeeklyRecapCorrected(c: Cipher, league: Option<RecapLeague>, week: int,
                                   fetchEspn: Option<ES.Cookies> -> Result<EspnWeek, FetchError>,
                                   fetchSleeper: Result<SleeperWeek, FetchError>,
                                   llmAvailable: bool, complete: Prompt -> Option<string>): (r: Result<Recap, int>)
    ensures league.None? || league.value.platform == Sleeper || !llmAvailable
      ==> r == GetWeeklyRecap(c, league, week, fetchEspn, fetchSleeper, llmAvailable, complete)
    ensures league.Some? && WeekLines(c, league.value, fetchEspn, fetchSleeper).Failure?
      ==> r == GetWeeklyRecap(c, league, week, fetchEspn, fetchSleeper, llmAvailable, complete)
    ensures r.Success? ==> league.Some?
    ensures r.Success? && llmAvailable && league.value.platform == Espn ==>
      fetchEspn(LeagueCookies(c, league.value.credentials)).Success?
      && Some(r.value.recap)
         == complete(Prompt(league.value.name, week, EspnLines(fetchEspn(LeagueCookies(c, league.value.credentials)).value)))
  {
    if league.None? then Failure(404)
    else RecapOf(league.value, week, WeekLinesCorrected(c, league.value, fetchEspn, fetchSleeper), llmAvailable, complete)
  }

  /** An ESPN league's data is fetched with the cookies of the league's own
      stored credentials. */
  lemma EspnRecapUsesLeagueCookies(c: Cipher, l: RecapLeague, fetchEspn: Option<ES.Cookies> -> Result<EspnWeek, FetchError>,
                                   fetchSleeper: Result<SleeperWeek, FetchError>)
    requires l.platform == Espn
    ensures WeekLines(c, l, fetchEspn, fetchSleeper).Success?
        <==> fetchEspn(LeagueCookies(c, l.credentials)).Success?
  {
  }
}

=== FILE: wrappers.dfy ===
/** Failure-compatible wrappers used throughout the model: a value that may be
    absent (Python's `None`) and the outcome of an operation that may raise. */
module Wrappers {

  /** A value that may be missing: an absent JSON key or a `None`. */
  datatype Option<+T> = None | Some(value: T) {

    /** The value, or `default` when absent (Python's `d.get(k, default)`). */
    function GetOr(default: T): T {
      match this
      case Some(v) => v
      case None => default
    }
  }

  /** The outcome of an operation that either returns a value or raises an error. */
  datatype Result<+T, +E> = Success(value: T) | Failure(error: E) {

    predicate IsFailure() {
      Failure?
    }

    function PropagateFailure<U>(): Result<U, E>
      requires Failure?
    {
      Failure(error)
    }

    function Extract(): T
      requires Success?
    {
      value
    }
  }
}
